=== FILE: README.md ===
# Alibaba Cloud OpenAPI request signing, in Dafny

This project models the part of the Rust Alibaba Cloud OpenAPI client that runs
before a request goes on the wire. That part builds each request and signs it so
that the server can recompute the same bytes and check them. The client has three
signing dialects, and each exists twice: a blocking version under `src/` and an
async builder under `src/client/`.

- **RPC** (`src/client/rpc.rs`, `src/rpc.rs`). The signed parameters are three
  fixed ones (`Format`, `SignatureMethod`, `SignatureVersion`), then `Action`,
  `AccessKeyId`, `SignatureNonce`, `Timestamp` and `Version`, then the caller's
  query. They are stably sorted by key and percent-encoded as `k=v` pieces joined
  by `&`. The string-to-sign is `GET&%2F&` followed by the encoded query string,
  with a literal `GET` whatever the request's method. The signature is base64 of
  HMAC-SHA1, keyed by the secret followed by `&`. It travels as the first query
  parameter of `endpoint?Signature=…&<sorted query>`.
- **ROA** (`src/client/roa.rs`, `src/roa.rs`). The signature goes into a header.
  The two clients build the header map differently:
  - In the async client the builder holds either the body headers
    (`content-length`, `content-md5`) or the caller's map, because `header`
    replaces the whole map. `send` then inserts `accept`,
    `x-acs-signature-method`, `user-agent` and `x-sdk-client` over the caller's
    values, then `host`, `date` and `x-acs-signature-nonce`.
  - The blocking client seeds six headers when the builder is made: the four
    above, `x-acs-signature-version` and `x-acs-version`. `body` and `header`
    insert into that map, and `send` adds `date`, `x-acs-signature-nonce` and
    `host`, in that order.

  The string-to-sign has seven lines:
  - the upper-cased method;
  - `accept`;
  - `content-md5` (or an empty line);
  - `content-type` (or an empty line);
  - `date`;
  - the sorted `x-acs-*` headers as `name:value` lines;
  - the uri with its raw, key-sorted query.

  It is signed with HMAC-SHA1 under the bare secret and sent as
  `Authorization: acs <id>:<signature>`.
- **Log service** (`src/client/log_service.rs`). This dialect works like ROA, with
  these differences:
  - `x-log-bodyrawsize` and `accept` are defaults that yield to the caller's values;
  - the host is the endpoint without its scheme, behind `<project>.`;
  - both `x-acs-*` and `x-log-*` headers are canonicalized;
  - the string-to-sign has six lines, with no `accept` line;
  - `content-md5` is upper-case hex;
  - the scheme is `SLS`.

The modules follow that structure:

- **Dialect modules.** `RpcClient`, `RpcLegacy`, `RoaClient`, `RoaLegacy` and
  `LogService` have one module per source file.
- **Shared signing modules.**
  - `RpcSigning` holds the RPC signature, whose code is the same in both RPC files.
  - `RoaSigning` holds the ROA string-to-sign and signature, the same in both ROA
    files.
  - `Canonical` holds the canonicalized headers and resource, which all three header
    signers share.
- **Substrate modules.**
  - `Headers`: an `http::HeaderMap` with lower-case names and the crate's validity
    rules.
  - `Sorting`: a stable insertion sort by key.
  - `UrlEncoding`: `url_encode` and a percent-decoder for it.
  - `Codecs`: base64 (section 4 of RFC 4648) and upper-case hex.
  - `Strings`, `Utf8`, `Payload`, `Authorization`, `Crypto`, `Wire` and `Outcomes`.

Failures are modelled as values:

- **`Err`** covers the crate's error enum: an unparsable header value, an invalid
  request (bad header, endpoint without a host, bad method), a server error
  envelope, and a failed exchange.
- **`Panic`** stands for an `unwrap` in the source that can fail.

The clock, the nonce, the agent string, the endpoint's parsed host, the HTTP
exchange and the HMAC-SHA1 and MD5 functions are parameters. A reply is the
status, the body text and the decoded error envelope, if any.

## Model

| member | source | states |
|---|---|---|
| UrlEncoding.UrlEncode | src/client/rpc.rs:243-248 | the form-urlencoded serialisation with the three rewrites is exactly RFC 3986 percent-encoding of the UTF-8 bytes, and its output is only unreserved characters and `%HH` escapes |
| UrlEncoding.RewritesArePercentEncoding | src/rpc.rs:255-260 | rewriting `+`, `*` and `%7E` in that order turns the form serialisation of any byte string into its percent-encoding; the blocking module's copy is the same transformation |
| UrlEncoding.StageRewrite | src/client/rpc.rs:245-247 | each rewrite maps the token stream of one stage onto the next: a pattern never straddles two tokens, and a `%HH` escape is never mistaken for `%7E` unless it is one |
| UrlEncoding.PercentRoundTrip | src/client/rpc.rs:243-248 | decoding the percent-encoding of any bytes gives those bytes back |
| UrlEncoding.UrlEncodeDecodes | src/client/rpc.rs:243-248 | a server decoding `url_encode(s)` recovers the UTF-8 bytes of `s` |
| UrlEncoding.WellEncodedAvoids | src/client/rpc.rs:243-248 | no character outside the unreserved set and `%` (in particular `&`, `=`, `+`, `/`) can appear in encoded text |
| UrlEncoding.UrlEncodeSlash | src/client/rpc.rs:195 | `url_encode("/")` is `%2F` |
| UrlEncoding.UrlEncodeUnreserved | src/client/rpc.rs:243-248 | text made only of unreserved characters is left unchanged |
| UrlEncoding.UrlEncodeExample | src/client/rpc.rs:255-262 | the unit test's input `begin_+_*_~_-_._"_ end` encodes to `begin_%2B_%2A_~_-_._%22_%20end` |
| Sorting.InsertByKey | src/client/rpc.rs:185 | inserting one pair into a key-sorted list keeps it sorted, adds exactly that pair, and puts it in front of the pairs with the same key |
| Sorting.SortByKey | src/client/rpc.rs:185 | `sort_by_key` yields a key-sorted permutation in which the pairs of every key keep their input order (stability) |
| Sorting.SortedUnique | src/client/rpc.rs:185 | two key-sorted lists with the same per-key runs are equal, so a stable sort has exactly one possible result |
| Sorting.SortIgnoresOrder | src/client/rpc.rs:185 | with distinct keys, permuting the input does not change the sorted list |
| Strings.LexLeIsTotalOrder | src/client/roa.rs:291 | the string order the sorts compare by is reflexive, total, antisymmetric and transitive |
| RpcSigning.Params | src/client/rpc.rs:173-185 | the signed parameters are a stable key-sort of the three defaults, Action, AccessKeyId, SignatureNonce, Timestamp, Version and the caller's pairs: eight plus the caller's count, the same multiset, each key's pairs in push order |
| RpcSigning.QueryRoundTrip | src/client/rpc.rs:188-192 | a server splitting the sorted query string at `&` and `=` and percent-decoding reads back exactly the signed parameters, in order |
| RpcSigning.DecodeEncodedPair | src/client/rpc.rs:189-190 | one `url_encode(k)=url_encode(v)` piece decodes to the bytes of `k` and `v` |
| RpcSigning.DecodeEncodedPieces | src/client/rpc.rs:188-191 | a list of encoded pieces decodes to the byte pairs of the parameter list |
| RpcSigning.EncodedPairAvoids | src/client/rpc.rs:190 | an encoded piece holds no `&`, and splitting it at `=` gives exactly the encoded name and value |
| RpcSigning.QueryIgnoresOrder | src/client/rpc.rs:173-192 | when all keys are distinct, permuting the caller's query leaves the sorted query string unchanged |
| RpcSigning.StringToSignFields | src/client/rpc.rs:193-197 | a server splitting the string-to-sign at `&` finds `GET`, `%2F` and the encoded sorted query string, which decodes to that string's bytes |
| RpcSigning.StringToSignStartsWithGet | src/client/rpc.rs:193-197 | the string-to-sign starts with `GET&`, whatever the request's method |
| RpcSigning.SigningKey | src/client/rpc.rs:200 | the HMAC key is the secret followed by a single `&` |
| RpcSigning.Signature | src/client/rpc.rs:232-240 | the signature is base64 text that decodes to the HMAC-SHA1 tag of the string-to-sign under the secret's bytes followed by `&` |
| RpcSigning.FinalUrlQuery | src/client/rpc.rs:201-205 | the final URL is the endpoint and `?`, after which a server reads the `Signature` parameter first and then exactly the signed parameters |
| RpcSigning.SignatureFirst | src/client/rpc.rs:203-204 | putting the encoded `Signature` pair and `&` in front of the sorted query string adds exactly that one parameter in front when read back |
| RpcSigning.SignRequest | src/client/rpc.rs:173-205 | the whole RPC signing pipeline: a server reads back the signed parameters, splits the string-to-sign into `GET`, `%2F` and the encoded query, checks the signature against HMAC-SHA1 under `secret&`, and finds `Signature` then the parameters in the URL |
| Crypto.Sign | src/client/rpc.rs:232-240 | `sign` cannot fail and yields 28 characters of printable ASCII without `:`, ending in one `=`, that decode to the 20-byte HMAC-SHA1 tag |
| Crypto.Base64TwoByteTail | src/client/rpc.rs:239 | base64 of n full groups and two trailing bytes has 4n+4 characters, of which only the last is padding, which is the 20-byte tag's shape |
| Codecs.Base64Encode | src/client/rpc.rs:239 | length 4⌈n/3⌉ of alphabet characters and `=`, where `=` stands exactly at the last `(3 - n mod 3) mod 3` positions: none after whole groups, two after one trailing byte, one after two |
| Codecs.Base64RoundTrip | src/client/rpc.rs:239 | decoding the base64 text of any bytes gives them back |
| Codecs.HexRoundTrip | src/client/log_service.rs:123-125 | decoding the upper-case hex text of any bytes gives them back |
| Wire.Classify | src/client/rpc.rs:218-225 | a success status passes the reply through; a non-success reply with a decodable envelope is `InvalidResponse` carrying its request id, code and message; anything else is a transport error |
| RpcClient.New | src/client/rpc.rs:64-76 | the client keeps its credentials and endpoint and starts from an empty request |
| RpcClient.WithRequest | src/client/rpc.rs:81-86 | sets the method and action and changes nothing else |
| RpcClient.Get | src/client/rpc.rs:91-93 | a `GET` of the action, nothing else changed |
| RpcClient.Post | src/client/rpc.rs:98-100 | a `POST` of the action, nothing else changed |
| RpcClient.Query | src/client/rpc.rs:105-116 | the given pairs replace the whole query list; nothing else changes |
| RpcClient.Version | src/client/rpc.rs:121-125 | sets the API version and nothing else |
| RpcClient.Header | src/client/rpc.rs:130-135 | the caller's pairs replace the header map; each name holds the values its pairs give it; one unparsable pair fails the call with `InvalidRequest` |
| RpcClient.WithAgent | src/client/rpc.rs:162-164 | `user-agent` and `x-sdk-client` are set to the agent over the caller's values, every other name is kept; an unparsable agent is `InvalidHeader` |
| RpcClient.WithAgentWellFormed | src/client/rpc.rs:162-164 | the defaults keep a well-formed header map well formed |
| RpcClient.Prepare | src/client/rpc.rs:160-215 | fails exactly on an unparsable agent (`InvalidHeader`) or method (`InvalidRequest`); otherwise sends the request's method to the signed URL with the default headers and no body |
| RpcClient.Send | src/client/rpc.rs:160-229 | an error before the exchange is returned as it is; otherwise the reply is classified by status |
| RpcClient.SignatureIgnoresMethod | src/client/rpc.rs:193-214 | two requests that differ only in their method go to the same signed URL, whose string-to-sign starts with `GET` |
| RpcClient.PreparedUrlReadsBack | src/client/rpc.rs:200-215 | the server reads `Signature` and then exactly the parameters signed for this client from the URL `send` requests |
| RpcClient.ErrorReplyIsInvalidResponse | src/client/rpc.rs:218-225 | a non-success reply with an error envelope fails as `InvalidResponse` with the envelope's three fields, and one without is a transport error |
| RpcLegacy.NewBuilder | src/rpc.rs:144-164 | a builder carries the client's credentials, endpoint and version and starts with no query |
| RpcLegacy.Execute | src/rpc.rs:68-77 | a builder for the given method and action over the client's fields |
| RpcLegacy.Get | src/rpc.rs:56-58 | a `GET` builder |
| RpcLegacy.Post | src/rpc.rs:63-65 | a `POST` builder |
| RpcLegacy.Query | src/rpc.rs:167-177 | the given pairs are appended after those already present, in order |
| RpcLegacy.QueryAccumulates | src/rpc.rs:167-177 | two `query` calls push the pairs of both, in call order |
| RpcLegacy.Prepare | src/rpc.rs:180-224 | signs with the client's version, not the request's; sends the builder's method to the signed URL and fails only on an unparsable method |
| RpcLegacy.Send | src/rpc.rs:180-231 | the response text is returned whatever the status; only an unparsable method or a failed exchange is an error |
| RpcLegacy.DeprecatedPrepare | src/rpc.rs:83-118 | the deprecated call sends a plain `GET` of the signed URL built from the client and the given queries |
| RpcLegacy.DeprecatedRequest | src/rpc.rs:83-123 | the deprecated call returns the response text, or a transport error |
| RpcLegacy.DeprecatedMatchesBuilder | src/rpc.rs:85-118 | the deprecated call and `get(action).query(queries).send()` sign the same parameters, string-to-sign and URL and send the same request |
| RpcLegacy.PostSignsAsGet | src/rpc.rs:200-224 | a `post` builder sends the same signed URL as the `get` builder, only with method `POST`, and its string-to-sign starts with `GET` |
| Headers.ParseName | src/client/roa.rs:158-163 | a header name parses exactly when it is a token, and is stored lower-cased |
| Headers.ParseValue | src/client/roa.rs:199-201 | a header value parses exactly when it holds only visible ASCII, space, tab or obs-text; otherwise `InvalidHeader` |
| Headers.ParseMethod | src/client/roa.rs:236-247 | a method parses exactly when it is a token; otherwise `InvalidRequest` |
| Headers.Insert | src/client/roa.rs:199-201 | `insert` leaves exactly the new value under the name and every other name unchanged |
| Headers.InsertWellFormed | src/client/roa.rs:199-201 | inserting a valid name and value keeps the map well formed |
| Headers.FromPairs | src/client/roa.rs:158-163 | converting the caller's pairs succeeds exactly when every pair is valid, and then each lower-cased name holds the values of its pairs in order |
| Headers.FromPairsIgnoresOrder | src/client/roa.rs:158-163 | without case collisions, the iteration order of the caller's hash map does not change the resulting header values |
| Headers.IterRuns | src/client/roa.rs:278-281 | iterating a well-formed map yields, for each name, exactly its values in order |
| Canonical.CanonicalHeaders | src/client/roa.rs:277-299 | never an error; panics only when a kept header value is not visible ASCII (`to_str().unwrap()`) |
| Canonical.CanonicalHeadersSpec | src/client/roa.rs:277-299 | the canonical headers are the `name:value` lines of any key-sorted list holding, for each kept name, exactly that name's values in order, joined by `\n` |
| Canonical.CanonicalHeadersPanics | src/client/roa.rs:282-290 | the canonical headers panic exactly when some header with a kept prefix has a value that is not visible ASCII |
| Canonical.CanonicalHeadersEmpty | src/client/roa.rs:277-299 | with no header under a kept prefix the canonical headers are the empty string |
| Canonical.CanonicalHeadersLines | src/client/roa.rs:292-298 | a server splitting the canonical headers at newlines gets exactly one `name:value` line per kept header, in sorted order |
| Canonical.CanonicalHeadersDependOnlyOnValues | src/client/roa.rs:277-299 | two header maps with the same values under every name give the same canonical headers |
| Canonical.SelectRuns | src/client/roa.rs:278-289 | the filter keeps every header with a kept prefix, values in order, and drops all others |
| Canonical.SelectMembers | src/client/roa.rs:278-289 | every selected pair comes from the map and has a kept prefix |
| Canonical.CanonicalResource | src/client/roa.rs:302-312 | the resource starts with the uri and equals it exactly when the query is empty; otherwise `?` follows the uri |
| Canonical.CanonicalResourceSpec | src/client/roa.rs:302-312 | with a query, the resource is the uri, `?`, and the raw `k=v` pieces of the stably key-sorted query joined by `&`, without percent-encoding |
| Canonical.CanonicalResourceIgnoresOrder | src/client/roa.rs:302-312 | with distinct keys, the order of the query does not change the resource |
| Canonical.SplitFields | src/client/roa.rs:319-338 | joining fields with `\n` and splitting again gives back the leading fields that hold no newline |
| Canonical.Required | src/client/roa.rs:335 | indexing a header panics when it is missing or not visible ASCII, and otherwise yields its first value |
| Canonical.Optional | src/client/roa.rs:323-334 | a missing header reads as `""`; a present one panics unless visible ASCII |
| RoaSigning.Fields | src/client/roa.rs:319-338 | the seven fields in order: upper-cased method, `accept`, `content-md5` or `""`, `content-type` or `""`, `date`, canonical headers and canonical resource; a failed lookup is a panic and never an error |
| RoaSigning.StringToSign | src/client/roa.rs:319-338 | the string-to-sign is the seven fields joined by `\n`, and exists exactly when all of them do |
| RoaSigning.StringToSignSplits | src/client/roa.rs:319-338 | a server splitting it at newlines finds the five header fields, then the canonical header lines, then the resource |
| RoaSigning.LeadingFieldsHaveNoNewline | src/client/roa.rs:320-335 | the method and the four header values hold no newline, so the line structure is unambiguous |
| RoaSigning.Signature | src/client/roa.rs:340-347 | the signature decodes to the HMAC-SHA1 tag of the string-to-sign keyed by the bare secret (no `&`), and is 28 printable characters without `:` |
| Payload.ContentLength | src/client/roa.rs:142-144 | `content-length` is a decimal string that parses back to the body's UTF-8 byte length |
| Payload.Base64Md5 | src/client/roa.rs:136-147 | `content-md5` is 24 characters of base64 text that decode to the body's MD5 digest |
| Payload.HexMd5 | src/client/log_service.rs:114-125 | the log service's `content-md5` is 32 upper-case hex digits that decode to the body's MD5 digest |
| Strings.DecimalRoundTrip | src/client/roa.rs:144 | the decimal text of a length parses back to that length |
| Authorization.ParseHeader | src/client/roa.rs:230-233 | a server splitting `<scheme> <id>:<signature>` recovers the id and the signature, since a signature has no `:` |
| Authorization.Attach | src/client/roa.rs:230-233 | the `authorization` header is set to `<scheme> <id>:<signature>`, every other name is kept; an unparsable id is `InvalidHeader` |
| Authorization.AuthorizationValue | src/client/roa.rs:230-233 | the header value parses exactly when the key id does |
| RoaClient.New | src/client/roa.rs:69-80 | the client keeps its credentials and endpoint and starts from an empty, well-formed request |
| RoaClient.WithRequest | src/client/roa.rs:85-90 | sets the method and uri and nothing else |
| RoaClient.Get | src/client/roa.rs:95-97 | a `GET` of the uri, nothing else changed |
| RoaClient.Post | src/client/roa.rs:102-104 | a `POST` of the uri, nothing else changed |
| RoaClient.Query | src/client/roa.rs:109-120 | the given pairs replace the whole query list |
| RoaClient.Version | src/client/roa.rs:125-129 | sets the version and nothing else |
| RoaClient.Project | src/client/roa.rs:168-172 | sets the project and nothing else |
| RoaClient.Body | src/client/roa.rs:134-153 | stores the body and sets `content-length` to its byte length and `content-md5` to base64 of its MD5; every other header is unchanged, and a well-formed map stays well formed |
| RoaClient.Header | src/client/roa.rs:158-163 | the caller's pairs replace the header map; one unparsable pair fails the call with `InvalidRequest` |
| RoaClient.HeaderAfterBody | src/client/roa.rs:134-163 | `header` after `body` discards the length and digest `body` set: every name has exactly the caller's values, and the body stays |
| RoaClient.Defaults | src/client/roa.rs:199-201 | `accept`, `x-acs-signature-method`, `user-agent` and `x-sdk-client` overwrite the caller's values and every other name is kept; an unparsable agent is `InvalidHeader`; a well-formed map stays well formed |
| RoaClient.SignedHeaders | src/client/roa.rs:199-226 | the map `send` signs keeps the caller's values under every name it does not set, and is well formed when the caller's map is; an endpoint without a host is `InvalidRequest` and an unparsable value `InvalidHeader` |
| RoaClient.Stamp | src/client/roa.rs:204-226 | `host`, `date` and `x-acs-signature-nonce` are set, and a well-formed map with acceptable values stays well formed |
| RoaClient.SignedRuns | src/client/roa.rs:199-226 | of the names the signed map holds, exactly the caller's `x-acs-` headers, the fixed `HMAC-SHA1` method and the nonce survive the `x-acs-` filter |
| RoaClient.SignedCanonicalHeaders | src/client/roa.rs:277-298 | the canonical headers of the signed map are the `name:value` lines, sorted by name, of the caller's `x-acs-` headers plus the signature method and nonce `send` adds |
| RoaClient.SignedHeadersValues | src/client/roa.rs:199-226 | the signed map holds the JSON `accept`, `HMAC-SHA1`, the agent, the host, the date and the nonce under their names |
| RoaClient.RequiredHeadersPresent | src/client/roa.rs:199-226 | `accept` and `date` are always present when the signer indexes them, so only an unprintable date can make that lookup panic |
| RoaClient.KeepsContentHeader | src/client/roa.rs:199-226 | a caller's `content-*` header reaches the signer unchanged |
| RoaClient.Prepare | src/client/roa.rs:197-257 | errors before signing are returned as they are, a lookup that fails is a panic, and otherwise `send` carries `Authorization: acs <id>:<signature>` over the signed map, the method, the URL `endpoint + uri`, the query and the body |
| RoaClient.Authorize | src/client/roa.rs:230-247 | an unparsable key id is `InvalidHeader` and an unparsable method `InvalidRequest`; otherwise only `authorization` is added |
| RoaClient.Send | src/client/roa.rs:197-274 | a failure before the exchange is returned as it is; otherwise the reply is classified by status |
| RoaClient.PrepareReadsSendInputs | src/client/roa.rs:197-348 | `send` reads only the credentials, the endpoint, and the request's method, uri, query, body and headers |
| RoaClient.VersionAndProjectIgnored | src/client/roa.rs:125-172 | `version` and `project` never change what `send` produces |
| RoaClient.AuthorizationReadsBack | src/client/roa.rs:230-233 | a server parsing the `authorization` header recovers the key id and a signature that decodes to the HMAC-SHA1 tag of the string-to-sign under the bare secret |
| RoaClient.SignedLines | src/client/roa.rs:319-338 | the signed string's lines are the upper-cased method, `application/json`, the caller's `content-md5` and `content-type` (or empty lines), the date, the sorted `x-acs-` lines of the caller's headers plus the signature method and nonce, and the resource |
| RoaLegacy.Seed | src/roa.rs:119-135 | the seeded map exists exactly when the agent and the version parse, and is then well formed; otherwise `unwrap` panics |
| RoaLegacy.SeedValues | src/roa.rs:119-135 | the seed holds `accept`, the signature method and version, the agent twice and `x-acs-version` |
| RoaLegacy.SeededRuns | src/roa.rs:119-135 | of the seeded names, exactly `x-acs-signature-method`, `x-acs-signature-version` and `x-acs-version` reach the canonical headers, with `HMAC-SHA1`, `1.0` and the version |
| RoaLegacy.NewBuilder | src/roa.rs:110-151 | a builder with the seeded, well-formed headers, no body and no query |
| RoaLegacy.New | src/roa.rs:43-55 | the client keeps its credentials, endpoint and version |
| RoaLegacy.Execute | src/roa.rs:60-69 | a builder for the method and uri over the client's fields |
| RoaLegacy.Get | src/roa.rs:74-76 | a `GET` builder |
| RoaLegacy.Post | src/roa.rs:81-83 | a `POST` builder |
| RoaLegacy.Put | src/roa.rs:88-90 | a `PUT` builder |
| RoaLegacy.Body | src/roa.rs:154-173 | stores the body and sets `content-length` and base64 `content-md5`; nothing else changes, and a well-formed map stays well formed |
| RoaLegacy.Header | src/roa.rs:176-193 | each name ends with the value of its last valid pair, or keeps its old values when no valid pair names it; a well-formed map stays well formed |
| RoaLegacy.HeaderSkipsInvalid | src/roa.rs:185-190 | a call made only of invalid pairs leaves the builder unchanged |
| RoaLegacy.HeaderConcatenates | src/roa.rs:176-193 | two `header` calls act like one over both lists, later pairs winning |
| RoaLegacy.Query | src/roa.rs:196-206 | the pairs are appended after those already present |
| RoaLegacy.QueryAccumulates | src/roa.rs:196-206 | two `query` calls push the pairs of both, in call order |
| RoaLegacy.AcceptStaysSet | src/roa.rs:154-206 | no setter removes `accept` |
| RoaLegacy.NewBuilderHasAccept | src/roa.rs:119-122 | every builder starts with `accept` |
| RoaLegacy.SignedLookupsFind | src/roa.rs:209-226 | when `send` signs, the `accept` lookup finds the builder's value and the `date` lookup finds the date just inserted |
| RoaLegacy.Stamped | src/roa.rs:209-223 | `date`, `x-acs-signature-nonce` and `host` are inserted in that order, each failing as the source fails, every other name is kept, and a well-formed map stays well formed |
| RoaLegacy.StampedRuns | src/roa.rs:209-223 | of the names the stamped map holds, exactly the builder's `x-acs-` headers and the nonce survive the `x-acs-` filter; `date` and `host` do not |
| RoaLegacy.StampedCanonicalHeaders | src/roa.rs:268-289 | the canonical headers of the stamped map are the `name:value` lines, sorted by name, of the builder's `x-acs-` headers plus the nonce |
| RoaLegacy.Prepare | src/roa.rs:209-236 | `Authorization: acs <id>:<signature>` over the stamped map, the method, and the URL `endpoint + uri` |
| RoaLegacy.AuthorizationReadsBack | src/roa.rs:225-229 | parsing the `acs` header recovers the key id and a signature that decodes to the HMAC-SHA1 tag of the stamped map's string-to-sign |
| RoaLegacy.Authorize | src/roa.rs:226-236 | an unparsable key id is `InvalidHeader`, an unparsable method `InvalidRequest`; otherwise only `authorization` is added |
| RoaLegacy.Send | src/roa.rs:209-252 | the response text whatever the status; a failure before the exchange is returned, a failed exchange is a transport error |
| LogService.New | src/client/log_service.rs:62-74 | the client keeps its credentials and endpoint and starts from an empty, well-formed request |
| LogService.WithRequest | src/client/log_service.rs:79-84 | sets the method and uri and nothing else |
| LogService.Get | src/client/log_service.rs:89-91 | a `GET` of the uri |
| LogService.Post | src/client/log_service.rs:96-98 | a `POST` of the uri |
| LogService.Query | src/client/log_service.rs:103-107 | the pairs replace the whole query list |
| LogService.Project | src/client/log_service.rs:147-151 | sets the project and nothing else |
| LogService.Body | src/client/log_service.rs:112-132 | stores the body and sets `content-length` and upper-case hex `content-md5`; no other header changes, and a well-formed map stays well formed |
| LogService.Header | src/client/log_service.rs:137-142 | the caller's pairs replace the header map; an unparsable pair fails the call |
| LogService.Fallbacks | src/client/log_service.rs:178-187 | `x-log-bodyrawsize: 0` and `accept: application/json` are added only where the caller set no value; everything else is kept |
| LogService.FallbacksWellFormed | src/client/log_service.rs:178-187 | the fallbacks keep a well-formed map well formed |
| LogService.Defaults | src/client/log_service.rs:190-192 | `x-log-apiversion`, `x-log-signaturemethod`, `user-agent` and `x-sdk-client` always overwrite; every other name is kept; a well-formed map stays well formed |
| LogService.SplitScheme | src/client/log_service.rs:195-203 | a leading `http://`, otherwise `https://`, is split off; the two parts make up the endpoint again |
| LogService.Host | src/client/log_service.rs:195-207 | the host is the endpoint without its scheme, behind `<project>.` when a project is set |
| LogService.SignedHeaders | src/client/log_service.rs:178-217 | the signed map exists exactly when the agent, the host and the date parse, and is well formed when the caller's map is; otherwise `InvalidHeader` |
| LogService.Stamp | src/client/log_service.rs:207-217 | `host` and `date` are set and every other name kept; a well-formed map with acceptable values stays well formed |
| LogService.SignedRuns | src/client/log_service.rs:178-217 | of the names the signed map holds, exactly the caller's `x-acs-`/`x-log-` headers, the body size (the caller's or `0`), the API version and the signature method survive the filter |
| LogService.SignedCanonicalHeaders | src/client/log_service.rs:264-285 | the canonical headers of the signed map are the `name:value` lines, sorted by name, of the caller's `x-acs-`/`x-log-` headers plus the body size, API version and signature method `send` adds |
| LogService.SignedKeepsCallerFallbacks | src/client/log_service.rs:178-187 | the signed map keeps the caller's `x-log-bodyrawsize` and `accept` when set, and holds the fallbacks otherwise |
| LogService.SignedSetsDefaults | src/client/log_service.rs:190-217 | the signed map holds the fixed API version and signature method, the agent, the host and the date |
| LogService.SignedKeepsOthers | src/client/log_service.rs:178-217 | every name `send` does not set keeps the caller's values |
| LogService.Fields | src/client/log_service.rs:306-324 | six fields: upper-cased method, `content-md5` or `""`, `content-type` or `""`, `date`, the `x-acs-`/`x-log-` canonical headers and the resource; no `accept` |
| LogService.StringToSign | src/client/log_service.rs:306-324 | the six fields joined by `\n` |
| LogService.StringToSignSplits | src/client/log_service.rs:306-324 | a server splitting it at newlines finds the four leading fields, the canonical header lines and the resource |
| LogService.Signature | src/client/log_service.rs:326-333 | decodes to the HMAC-SHA1 tag of the string-to-sign under the bare secret |
| LogService.Prepare | src/client/log_service.rs:176-244 | `Authorization: SLS <id>:<signature>` over the signed map, the method, and the URL `prefix + host + uri` |
| LogService.Authorize | src/client/log_service.rs:221-234 | an unparsable key id is `InvalidHeader`, an unparsable method `InvalidRequest`; otherwise only `authorization` is added |
| LogService.Send | src/client/log_service.rs:176-261 | a success reply is returned; a non-success one with an envelope is `InvalidResponse` with an empty request id; anything else is a transport error |
| LogService.UrlWithoutProject | src/client/log_service.rs:195-227 | without a project the request goes to `endpoint + uri` |
| LogService.UrlWithProject | src/client/log_service.rs:195-227 | with a project the host gains it as the first label behind the scheme |
| LogService.AuthorizationReadsBack | src/client/log_service.rs:221-224 | a server parsing the `SLS` header recovers the key id and a signature that decodes to the tag of the string-to-sign |
| LogService.SignedLines | src/client/log_service.rs:306-324 | the signed string's lines are the upper-cased method, the caller's `content-md5` and `content-type` (or empty lines), the date, the sorted `x-acs-`/`x-log-` lines of the caller's headers plus the three `x-log-` defaults, and the resource |
| LogService.KeepsContentHeader | src/client/log_service.rs:178-217 | a caller's `content-*` header reaches the signer unchanged |

## Left out

- HTTP transport: `ClientBuilder::build`, the exchange, async, `.text()`/`.json()` and the timeout setters. The exchange is a function parameter from the outgoing request to a reply, and a failure to build the client is not modelled.
- JSON decoding of the error envelopes: a reply carries the decoded envelope, or none when its body does not decode.
- The clock, date and nonce formatting: the timestamp, date and nonce strings are parameters, so no dialect's formatting failure is modelled. Three such error paths exist and are left out:
  - the RPC client's `InvalidRequest("Invalid ISO 8601 Date: …")` (src/client/rpc.rs:169-171);
  - the ROA client's `InvalidRequest("Invalid RFC 1123 Date: …")` (src/client/roa.rs:216-219);
  - the log service's `InvalidRequest("Invalid RFC 1123 Date: …")` (src/client/log_service.rs:214-216).
- HMAC-SHA1 and MD5 internals: they are function-valued parameters constrained to their 20- and 16-byte output lengths.
- `Url::parse(...).host_str()` in the ROA clients: the parsed host is a parameter, `None` when the endpoint has no host.
- The agent string `CARGO_PKG_NAME/CARGO_PKG_VERSION` is a parameter in every dialect.
- Error messages: `anyhow` errors of the blocking modules are mapped onto the same error enum as the async clients, and error texts are not modelled.
- `src/lib.rs` (re-exports and a trait that delegates to `execute`) and `src/client/error.rs` are not part of this model beyond the error datatype.
- The json/text wrappers of the async clients and the `timeout` setters.
- Builders are single-use in Rust because `send` takes them by value; the model's values can be reused, which changes nothing about one call.
- Headers.ParseName: the `http` crate's name-length limit is not modelled; names are ASCII-lower-cased tokens.
- Headers.FromPairs: the caller's `HashMap` iteration order is taken as the given order of the pair list; only `FromPairsIgnoresOrder` covers order independence.
- RoaSigning.Fields: the method is upper-cased with `AsciiUpper`, where the source calls Rust's Unicode `to_uppercase` (src/client/roa.rs:321, src/roa.rs:312). The two agree on tokens. A method that is not a token fails before anything is sent: in `RoaClient.Authorize`, and in `RoaLegacy.Prepare` for the legacy client.
- LogService.Fields: the same `AsciiUpper` stands in for `to_uppercase` (src/client/log_service.rs:308). A method that is not a token fails in `LogService.Authorize`.
- UrlEncoding.UrlEncode: one definition models both `url_encode` copies, which are the same text.
- RoaLegacy.NewBuilder: the legacy `Client::new` is a plain constructor, and the seeded agent is a parameter rather than the crate constant.

=== FILE: authorization.dfy ===
/** The `Authorization` header of the ROA (`acs`) and log-service (`SLS`) dialects:
    `<scheme> <AccessKeyId>:<Signature>`, and the server's reading of it. */
module Authorization {
  import opened Strings
  import opened Outcomes
  import opened Headers

  /** `format!("acs {}:{}", id, signature)` and `format!("SLS {}:{}", id, signature)`. */
  function Header(scheme: string, id: string, signature: string): string {
    scheme + " " + id + ":" + signature
  }

  /** A server's reading: the scheme and a space, then the key id up to the last `:`,
      then the signature. */
  function Parse(scheme: string, s: string): Option<(string, string)> {
    var n := |scheme| + 1;
    if |s| < n || s[..n] != scheme + " " then None
    else
      var pieces := Split(s[n..], ':');
      if |pieces| < 2 then None
      else Some((Join(pieces[..|pieces| - 1], ":"), pieces[|pieces| - 1]))
  }

  /** The header reads back as the key id and the signature whenever the signature has no
      `:`, which holds for base64. */
  lemma ParseHeader(scheme: string, id: string, signature: string)
    requires ':' !in signature
    ensures Parse(scheme, Header(scheme, id, signature)) == Some((id, signature))
  {
    var n := |scheme| + 1;
    var s := Header(scheme, id, signature);
    assert s == (scheme + " ") + (id + ":" + signature);
    assert s[..n] == scheme + " ";
    assert s[n..] == id + ":" + signature;
    SplitAtSeparator(id, signature, ':');
    SplitNoSeparator(signature, ':');
    var pieces := Split(s[n..], ':');
    assert pieces == Split(id, ':') + [signature];
    assert pieces[..|pieces| - 1] == Split(id, ':');
    JoinSplit(id, ':');
  }

  /** The `acs` and `SLS` schemes are visible ASCII. */
  lemma SchemesVisible()
    ensures IsVisible("acs") && IsVisible("SLS")
  {
    var acs, sls := "acs", "SLS";
    assert forall i :: 0 <= i < 3 ==> 'A' <= acs[i] <= 'z' && 'A' <= sls[i] <= 'z';
  }

  /** `headers.insert("Authorization", authorization.parse()?)`: the static name is
      normalised to lower case; a key id that is not a header value fails the parse. */
  function Attach(h: HeaderMap, scheme: string, id: string, sig: string): (r: Result<HeaderMap>)
    requires IsVisible(scheme) && IsVisible(sig)
    ensures r.Ok? <==> IsValue(id)
    ensures !r.Ok? ==> r == Err(InvalidHeader)
    ensures r.Ok? ==> Values(r.value, "authorization") == [Header(scheme, id, sig)]
    ensures r.Ok? ==> forall n :: n != "authorization" ==> Values(r.value, n) == Values(h, n)
  {
    AuthorizationValue(scheme, id, sig);
    match ParseValue(Header(scheme, id, sig))
    case Ok(v) => Ok(Insert(h, "authorization", v))
    case Err(e) => Err(e)
    case Panic => Panic
  }

  /** The header value is acceptable exactly when the key id is: the scheme and the
      signature are visible ASCII. */
  lemma AuthorizationValue(scheme: string, id: string, sig: string)
    requires IsVisible(scheme) && IsVisible(sig)
    ensures IsValue(Header(scheme, id, sig)) <==> IsValue(id)
  {
    VisibleIsValue(scheme);
    VisibleIsValue(sig);
    var s := Header(scheme, id, sig);
    assert s == scheme + " " + id + ":" + sig;
    var n := |scheme| + 1;
    forall i | 0 <= i < |id| ensures s[n + i] == id[i] { }
    if IsValue(id) {
      forall i | 0 <= i < |s| ensures IsValueChar(s[i]) {
        if i < |scheme| { assert s[i] == scheme[i]; }
        else if i >= n + |id| + 1 { assert s[i] == sig[i - n - |id| - 1]; }
      }
    }
  }

}

=== FILE: canonical.dfy ===
/** The canonical forms the ROA and log-service dialects sign: the canonicalized headers
    (`canonicalized_headers`), the canonicalized resource (`canonicalized_resource`), and
    the lookups the string-to-sign makes in the header map. Each is characterised by a
    reference: any key-sorted sequence with the right pairs for every key yields it. */
module Canonical {
  import opened Strings
  import opened Sorting
  import opened Headers
  import opened Outcomes

  const AcsPrefixes: seq<string> := ["x-acs-"]
  const LogPrefixes: seq<string> := ["x-acs-", "x-log-"]

  predicate Keeps(name: string, prefixes: seq<string>) {
    exists i :: 0 <= i < |prefixes| && StartsWith(name, prefixes[i])
  }

  /** The `filter_map` step: names are lower-cased and kept when they start with one of
      the prefixes. */
  function Select(it: seq<Pair>, prefixes: seq<string>): seq<Pair>
    decreases |it|
  {
    if |it| == 0 then []
    else
      var k := AsciiLower(it[0].0);
      (if Keeps(k, prefixes) then [(k, it[0].1)] else []) + Select(it[1..], prefixes)
  }

  /** `format!("{}:{}", k, v)` */
  function Line(p: Pair): string {
    p.0 + ":" + p.1
  }

  function Lines(ps: seq<Pair>): (r: seq<string>)
    ensures |r| == |ps|
    ensures forall i :: 0 <= i < |ps| ==> r[i] == Line(ps[i])
  {
    seq(|ps|, i requires 0 <= i < |ps| => Line(ps[i]))
  }

  predicate AllVisible(ps: seq<Pair>) {
    forall i :: 0 <= i < |ps| ==> IsVisible(ps[i].1)
  }

  /** `canonicalized_headers`: the kept headers as `name:value` lines, stably sorted by
      name, joined by newlines. `to_str().unwrap()` panics on a kept value that is not
      visible ASCII. */
  function CanonicalHeaders(h: HeaderMap, prefixes: seq<string>): (r: Result<string>)
    ensures !r.Err?
  {
    var sel := Select(Iter(h), prefixes);
    if AllVisible(sel) then Ok(Join(Lines(SortByKey(sel)), "\n")) else Panic
  }

  /** The pairs a map contributes for `k`: all of `k`'s values when `k` is kept. */
  function KeptRun(h: HeaderMap, prefixes: seq<string>, k: string): seq<Pair> {
    if Keeps(k, prefixes) then Tagged(k, Values(h, k)) else []
  }

  lemma {:induction false} SelectRuns(it: seq<Pair>, prefixes: seq<string>, k: string)
    requires forall i :: 0 <= i < |it| ==> IsLower(it[i].0)
    ensures KeyRun(Select(it, prefixes), k) == if Keeps(k, prefixes) then KeyRun(it, k) else []
    decreases |it|
  {
    if |it| > 0 {
      AsciiLowerProperties(it[0].0);
      var head := if Keeps(it[0].0, prefixes) then [it[0]] else [];
      assert Select(it, prefixes) == head + Select(it[1..], prefixes);
      KeyRunAppend(head, Select(it[1..], prefixes), k);
      SelectRuns(it[1..], prefixes, k);
    }
  }

  lemma SelectedRuns(h: HeaderMap, prefixes: seq<string>, k: string)
    requires WellFormed(h)
    ensures KeyRun(Select(Iter(h), prefixes), k) == KeptRun(h, prefixes, k)
  {
    IterNames(h);
    SelectRuns(Iter(h), prefixes, k);
    IterRuns(h, k);
  }

  /** The reference: for any key-sorted `s` holding, for each kept name, exactly that
      name's values in order, the canonical headers are the lines of `s`. */
  lemma CanonicalHeadersSpec(h: HeaderMap, prefixes: seq<string>, s: seq<Pair>)
    requires WellFormed(h)
    requires SortedByKey(s)
    requires forall k :: KeyRun(s, k) == KeptRun(h, prefixes, k)
    requires CanonicalHeaders(h, prefixes).Ok?
    ensures CanonicalHeaders(h, prefixes).value == Join(Lines(s), "\n")
  {
    var sel := Select(Iter(h), prefixes);
    forall k ensures KeyRun(SortByKey(sel), k) == KeyRun(s, k) {
      SelectedRuns(h, prefixes, k);
    }
    SortedUnique(SortByKey(sel), s);
  }

  lemma {:induction false} SelectMembers(it: seq<Pair>, prefixes: seq<string>, p: Pair)
    requires p in Select(it, prefixes)
    ensures Keeps(p.0, prefixes) && exists i :: 0 <= i < |it| && it[i].1 == p.1 && AsciiLower(it[i].0) == p.0
    decreases |it|
  {
    var k := AsciiLower(it[0].0);
    var head := if Keeps(k, prefixes) then [(k, it[0].1)] else [];
    if p !in head {
      assert p in Select(it[1..], prefixes);
      SelectMembers(it[1..], prefixes, p);
      var i :| 0 <= i < |it[1..]| && it[1..][i].1 == p.1 && AsciiLower(it[1..][i].0) == p.0;
      assert it[i + 1] == it[1..][i];
    }
  }

  /** The panic happens exactly when a kept name has a value that is not visible ASCII. */
  lemma CanonicalHeadersPanics(h: HeaderMap, prefixes: seq<string>)
    requires WellFormed(h)
    ensures CanonicalHeaders(h, prefixes).Panic? <==>
            exists n, j :: Keeps(n, prefixes) && 0 <= j < |Values(h, n)| && !IsVisible(Values(h, n)[j])
  {
    var sel := Select(Iter(h), prefixes);
    if !AllVisible(sel) {
      var i :| 0 <= i < |sel| && !IsVisible(sel[i].1);
      var p := sel[i];
      SelectMembers(Iter(h), prefixes, p);
      SelectedRuns(h, prefixes, p.0);
      KeyRunMember(sel, i);
      var run := KeyRun(sel, p.0);
      var j :| 0 <= j < |run| && run[j] == p;
      assert Values(h, p.0)[j] == p.1;
    } else {
      forall n, j | Keeps(n, prefixes) && 0 <= j < |Values(h, n)| ensures IsVisible(Values(h, n)[j]) {
        SelectedRuns(h, prefixes, n);
        KeyRunSubset(sel, n, j);
      }
    }
  }

  /** An element of a sequence occurs in the run of its key. */
  lemma {:induction false} KeyRunMember(s: seq<Pair>, i: nat)
    requires i < |s|
    ensures s[i] in KeyRun(s, s[i].0)
    decreases |s|
  {
    if i > 0 {
      assert s[1..][i - 1] == s[i];
      KeyRunMember(s[1..], i - 1);
    }
  }

  /** Every element of a run occurs in the sequence. */
  lemma {:induction false} KeyRunSubset(s: seq<Pair>, k: string, j: nat)
    requires j < |KeyRun(s, k)|
    ensures KeyRun(s, k)[j] in s
    decreases |s|
  {
    var head := if s[0].0 == k then [s[0]] else [];
    if j >= |head| {
      KeyRunSubset(s[1..], k, j - |head|);
    }
  }

  /** The canonical headers depend only on each name's values, not on the order in which
      the names entered the map. */
  lemma CanonicalHeadersDependOnlyOnValues(h1: HeaderMap, h2: HeaderMap, prefixes: seq<string>)
    requires WellFormed(h1) && WellFormed(h2)
    requires forall n :: Values(h1, n) == Values(h2, n)
    ensures CanonicalHeaders(h1, prefixes) == CanonicalHeaders(h2, prefixes)
  {
    PanicsAgree(h1, h2, prefixes);
    if CanonicalHeaders(h1, prefixes).Ok? {
      ValuesAgree(h1, h2, prefixes);
    }
  }

  lemma ValuesAgree(h1: HeaderMap, h2: HeaderMap, prefixes: seq<string>)
    requires WellFormed(h1) && WellFormed(h2)
    requires forall n :: Values(h1, n) == Values(h2, n)
    requires CanonicalHeaders(h1, prefixes).Ok? && CanonicalHeaders(h2, prefixes).Ok?
    ensures CanonicalHeaders(h1, prefixes).value == CanonicalHeaders(h2, prefixes).value
  {
    var s := SortByKey(Select(Iter(h1), prefixes));
    assert SortedByKey(s);
    SortedRunsMatch(h1, h2, prefixes);
    CanonicalHeadersSpec(h1, prefixes, s);
    CanonicalHeadersSpec(h2, prefixes, s);
  }

  /** The sorted selection of one map has, name by name, the kept values of the other. */
  lemma SortedRunsMatch(h1: HeaderMap, h2: HeaderMap, prefixes: seq<string>)
    requires WellFormed(h1)
    requires forall n :: Values(h1, n) == Values(h2, n)
    ensures forall k :: KeyRun(SortByKey(Select(Iter(h1), prefixes)), k) == KeptRun(h1, prefixes, k)
    ensures forall k :: KeyRun(SortByKey(Select(Iter(h1), prefixes)), k) == KeptRun(h2, prefixes, k)
  {
    var s := SortByKey(Select(Iter(h1), prefixes));
    forall k ensures KeyRun(s, k) == KeptRun(h1, prefixes, k) == KeptRun(h2, prefixes, k) {
      SelectedRuns(h1, prefixes, k);
      assert KeptRun(h1, prefixes, k) == KeptRun(h2, prefixes, k);
    }
  }

  lemma PanicsAgree(h1: HeaderMap, h2: HeaderMap, prefixes: seq<string>)
    requires WellFormed(h1) && WellFormed(h2)
    requires forall n :: Values(h1, n) == Values(h2, n)
    ensures CanonicalHeaders(h1, prefixes).Ok? <==> CanonicalHeaders(h2, prefixes).Ok?
  {
    var sel1, sel2 := Select(Iter(h1), prefixes), Select(Iter(h2), prefixes);
    forall k ensures KeyRun(sel1, k) == KeyRun(sel2, k) {
      SelectedRuns(h1, prefixes, k);
      SelectedRuns(h2, prefixes, k);
    }
    if AllVisible(sel2) { VisibleByRuns(sel1, sel2); }
    if AllVisible(sel1) { VisibleByRuns(sel2, sel1); }
  }

  /** Whether every value is visible depends only on the runs. */
  lemma VisibleByRuns(s1: seq<Pair>, s2: seq<Pair>)
    requires forall k :: KeyRun(s1, k) == KeyRun(s2, k)
    requires AllVisible(s2)
    ensures AllVisible(s1)
  {
    forall i | 0 <= i < |s1| ensures IsVisible(s1[i].1) {
      KeyRunMember(s1, i);
      var run := KeyRun(s2, s1[i].0);
      var j :| 0 <= j < |run| && run[j] == s1[i];
      KeyRunSubset(s2, s1[i].0, j);
    }
  }

  /** Without kept headers the canonical headers are the empty string. */
  lemma CanonicalHeadersEmpty(h: HeaderMap, prefixes: seq<string>)
    requires WellFormed(h)
    requires forall n :: Keeps(n, prefixes) ==> Values(h, n) == []
    ensures CanonicalHeaders(h, prefixes) == Ok("")
  {
    var sel := Select(Iter(h), prefixes);
    if |sel| > 0 {
      KeyRunMember(sel, 0);
      SelectedRuns(h, prefixes, sel[0].0);
    }
  }

  /** Each line is `name:value` with a token name, so splitting the canonical headers at
      newlines gives back the lines. */
  lemma CanonicalHeadersLines(h: HeaderMap, prefixes: seq<string>)
    requires WellFormed(h)
    requires CanonicalHeaders(h, prefixes).Ok?
    requires |Select(Iter(h), prefixes)| > 0
    ensures Split(CanonicalHeaders(h, prefixes).value, '\n') == Lines(SortByKey(Select(Iter(h), prefixes)))
  {
    var sel := Select(Iter(h), prefixes);
    var s := SortByKey(sel);
    var ls := Lines(s);
    forall i | 0 <= i < |ls| ensures '\n' !in ls[i] {
      assert s[i] in multiset(sel);
      SelectedLine(h, prefixes, s[i]);
    }
    SplitJoin(ls, '\n');
  }

  /** A kept pair of a well-formed map, with a visible value, makes a line without a
      newline. */
  lemma SelectedLine(h: HeaderMap, prefixes: seq<string>, p: Pair)
    requires WellFormed(h)
    requires AllVisible(Select(Iter(h), prefixes))
    requires p in Select(Iter(h), prefixes)
    ensures '\n' !in Line(p)
  {
    var sel := Select(Iter(h), prefixes);
    IterNames(h);
    SelectMembers(Iter(h), prefixes, p);
    var m :| 0 <= m < |Iter(h)| && Iter(h)[m].1 == p.1 && AsciiLower(Iter(h)[m].0) == p.0;
    AsciiLowerProperties(Iter(h)[m].0);
    var j :| 0 <= j < |sel| && sel[j] == p;
    VisibleIsValue(p.1);
    assert '\n' !in p.0 by {
      forall c | 0 <= c < |p.0| ensures p.0[c] != '\n' { assert IsTokenChar(p.0[c]); }
    }
  }

  // ---- the canonical resource --------------------------------------------------

  /** `format!("{}={}", k, v)`, with no percent-encoding. */
  function RawPair(p: Pair): string {
    p.0 + "=" + p.1
  }

  function RawPairs(ps: seq<Pair>): (r: seq<string>)
    ensures |r| == |ps|
    ensures forall i :: 0 <= i < |ps| ==> r[i] == RawPair(ps[i])
  {
    seq(|ps|, i requires 0 <= i < |ps| => RawPair(ps[i]))
  }

  /** `canonicalized_resource`: the uri, followed, when there is a query, by `?` and the
      key-sorted raw pairs joined by `&`. */
  function CanonicalResource(uri: string, query: seq<Pair>): (r: string)
    ensures StartsWith(r, uri)
    ensures r == uri <==> |query| == 0
    ensures |query| > 0 ==> r[|uri|] == '?'
  {
    if |query| == 0 then uri
    else
      var r := uri + "?" + Join(RawPairs(SortByKey(query)), "&");
      assert r[..|uri|] == uri;
      r
  }

  /** The reference: for any key-sorted `s` with the query's pairs for each key, in the
      query's order, the resource is the uri, `?` and the raw pairs of `s`. */
  lemma CanonicalResourceSpec(uri: string, query: seq<Pair>, s: seq<Pair>)
    requires |query| > 0
    requires SortedByKey(s)
    requires forall k :: KeyRun(s, k) == KeyRun(query, k)
    ensures CanonicalResource(uri, query) == uri + "?" + Join(RawPairs(s), "&")
  {
    SortedUnique(SortByKey(query), s);
  }

  /** With distinct keys the order in which the caller supplies the query does not
      matter. */
  lemma CanonicalResourceIgnoresOrder(uri: string, a: seq<Pair>, b: seq<Pair>)
    requires DistinctKeys(a) && DistinctKeys(b)
    requires multiset(a) == multiset(b)
    ensures CanonicalResource(uri, a) == CanonicalResource(uri, b)
  {
    SortIgnoresOrder(a, b);
  }

  // ---- string-to-sign layout ---------------------------------------------------

  /** A string-to-sign whose first `k` fields hold no newline splits into those fields,
      then the lines of the canonical headers, then those of the resource. */
  lemma SplitFields(f: seq<string>, k: nat)
    requires |f| == k + 2
    requires forall i :: 0 <= i < k ==> '\n' !in f[i]
    ensures Split(Join(f, "\n"), '\n') == f[..k] + Split(f[k], '\n') + Split(f[k + 1], '\n')
  {
    SplitJoinPrefix(f, '\n', k);
    SplitLastTwo(f, k);
  }

  /** The last two fields split on their own. */
  lemma SplitLastTwo(f: seq<string>, k: nat)
    requires |f| == k + 2
    ensures Split(Join(f[k..], "\n"), '\n') == Split(f[k], '\n') + Split(f[k + 1], '\n')
  {
    assert f[k..] == [f[k], f[k + 1]];
    JoinPair(f[k], f[k + 1], "\n");
    SplitAtSeparator(f[k], f[k + 1], '\n');
  }

  /** Every prefix of both lists is `x-` then `a` or `l`, so no other name is kept. */
  lemma NotKept(n: string, prefixes: seq<string>)
    requires prefixes == AcsPrefixes || prefixes == LogPrefixes
    requires |n| > 2 && (n[0] != 'x' || (n[2] != 'a' && n[2] != 'l'))
    ensures !Keeps(n, prefixes)
  {
    forall i | 0 <= i < |prefixes| ensures !StartsWith(n, prefixes[i]) {
      assert prefixes[i][0] == 'x' && (prefixes[i][2] == 'a' || prefixes[i][2] == 'l');
    }
  }

  /** A name starting with one of the prefixes is kept. */
  lemma KeptAt(n: string, prefixes: seq<string>, i: nat)
    requires i < |prefixes| && StartsWith(n, prefixes[i])
    ensures Keeps(n, prefixes)
  {
  }

  /** The upper-cased method of a request that can be sent has no newline. */
  lemma TokenHasNoNewline(verb: string)
    requires IsToken(verb)
    ensures '\n' !in AsciiUpper(verb)
  {
    forall i | 0 <= i < |verb| ensures AsciiUpper(verb)[i] != '\n' { assert IsTokenChar(verb[i]); }
  }

  // ---- header lookups of the string-to-sign ------------------------------------

  /** `headers[name].to_str().unwrap()`: the index panics on a missing name, the unwrap
      on a value that is not visible ASCII. */
  function Required(h: HeaderMap, name: string): (r: Result<string>)
    ensures !r.Err?
    ensures r.Ok? <==> Get(h, name).Some? && IsVisible(Get(h, name).value)
    ensures r.Ok? ==> r.value == Get(h, name).value
  {
    match Get(h, name)
    case None => Panic
    case Some(v) => if IsVisible(v) then Ok(v) else Panic
  }

  /** `headers.get(name).unwrap_or(&HeaderValue::from_static("")).to_str().unwrap()` */
  function Optional(h: HeaderMap, name: string): (r: Result<string>)
    ensures !r.Err?
    ensures r.Ok? <==> Get(h, name).None? || IsVisible(Get(h, name).value)
    ensures r.Ok? ==> r.value == if Get(h, name).None? then "" else Get(h, name).value
  {
    match Get(h, name)
    case None => Ok("")
    case Some(v) => if IsVisible(v) then Ok(v) else Panic
  }
}

=== FILE: codecs.dfy ===
/** Binary-to-text codecs the signer uses: base64 with the standard alphabet and padding
    (RFC 4648 section 4, the `base64::encode` of the crate) and upper-case hexadecimal
    (RFC 4648 section 8, `base16ct::upper`). Each comes with its decoder, and the
    round trip is proved. */
module Codecs {
  import opened Utf8
  import opened Outcomes

  // ---- hexadecimal -------------------------------------------------------------

  predicate IsHexDigit(c: char) {
    '0' <= c <= '9' || 'A' <= c <= 'F'
  }

  function HexDigit(n: nat): (c: char)
    requires n < 16
    ensures IsHexDigit(c)
  {
    if n < 10 then ('0' as int + n) as char else ('A' as int + n - 10) as char
  }

  function HexValue(c: char): (n: nat)
    requires IsHexDigit(c)
    ensures n < 16 && HexDigit(n) == c
  {
    if c <= '9' then c as int - '0' as int else c as int - 'A' as int + 10
  }

  /** Distinct nibbles have distinct digits. */
  lemma HexDigitInjective(m: nat, n: nat)
    requires m < 16 && n < 16 && HexDigit(m) == HexDigit(n)
    ensures m == n
  {
  }

  /** The two upper-case hex digits of a byte, high nibble first. */
  function HexPair(b: byte): (r: string)
    ensures |r| == 2 && IsHexDigit(r[0]) && IsHexDigit(r[1])
    ensures HexValue(r[0]) * 16 + HexValue(r[1]) == b
  {
    [HexDigit(b / 16), HexDigit(b % 16)]
  }

  /** `base16ct::upper::encode_string` */
  function HexUpper(bs: seq<byte>): (r: string)
    ensures |r| == 2 * |bs|
    ensures forall i :: 0 <= i < |r| ==> IsHexDigit(r[i])
    decreases |bs|
  {
    if |bs| == 0 then "" else HexPair(bs[0]) + HexUpper(bs[1..])
  }

  function HexDecode(s: string): Option<seq<byte>>
    decreases |s|
  {
    if |s| == 0 then Some([])
    else if |s| == 1 || !IsHexDigit(s[0]) || !IsHexDigit(s[1]) then None
    else match HexDecode(s[2..])
      case None => None
      case Some(rest) => Some([HexValue(s[0]) * 16 + HexValue(s[1])] + rest)
  }

  lemma {:induction false} HexRoundTrip(bs: seq<byte>)
    ensures HexDecode(HexUpper(bs)) == Some(bs)
    decreases |bs|
  {
    if |bs| > 0 {
      var s := HexUpper(bs);
      assert s[2..] == HexUpper(bs[1..]);
      HexRoundTrip(bs[1..]);
      assert [bs[0]] + bs[1..] == bs;
    }
  }

  // ---- base64 ------------------------------------------------------------------

  predicate IsBase64Char(c: char) {
    'A' <= c <= 'Z' || 'a' <= c <= 'z' || '0' <= c <= '9' || c == '+' || c == '/'
  }

  function Base64Char(n: nat): (c: char)
    requires n < 64
    ensures IsBase64Char(c)
  {
    if n < 26 then ('A' as int + n) as char
    else if n < 52 then ('a' as int + n - 26) as char
    else if n < 62 then ('0' as int + n - 52) as char
    else if n == 62 then '+'
    else '/'
  }

  function Base64Value(c: char): (n: nat)
    requires IsBase64Char(c)
    ensures n < 64 && Base64Char(n) == c
  {
    if 'A' <= c <= 'Z' then c as int - 'A' as int
    else if 'a' <= c <= 'z' then c as int - 'a' as int + 26
    else if '0' <= c <= '9' then c as int - '0' as int + 52
    else if c == '+' then 62
    else 63
  }

  /** Alphabet characters and padding only. */
  predicate IsBase64Text(s: string) {
    forall i :: 0 <= i < |s| ==> IsBase64Char(s[i]) || s[i] == '='
  }

  lemma Base64TextConcat(a: string, b: string)
    requires IsBase64Text(a) && IsBase64Text(b)
    ensures IsBase64Text(a + b)
  {
    forall i | 0 <= i < |a + b| ensures IsBase64Char((a + b)[i]) || (a + b)[i] == '=' {
      if i >= |a| { assert (a + b)[i] == b[i - |a|]; }
    }
  }

  /** Three bytes as four alphabet characters, six bits each, most significant first. */
  function Base64Quad(b0: byte, b1: byte, b2: byte): (r: string)
    ensures |r| == 4 && IsBase64Char(r[0]) && IsBase64Char(r[1]) && IsBase64Char(r[2]) && IsBase64Char(r[3])
  {
    [Base64Char(b0 / 4), Base64Char((b0 % 4) * 16 + b1 / 16),
     Base64Char((b1 % 16) * 4 + b2 / 64), Base64Char(b2 % 64)]
  }

  /** A final single byte: two characters, then two `=`. */
  function Base64One(b0: byte): (r: string)
    ensures |r| == 4 && IsBase64Char(r[0]) && IsBase64Char(r[1]) && r[2] == '=' && r[3] == '='
  {
    [Base64Char(b0 / 4), Base64Char((b0 % 4) * 16), '=', '=']
  }

  /** A final pair of bytes: three characters, then one `=`. */
  function Base64Two(b0: byte, b1: byte): (r: string)
    ensures |r| == 4 && IsBase64Char(r[0]) && IsBase64Char(r[1]) && IsBase64Char(r[2]) && r[3] == '='
  {
    [Base64Char(b0 / 4), Base64Char((b0 % 4) * 16 + b1 / 16), Base64Char((b1 % 16) * 4), '=']
  }

  /** `base64::encode`: every three bytes become four characters; a final group of one
      or two bytes is padded with `=` to four characters. */
  function Base64Encode(bs: seq<byte>): (r: string)
    ensures |r| == 4 * ((|bs| + 2) / 3)
    ensures IsBase64Text(r)
    ensures forall i :: 0 <= i < |r| ==> (r[i] == '=' <==> i >= |r| - Base64Padding(|bs|))
    decreases |bs|
  {
    if |bs| == 0 then ""
    else if |bs| == 1 then Base64One(bs[0])
    else if |bs| == 2 then Base64Two(bs[0], bs[1])
    else
      var head := Base64Quad(bs[0], bs[1], bs[2]);
      var tail := Base64Encode(bs[3..]);
      assert (|bs| - 1) / 3 == (|bs| + 2) / 3 - 1;
      Base64TextConcat(head, tail);
      PaddedAfterQuad(head, tail, |bs| - 3);
      head + tail
  }

  /** A full group in front keeps the padding at the end. */
  lemma PaddedAfterQuad(head: string, tail: string, n: nat)
    requires |head| == 4 && IsBase64Char(head[0]) && IsBase64Char(head[1])
    requires IsBase64Char(head[2]) && IsBase64Char(head[3])
    requires |tail| == 4 * ((n + 2) / 3)
    requires forall i :: 0 <= i < |tail| ==> (tail[i] == '=' <==> i >= |tail| - Base64Padding(n))
    ensures forall i :: 0 <= i < |head + tail| ==> ((head + tail)[i] == '=' <==> i >= |head + tail| - Base64Padding(n + 3))
  {
    assert (n + 3) % 3 == n % 3;
    forall i | 0 <= i < |head + tail|
      ensures (head + tail)[i] == '=' <==> i >= |head + tail| - Base64Padding(n + 3)
    {
      if i >= 4 { assert (head + tail)[i] == tail[i - 4]; } else { assert IsBase64Char(head[i]); }
    }
  }

  /** How many `=` end the encoding of `n` bytes: none for whole groups, two after a
      single trailing byte, one after two. */
  function Base64Padding(n: nat): (p: nat)
    ensures p <= 2 && (p == 0 <==> n % 3 == 0)
  {
    (3 - n % 3) % 3
  }

  /** The inverse of `Base64Encode` on well-formed input. */
  function Base64Decode(s: string): Option<seq<byte>>
    decreases |s|
  {
    if |s| == 0 then Some([])
    else if |s| < 4 || !IsBase64Char(s[0]) || !IsBase64Char(s[1]) then None
    else if |s| == 4 && s[2] == '=' && s[3] == '=' then
      Some([Base64Value(s[0]) * 4 + Base64Value(s[1]) / 16])
    else if !IsBase64Char(s[2]) then None
    else if |s| == 4 && s[3] == '=' then
      Some([Base64Value(s[0]) * 4 + Base64Value(s[1]) / 16,
            (Base64Value(s[1]) % 16) * 16 + Base64Value(s[2]) / 4])
    else if !IsBase64Char(s[3]) then None
    else match Base64Decode(s[4..])
      case None => None
      case Some(rest) =>
        Some([Base64Value(s[0]) * 4 + Base64Value(s[1]) / 16,
              (Base64Value(s[1]) % 16) * 16 + Base64Value(s[2]) / 4,
              (Base64Value(s[2]) % 4) * 64 + Base64Value(s[3])] + rest)
  }

  /** Splitting `hi * 16 + lo` and `hi * 4 + lo` back into their parts. */
  lemma DivMod16(hi: nat, lo: nat)
    requires lo < 16
    ensures (hi * 16 + lo) / 16 == hi && (hi * 16 + lo) % 16 == lo
  {
  }

  lemma DivMod4(hi: nat, lo: nat)
    requires lo < 4
    ensures (hi * 4 + lo) / 4 == hi && (hi * 4 + lo) % 4 == lo
  {
  }

  lemma Base64ValueOfChar(n: nat)
    requires n < 64
    ensures Base64Value(Base64Char(n)) == n
  {
  }

  /** The arithmetic of one group: the sextets of three bytes give the bytes back. */
  lemma Base64Group(b0: byte, b1: byte, b2: byte, v0: nat, v1: nat, v2: nat, v3: nat)
    requires v0 == b0 / 4 && v1 == (b0 % 4) * 16 + b1 / 16
    requires v2 == (b1 % 16) * 4 + b2 / 64 && v3 == b2 % 64
    ensures v0 * 4 + v1 / 16 == b0
    ensures (v1 % 16) * 16 + v2 / 4 == b1
    ensures (v2 % 4) * 64 + v3 == b2
  {
    DivMod16(b0 % 4, b1 / 16);
    DivMod4(b1 % 16, b2 / 64);
  }

  /** Decoding a leading group of four alphabet characters. */
  lemma Base64DecodeGroup(c0: char, c1: char, c2: char, c3: char, rest: string, tail: seq<byte>)
    requires IsBase64Char(c0) && IsBase64Char(c1) && IsBase64Char(c2) && IsBase64Char(c3)
    requires Base64Decode(rest) == Some(tail)
    ensures Base64Decode([c0, c1, c2, c3] + rest) ==
      Some([Base64Value(c0) * 4 + Base64Value(c1) / 16,
            (Base64Value(c1) % 16) * 16 + Base64Value(c2) / 4,
            (Base64Value(c2) % 4) * 64 + Base64Value(c3)] + tail)
  {
    var s := [c0, c1, c2, c3] + rest;
    assert s[4..] == rest;
  }

  lemma Base64RoundTripOne(b0: byte)
    ensures Base64Decode(Base64Encode([b0])) == Some([b0])
  {
    var n0, n1 := b0 / 4, (b0 % 4) * 16;
    var c0, c1 := Base64Char(n0), Base64Char(n1);
    assert Base64Encode([b0]) == [c0, c1, '=', '='];
    Base64ValueOfChar(n0);
    Base64ValueOfChar(n1);
    Base64Group(b0, 0, 0, Base64Value(c0), Base64Value(c1), 0, 0);
  }

  lemma Base64RoundTripTwo(b0: byte, b1: byte)
    ensures Base64Decode(Base64Encode([b0, b1])) == Some([b0, b1])
  {
    var n0, n1, n2 := b0 / 4, (b0 % 4) * 16 + b1 / 16, (b1 % 16) * 4;
    var c0, c1, c2 := Base64Char(n0), Base64Char(n1), Base64Char(n2);
    assert Base64Encode([b0, b1]) == [c0, c1, c2, '='];
    Base64ValueOfChar(n0);
    Base64ValueOfChar(n1);
    Base64ValueOfChar(n2);
    Base64Group(b0, b1, 0, Base64Value(c0), Base64Value(c1), Base64Value(c2), 0);
  }

  /** A leading group of three bytes comes back, given that the rest does. */
  lemma Base64RoundTripGroup(bs: seq<byte>)
    requires |bs| >= 3
    requires Base64Decode(Base64Encode(bs[3..])) == Some(bs[3..])
    ensures Base64Decode(Base64Encode(bs)) == Some(bs)
  {
    var rest := bs[3..];
    assert Base64Encode(bs) == Base64Quad(bs[0], bs[1], bs[2]) + Base64Encode(rest);
    Base64QuadDecodes(bs[0], bs[1], bs[2], Base64Encode(rest), rest);
    RegroupThree(bs);
  }

  /** Decoding a group of four characters gives back its three bytes. */
  lemma Base64QuadDecodes(b0: byte, b1: byte, b2: byte, rest: string, tail: seq<byte>)
    requires Base64Decode(rest) == Some(tail)
    ensures Base64Decode(Base64Quad(b0, b1, b2) + rest) == Some([b0, b1, b2] + tail)
  {
    var n0, n1, n2, n3 := b0 / 4, (b0 % 4) * 16 + b1 / 16, (b1 % 16) * 4 + b2 / 64, b2 % 64;
    var c0, c1, c2, c3 := Base64Char(n0), Base64Char(n1), Base64Char(n2), Base64Char(n3);
    assert Base64Quad(b0, b1, b2) == [c0, c1, c2, c3];
    Base64ValueOfChar(n0);
    Base64ValueOfChar(n1);
    Base64ValueOfChar(n2);
    Base64ValueOfChar(n3);
    Base64Group(b0, b1, b2, Base64Value(c0), Base64Value(c1), Base64Value(c2), Base64Value(c3));
    Base64DecodeGroup(c0, c1, c2, c3, rest, tail);
  }

  lemma RegroupThree(bs: seq<byte>)
    requires |bs| >= 3
    ensures [bs[0], bs[1], bs[2]] + bs[3..] == bs
  {
  }

  lemma {:induction false} Base64RoundTrip(bs: seq<byte>)
    ensures Base64Decode(Base64Encode(bs)) == Some(bs)
    decreases |bs|
  {
    if |bs| == 1 {
      assert bs == [bs[0]];
      Base64RoundTripOne(bs[0]);
    } else if |bs| == 2 {
      assert bs == [bs[0], bs[1]];
      Base64RoundTripTwo(bs[0], bs[1]);
    } else if |bs| >= 3 {
      Base64RoundTrip(bs[3..]);
      Base64RoundTripGroup(bs);
    }
  }
}

=== FILE: crypto.dfy ===
/** The cryptographic primitives the signer calls: HMAC-SHA1 (RFC 2104 over FIPS 180-4
    SHA-1) and MD5 (RFC 1321). Their internals are not modelled; they enter as
    function-valued fields with the output lengths the standards fix, and every
    signature and digest header is built from them. */
module Crypto {
  import opened Utf8
  import opened Codecs
  import opened Outcomes

  datatype Primitives = Primitives(hmacSha1: (seq<byte>, seq<byte>) -> seq<byte>, md5: seq<byte> -> seq<byte>)

  /** HMAC-SHA1 yields a 20-byte tag for any key (RFC 2104 section 2: longer keys are
      hashed first), MD5 a 16-byte digest. */
  ghost predicate Valid(p: Primitives) {
    (forall key, msg :: |p.hmacSha1(key, msg)| == 20)
    && (forall data :: |p.md5(data)| == 16)
  }

  /** `sign`: base64 of HMAC-SHA1 over the UTF-8 bytes of `body`, keyed by those of
      `key`. It cannot fail: an HMAC accepts keys of every length. */
  function Sign(p: Primitives, key: string, body: string): (r: string)
    requires Valid(p)
    ensures |r| == 28 && r[27] == '='
    ensures forall i :: 0 <= i < 27 ==> IsBase64Char(r[i])
    ensures forall i :: 0 <= i < |r| ==> ' ' <= r[i] <= '~' && r[i] != ':'
    ensures Base64Decode(r) == Some(p.hmacSha1(Utf8.Encode(key), Utf8.Encode(body)))
  {
    var tag := p.hmacSha1(Utf8.Encode(key), Utf8.Encode(body));
    EncodedTag(tag);
    Base64Encode(tag)
  }

  /** What the base64 text of any 20-byte tag looks like. */
  lemma EncodedTag(tag: seq<byte>)
    requires |tag| == 20
    ensures |Base64Encode(tag)| == 28 && Base64Encode(tag)[27] == '='
    ensures forall i :: 0 <= i < 27 ==> IsBase64Char(Base64Encode(tag)[i])
    ensures forall i :: 0 <= i < 28 ==> ' ' <= Base64Encode(tag)[i] <= '~' && Base64Encode(tag)[i] != ':'
    ensures Base64Decode(Base64Encode(tag)) == Some(tag)
  {
    Base64RoundTrip(tag);
    Base64FullGroups(tag);
    SignatureChars(Base64Encode(tag));
  }

  /** Base64 of a 20-byte tag: six full groups and one two-byte group, so only the last
      character is padding. */
  lemma Base64FullGroups(tag: seq<byte>)
    requires |tag| == 20
    ensures |Base64Encode(tag)| == 28
    ensures forall i :: 0 <= i < 27 ==> IsBase64Char(Base64Encode(tag)[i])
    ensures Base64Encode(tag)[27] == '='
  {
    Base64TwoByteTail(tag, 6);
  }

  /** Base64 text of `n` full groups and a final group of two bytes: only its last
      character is padding, as `Base64Encode`'s padding clause gives for `3n + 2` bytes. */
  lemma Base64TwoByteTail(bs: seq<byte>, n: nat)
    requires |bs| == 3 * n + 2
    ensures var r := Base64Encode(bs);
            && |r| == 4 * n + 4
            && (forall i :: 0 <= i < 4 * n + 3 ==> IsBase64Char(r[i]))
            && r[4 * n + 3] == '='
  {
    var r := Base64Encode(bs);
    assert |r| == 4 * n + 4 && Base64Padding(|bs|) == 1;
    forall i | 0 <= i < 4 * n + 3 ensures IsBase64Char(r[i]) {
      assert r[i] != '=';
    }
  }

  /** Such a signature is printable ASCII without `:`. */
  lemma SignatureChars(sig: string)
    requires |sig| == 28 && sig[27] == '='
    requires forall i :: 0 <= i < 27 ==> IsBase64Char(sig[i])
    ensures forall i :: 0 <= i < |sig| ==> ' ' <= sig[i] <= '~' && sig[i] != ':'
  {
    forall i | 0 <= i < |sig| ensures ' ' <= sig[i] <= '~' && sig[i] != ':' {
      if i < 27 { assert IsBase64Char(sig[i]); }
    }
  }

  /** The MD5 digest of a body's UTF-8 bytes. */
  function Digest(p: Primitives, body: string): (r: seq<byte>)
    requires Valid(p)
    ensures |r| == 16
  {
    p.md5(Utf8.Encode(body))
  }
}

=== FILE: headers.dfy ===
/** The header map every dialect fills before signing: the `HeaderMap` of the `http`
    crate. Names are lower-case tokens (RFC 7230 section 3.2.6), a name may carry several
    values, `insert` replaces all values of a name, `append` adds one, and iteration yields
    every (name, value) pair, the values of one name in the order they were added. A map
    is a sequence of entries in first-insertion order; an entry holds one name and its
    values. */
module Headers {
  import opened Strings
  import opened Outcomes
  import opened Sorting

  // ---- names, values, methods --------------------------------------------------

  /** `tchar` of RFC 7230 section 3.2.6. */
  predicate IsTokenChar(c: char) {
    'a' <= c <= 'z' || 'A' <= c <= 'Z' || '0' <= c <= '9'
    || c == '!' || c == '#' || c == '$' || c == '%' || c == '&' || c == '\'' || c == '*'
    || c == '+' || c == '-' || c == '.' || c == '^' || c == '_' || c == '`' || c == '|' || c == '~'
  }

  predicate IsToken(s: string) {
    |s| > 0 && forall i :: 0 <= i < |s| ==> IsTokenChar(s[i])
  }

  /** A name as the map stores it. */
  predicate IsName(s: string) {
    IsToken(s) && IsLower(s)
  }

  /** `HeaderName::from_str`: a token, normalised to lower case. */
  function ParseName(s: string): (r: Option<string>)
    ensures r.Some? <==> IsToken(s)
    ensures r.Some? ==> r.value == AsciiLower(s) && IsName(r.value)
  {
    if IsToken(s) then
      AsciiLowerProperties(s);
      Some(AsciiLower(s))
    else None
  }

  /** A byte `HeaderValue::from_str` accepts: horizontal tab, or at least 0x20 and not
      DEL. A character outside ASCII is encoded as bytes of at least 0x80, all accepted. */
  predicate IsValueChar(c: char) {
    c == '\t' || (' ' <= c && c as int != 0x7F)
  }

  predicate IsValue(s: string) {
    forall i :: 0 <= i < |s| ==> IsValueChar(s[i])
  }

  /** What `HeaderValue::to_str` accepts without error: tab and visible ASCII. */
  predicate IsVisible(s: string) {
    forall i :: 0 <= i < |s| ==> s[i] == '\t' || ' ' <= s[i] <= '~'
  }

  /** `s.parse::<HeaderValue>()`. */
  function ParseValue(s: string): (r: Result<string>)
    ensures r.Ok? <==> IsValue(s)
    ensures r.Ok? ==> r.value == s
    ensures r.Err? ==> r.error == InvalidHeader
  {
    if IsValue(s) then Ok(s) else Err(InvalidHeader)
  }

  lemma VisibleIsValue(s: string)
    requires IsVisible(s)
    ensures IsValue(s)
    ensures '\n' !in s
  {
    forall i | 0 <= i < |s| ensures s[i] != '\n' { }
  }

  /** `Method::from_bytes`: the standard methods and every other non-empty token
      (case-sensitive). */
  function ParseMethod(s: string): (r: Result<string>)
    ensures r.Ok? <==> IsToken(s)
    ensures r.Ok? ==> r.value == s
    ensures r.Err? ==> r.error == InvalidRequest(BadMethod)
  {
    if IsToken(s) then Ok(s) else Err(InvalidRequest(BadMethod))
  }

  // ---- the map -----------------------------------------------------------------

  datatype Entry = Entry(name: string, values: seq<string>)

  type HeaderMap = seq<Entry>

  /** `contains_key` */
  predicate ContainsKey(h: HeaderMap, name: string)
    decreases |h|
  {
    |h| > 0 && (h[0].name == name || ContainsKey(h[1..], name))
  }

  /** What every map the crate builds satisfies: lower-case token names, each once, each
      with at least one value, every value acceptable. */
  predicate WellFormed(h: HeaderMap)
    decreases |h|
  {
    |h| == 0
    || (IsName(h[0].name) && |h[0].values| > 0
        && (forall j :: 0 <= j < |h[0].values| ==> IsValue(h[0].values[j]))
        && !ContainsKey(h[1..], h[0].name)
        && WellFormed(h[1..]))
  }

  const Empty: HeaderMap := []

  /** All values of `name`, in the order they were added; empty when absent. */
  function Values(h: HeaderMap, name: string): seq<string>
    decreases |h|
  {
    if |h| == 0 then [] else if h[0].name == name then h[0].values else Values(h[1..], name)
  }

  /** `get`: the first value of `name`. */
  function Get(h: HeaderMap, name: string): Option<string> {
    var vs := Values(h, name);
    if |vs| == 0 then None else Some(vs[0])
  }

  lemma {:induction false} ValuesAbsent(h: HeaderMap, name: string)
    requires !ContainsKey(h, name)
    ensures Values(h, name) == []
    decreases |h|
  {
    if |h| > 0 { ValuesAbsent(h[1..], name); }
  }

  lemma {:induction false} ContainsKeyAt(h: HeaderMap, i: nat)
    requires i < |h|
    ensures ContainsKey(h, h[i].name)
    decreases i
  {
    if i > 0 {
      assert h[1..][i - 1] == h[i];
      ContainsKeyAt(h[1..], i - 1);
    }
  }

  /** In a well-formed map every name has at least one value exactly when it is present,
      and a name's values are those of its entry. */
  lemma {:induction false} ContainsKeyValues(h: HeaderMap, name: string)
    requires WellFormed(h)
    ensures ContainsKey(h, name) <==> |Values(h, name)| > 0
    decreases |h|
  {
    if |h| > 0 { ContainsKeyValues(h[1..], name); }
  }

  /** `insert(name, value)`: `name` now has exactly `value`; an existing entry keeps its
      place, a new one goes last; no other name changes. */
  function Insert(h: HeaderMap, name: string, value: string): (r: HeaderMap)
    ensures Values(r, name) == [value]
    ensures forall n :: n != name ==> Values(r, n) == Values(h, n)
    ensures forall n :: ContainsKey(r, n) <==> n == name || ContainsKey(h, n)
    decreases |h|
  {
    if |h| == 0 then [Entry(name, [value])]
    else if h[0].name == name then
      var r := [Entry(name, [value])] + h[1..];
      assert r[1..] == h[1..];
      r
    else
      var r := [h[0]] + Insert(h[1..], name, value);
      assert r[1..] == Insert(h[1..], name, value);
      r
  }

  /** Two inserts under distinct names: each name has its value, no other name changes. */
  lemma InsertBoth(h: HeaderMap, n1: string, v1: string, n2: string, v2: string)
    requires n1 != n2
    ensures Values(Insert(Insert(h, n1, v1), n2, v2), n1) == [v1]
    ensures Values(Insert(Insert(h, n1, v1), n2, v2), n2) == [v2]
    ensures forall n :: n != n1 && n != n2 ==> Values(Insert(Insert(h, n1, v1), n2, v2), n) == Values(h, n)
  {
  }

  /** Three inserts under distinct names: each name holds its value, others keep theirs. */
  lemma InsertThree(h: HeaderMap, n1: string, v1: string, n2: string, v2: string, n3: string, v3: string)
    requires n1 != n2 && n1 != n3 && n2 != n3
    ensures var r := Insert(Insert(Insert(h, n1, v1), n2, v2), n3, v3);
            Values(r, n1) == [v1] && Values(r, n2) == [v2] && Values(r, n3) == [v3]
    ensures forall n :: n != n1 && n != n2 && n != n3 ==>
              Values(Insert(Insert(Insert(h, n1, v1), n2, v2), n3, v3), n) == Values(h, n)
  {
    InsertBoth(h, n1, v1, n2, v2);
  }

  /** Two valid inserts keep a well-formed map well formed. */
  lemma InsertsWellFormed(h: HeaderMap, n1: string, v1: string, n2: string, v2: string)
    requires WellFormed(h) && IsName(n1) && IsValue(v1) && IsName(n2) && IsValue(v2)
    ensures WellFormed(Insert(Insert(h, n1, v1), n2, v2))
  {
    InsertWellFormed(h, n1, v1);
    InsertWellFormed(Insert(h, n1, v1), n2, v2);
  }

  /** The fixed values the dialects insert are acceptable header values. */
  lemma FixedValues()
    ensures IsValue("application/json") && IsValue("HMAC-SHA1") && IsValue("hmac-sha1")
    ensures IsValue("1.0") && IsValue("0") && IsValue("0.6.0")
  {
  }

  /** The first of two inserts under distinct names survives the second. */
  lemma FirstOfTwo(h: HeaderMap, n1: string, v1: string, n2: string, v2: string)
    requires n1 != n2
    ensures Values(Insert(Insert(h, n1, v1), n2, v2), n1) == [v1]
  {
  }

  /** A third name keeps its values through two inserts. */
  lemma TwoInsertsKeep(h: HeaderMap, n1: string, v1: string, n2: string, v2: string, n: string)
    requires n != n1 && n != n2
    ensures Values(Insert(Insert(h, n1, v1), n2, v2), n) == Values(h, n)
  {
  }

  /** `append(name, value)`: `value` goes after the values `name` already has. */
  function Append(h: HeaderMap, name: string, value: string): (r: HeaderMap)
    ensures Values(r, name) == Values(h, name) + [value]
    ensures forall n :: n != name ==> Values(r, n) == Values(h, n)
    ensures forall n :: ContainsKey(r, n) <==> n == name || ContainsKey(h, n)
    decreases |h|
  {
    if |h| == 0 then [Entry(name, [value])]
    else if h[0].name == name then
      var r := [Entry(name, h[0].values + [value])] + h[1..];
      assert r[1..] == h[1..];
      r
    else
      var r := [h[0]] + Append(h[1..], name, value);
      assert r[1..] == Append(h[1..], name, value);
      r
  }

  /** The names every dialect's `send` and `body` insert are names as the map stores them. */
  /** A non-empty run of lower-case letters and dashes is a name. */
  lemma LowerName(s: string)
    requires |s| > 0
    requires forall i :: 0 <= i < |s| ==> 'a' <= s[i] <= 'z' || s[i] == '-'
    ensures IsName(s)
  {
  }

  /** The names every dialect's `send` and `body` insert. */
  lemma CommonNames()
    ensures IsName("accept") && IsName("user-agent") && IsName("x-sdk-client") && IsName("host")
    ensures IsName("date") && IsName("content-length") && IsName("content-md5")
  {
    LowerName("accept");
    LowerName("user-agent");
    LowerName("x-sdk-client");
    LowerName("host");
    LowerName("date");
    LowerName("content-length");
    assert IsName("content-md5") by {
      forall i | 0 <= i < 11 ensures IsTokenChar("content-md5"[i]) && !('A' <= "content-md5"[i] <= 'Z') {
      }
    }
  }

  lemma {:induction false} InsertWellFormed(h: HeaderMap, name: string, value: string)
    requires WellFormed(h) && IsName(name) && IsValue(value)
    ensures WellFormed(Insert(h, name, value))
    decreases |h|
  {
    var r := Insert(h, name, value);
    if |h| > 0 {
      assert r[1..] == if h[0].name == name then h[1..] else Insert(h[1..], name, value);
      if h[0].name != name { InsertWellFormed(h[1..], name, value); }
    } else {
      assert r[1..] == [];
    }
  }

  lemma {:induction false} AppendWellFormed(h: HeaderMap, name: string, value: string)
    requires WellFormed(h) && IsName(name) && IsValue(value)
    ensures WellFormed(Append(h, name, value))
    decreases |h|
  {
    var r := Append(h, name, value);
    if |h| > 0 {
      assert r[1..] == if h[0].name == name then h[1..] else Append(h[1..], name, value);
      if h[0].name != name { AppendWellFormed(h[1..], name, value); }
    } else {
      assert r[1..] == [];
    }
  }

  // ---- iteration ---------------------------------------------------------------

  /** `(name, v)` for each `v` of `vs`. */
  function Tagged(name: string, vs: seq<string>): (r: seq<Pair>)
    ensures |r| == |vs|
    ensures forall i :: 0 <= i < |vs| ==> r[i] == (name, vs[i])
  {
    seq(|vs|, i requires 0 <= i < |vs| => (name, vs[i]))
  }

  /** `iter()`: every (name, value) pair, entry by entry. */
  function Iter(h: HeaderMap): seq<Pair>
    decreases |h|
  {
    if |h| == 0 then [] else Tagged(h[0].name, h[0].values) + Iter(h[1..])
  }

  lemma TaggedRun(name: string, vs: seq<string>, k: string)
    ensures KeyRun(Tagged(name, vs), k) == if name == k then Tagged(name, vs) else []
  {
    TaggedRunFrom(name, vs, k);
  }

  lemma {:induction false} TaggedRunFrom(name: string, vs: seq<string>, k: string)
    ensures KeyRun(Tagged(name, vs), k) == if name == k then Tagged(name, vs) else []
    decreases |vs|
  {
    var t := Tagged(name, vs);
    if |vs| > 0 {
      assert t[1..] == Tagged(name, vs[1..]);
      TaggedRunFrom(name, vs[1..], k);
      if name == k { assert t == [t[0]] + t[1..]; }
    }
  }

  /** Iteration lists, for every name, exactly that name's values in order: the pairs
      of one name that iteration yields are those `Values` returns. */
  lemma {:induction false} IterRuns(h: HeaderMap, k: string)
    requires WellFormed(h)
    ensures KeyRun(Iter(h), k) == Tagged(k, Values(h, k))
    decreases |h|
  {
    if |h| > 0 {
      IterRuns(h[1..], k);
      KeyRunAppend(Tagged(h[0].name, h[0].values), Iter(h[1..]), k);
      TaggedRun(h[0].name, h[0].values, k);
      if h[0].name == k {
        ValuesAbsent(h[1..], k);
      }
    }
  }

  /** Two maps that agree on every name's values iterate to the same runs. */
  lemma IterDependsOnlyOnValues(h1: HeaderMap, h2: HeaderMap)
    requires WellFormed(h1) && WellFormed(h2)
    requires forall n :: Values(h1, n) == Values(h2, n)
    ensures forall k :: KeyRun(Iter(h1), k) == KeyRun(Iter(h2), k)
  {
    forall k ensures KeyRun(Iter(h1), k) == KeyRun(Iter(h2), k) {
      IterRuns(h1, k);
      IterRuns(h2, k);
    }
  }

  lemma {:induction false} IterNames(h: HeaderMap)
    requires WellFormed(h)
    ensures forall i :: 0 <= i < |Iter(h)| ==> IsName(Iter(h)[i].0) && IsValue(Iter(h)[i].1)
    decreases |h|
  {
    if |h| > 0 {
      IterNames(h[1..]);
      var a := Tagged(h[0].name, h[0].values);
      forall i | 0 <= i < |Iter(h)| ensures IsName(Iter(h)[i].0) && IsValue(Iter(h)[i].1) {
        if i >= |a| { assert Iter(h)[i] == Iter(h[1..])[i - |a|]; }
      }
    }
  }

  // ---- building maps from caller pairs -----------------------------------------

  /** The values the pairs give to `name` once their keys are lower-cased. */
  function ValuesFor(pairs: seq<Pair>, name: string): seq<string>
    decreases |pairs|
  {
    if |pairs| == 0 then []
    else ValuesFor(pairs[..|pairs| - 1], name)
         + (if AsciiLower(pairs[|pairs| - 1].0) == name then [pairs[|pairs| - 1].1] else [])
  }

  predicate ValidPair(p: Pair) {
    IsToken(p.0) && IsValue(p.1)
  }

  /** `HeaderMap::try_from(&HashMap<String, String>)`, the pairs in the order the hash
      map yields them: each name and value is parsed and appended; one bad pair makes
      the whole conversion fail. */
  function FromPairs(pairs: seq<Pair>): (r: Result<HeaderMap>)
    ensures r.Ok? <==> forall i :: 0 <= i < |pairs| ==> ValidPair(pairs[i])
    ensures !r.Ok? ==> r == Err(InvalidRequest(BadHeader))
    ensures r.Ok? ==> WellFormed(r.value)
    ensures r.Ok? ==> forall n :: Values(r.value, n) == ValuesFor(pairs, n)
    decreases |pairs|
  {
    if |pairs| == 0 then Ok(Empty)
    else
      var init := pairs[..|pairs| - 1];
      var last := pairs[|pairs| - 1];
      assert forall i :: 0 <= i < |init| ==> init[i] == pairs[i];
      var prev := FromPairs(init);
      if !prev.Ok? || !ValidPair(last) then Err(InvalidRequest(BadHeader))
      else
        var name := ParseName(last.0).value;
        var value := ParseValue(last.1).value;
        AppendWellFormed(prev.value, name, value);
        Ok(Append(prev.value, name, value))
  }

  /** Keys that stay distinct once lower-cased. */
  predicate NoCaseCollision(pairs: seq<Pair>) {
    forall i, j :: 0 <= i < j < |pairs| ==> AsciiLower(pairs[i].0) != AsciiLower(pairs[j].0)
  }

  lemma {:induction false} ValuesForSingle(pairs: seq<Pair>, i: nat)
    requires NoCaseCollision(pairs) && i < |pairs|
    ensures ValuesFor(pairs, AsciiLower(pairs[i].0)) == [pairs[i].1]
    decreases |pairs|
  {
    var n := AsciiLower(pairs[i].0);
    var init := pairs[..|pairs| - 1];
    if i == |pairs| - 1 {
      ValuesForAbsent(init, n);
    } else {
      assert init[i] == pairs[i];
      ValuesForSingle(init, i);
    }
  }

  lemma {:induction false} ValuesForAbsent(pairs: seq<Pair>, n: string)
    requires forall i :: 0 <= i < |pairs| ==> AsciiLower(pairs[i].0) != n
    ensures ValuesFor(pairs, n) == []
    decreases |pairs|
  {
    if |pairs| > 0 { ValuesForAbsent(pairs[..|pairs| - 1], n); }
  }

  /** Without two keys that differ only in case, every name carries the single value
      of its pair, and the hash map's iteration order makes no difference. */
  lemma FromPairsSingleValued(pairs: seq<Pair>, n: string)
    requires NoCaseCollision(pairs)
    requires FromPairs(pairs).Ok?
    ensures (exists i :: 0 <= i < |pairs| && AsciiLower(pairs[i].0) == n) ==>
            exists i :: 0 <= i < |pairs| && AsciiLower(pairs[i].0) == n && Values(FromPairs(pairs).value, n) == [pairs[i].1]
    ensures (forall i :: 0 <= i < |pairs| ==> AsciiLower(pairs[i].0) != n) ==> Values(FromPairs(pairs).value, n) == []
  {
    if i :| 0 <= i < |pairs| && AsciiLower(pairs[i].0) == n {
      ValuesForSingle(pairs, i);
    } else {
      ValuesForAbsent(pairs, n);
    }
  }

  lemma FromPairsIgnoresOrder(a: seq<Pair>, b: seq<Pair>)
    requires NoCaseCollision(a) && NoCaseCollision(b)
    requires multiset(a) == multiset(b)
    requires FromPairs(a).Ok?
    ensures FromPairs(b).Ok?
    ensures forall n :: Values(FromPairs(a).value, n) == Values(FromPairs(b).value, n)
  {
    forall i | 0 <= i < |b| ensures ValidPair(b[i]) {
      assert b[i] in multiset(a);
    }
    forall n ensures Values(FromPairs(a).value, n) == Values(FromPairs(b).value, n) {
      if i :| 0 <= i < |a| && AsciiLower(a[i].0) == n {
        assert a[i] in multiset(b);
        var j :| 0 <= j < |b| && b[j] == a[i];
        ValuesForSingle(a, i);
        ValuesForSingle(b, j);
      } else {
        ValuesForAbsent(a, n);
        forall j | 0 <= j < |b| ensures AsciiLower(b[j].0) != n {
          assert b[j] in multiset(a);
        }
        ValuesForAbsent(b, n);
      }
    }
  }
}

=== FILE: log_service.dfy ===
/** The log-service client of `src/client/log_service.rs`: its setters, the header map
    `send` completes (two defaults that yield to the caller's, four that do not, the host
    rewritten from the endpoint and the project), the six-line string-to-sign with the
    `x-acs-` and `x-log-` headers, and `Authorization: SLS <id>:<signature>`. */
module LogService {
  import opened Outcomes
  import opened Strings
  import opened Sorting
  import opened Headers
  import opened Canonical
  import opened Crypto
  import opened Codecs
  import opened Utf8
  import opened Payload
  import opened Wire
  import Authorization

  datatype Request = Request(verb: string, uri: string, body: Option<string>, query: seq<Pair>, headers: HeaderMap,
                             project: Option<string>)

  datatype Client = Client(accessKeyId: string, accessKeySecret: string, endpoint: string, request: Request)

  /** `LogServiceClient::new`: the credentials and endpoint, and the `Default` request. */
  function New(accessKeyId: string, accessKeySecret: string, endpoint: string): (r: Client)
    ensures r.accessKeyId == accessKeyId && r.accessKeySecret == accessKeySecret && r.endpoint == endpoint
    ensures r.request.verb == "" && r.request.uri == "" && r.request.body == None && r.request.project == None
    ensures |r.request.query| == 0 && |r.request.headers| == 0
    ensures WellFormed(r.request.headers)
  {
    Client(accessKeyId, accessKeySecret, endpoint, Request("", "", None, [], Empty, None))
  }

  /** `request(method, uri)`: sets the method and the uri, nothing else. */
  function WithRequest(c: Client, verb: string, uri: string): (r: Client)
    ensures r.request.verb == verb && r.request.uri == uri
    ensures r.(request := c.request) == c
    ensures r.request.(verb := c.request.verb, uri := c.request.uri) == c.request
  {
    c.(request := c.request.(verb := verb, uri := uri))
  }

  /** `get(uri)` */
  function Get(c: Client, uri: string): (r: Client)
    ensures r.request.verb == "GET" && r.request.uri == uri
    ensures r.(request := c.request) == c
    ensures r.request.(verb := c.request.verb, uri := c.request.uri) == c.request
  {
    WithRequest(c, "GET", uri)
  }

  /** `post(uri)` */
  function Post(c: Client, uri: string): (r: Client)
    ensures r.request.verb == "POST" && r.request.uri == uri
    ensures r.(request := c.request) == c
    ensures r.request.(verb := c.request.verb, uri := c.request.uri) == c.request
  {
    WithRequest(c, "POST", uri)
  }

  /** `query(queries)`: the new pairs replace the whole list. */
  function Query(c: Client, queries: seq<Pair>): (r: Client)
    ensures r.request.query == queries
    ensures r.(request := c.request) == c
    ensures r.request.(query := c.request.query) == c.request
  {
    c.(request := c.request.(query := queries))
  }

  /** `project(project)`: the project becomes the first label of the host. */
  function Project(c: Client, project: string): (r: Client)
    ensures r.request.project == Some(project)
    ensures r.(request := c.request) == c
    ensures r.request.(project := c.request.project) == c.request
  {
    c.(request := c.request.(project := Some(project)))
  }

  /** `body(body)`: stores the body and sets `content-length` to its UTF-8 length and
      `content-md5` to the upper-case hex MD5 digest. Both are digits, so the two
      `parse()?` calls cannot fail. */
  function Body(c: Client, p: Primitives, body: string): (r: Result<Client>)
    requires Valid(p)
    ensures r.Ok?
    ensures r.value.request.body == Some(body)
    ensures Values(r.value.request.headers, "content-length") == [ContentLength(body)]
    ensures Values(r.value.request.headers, "content-md5") == [HexMd5(p, body)]
    ensures forall n :: n != "content-length" && n != "content-md5" ==>
              Values(r.value.request.headers, n) == Values(c.request.headers, n)
    ensures WellFormed(c.request.headers) ==> WellFormed(r.value.request.headers)
    ensures r.value.(request := c.request) == c
    ensures r.value.request.(headers := c.request.headers, body := c.request.body) == c.request
  {
    var h := Insert(Insert(c.request.headers, "content-length", ContentLength(body)), "content-md5", HexMd5(p, body));
    InsertBoth(c.request.headers, "content-length", ContentLength(body), "content-md5", HexMd5(p, body));
    assert WellFormed(c.request.headers) ==> WellFormed(h) by {
      if WellFormed(c.request.headers) { ContentWellFormed(c.request.headers, ContentLength(body), HexMd5(p, body)); }
    }
    Ok(c.(request := c.request.(headers := h, body := Some(body))))
  }

  /** `header(headers)`: the caller's hash map, in its iteration order, replaces the
      header map, `content-length` and `content-md5` included; an unparsable pair fails
      the call. */
  function Header(c: Client, pairs: seq<Pair>): (r: Result<Client>)
    ensures r.Ok? <==> forall i :: 0 <= i < |pairs| ==> ValidPair(pairs[i])
    ensures !r.Ok? ==> r == Err(InvalidRequest(BadHeader))
    ensures r.Ok? ==> WellFormed(r.value.request.headers)
    ensures r.Ok? ==> forall n :: Values(r.value.request.headers, n) == ValuesFor(pairs, n)
    ensures r.Ok? ==> r.value.(request := c.request) == c
    ensures r.Ok? ==> r.value.request.(headers := c.request.headers) == c.request
  {
    match FromPairs(pairs)
    case Ok(h) => Ok(c.(request := c.request.(headers := h)))
    case Err(e) => Err(e)
    case Panic => Panic
  }

  // ---- the header map of `send` ----------------------------------------------------

  /** `x-log-bodyrawsize: 0` and `accept: application/json`, each only when the caller
      has not set the name. */
  function Fallbacks(h: HeaderMap): (r: HeaderMap)
    ensures Values(r, "x-log-bodyrawsize") == if ContainsKey(h, "x-log-bodyrawsize") then Values(h, "x-log-bodyrawsize") else ["0"]
    ensures Values(r, "accept") == if ContainsKey(h, "accept") then Values(h, "accept") else ["application/json"]
    ensures forall n :: n != "x-log-bodyrawsize" && n != "accept" ==> Values(r, n) == Values(h, n)
  {
    assert |"x-log-bodyrawsize"| == 17 && |"accept"| == 6;
    var h1 := if ContainsKey(h, "x-log-bodyrawsize") then h else Insert(h, "x-log-bodyrawsize", "0");
    if ContainsKey(h1, "accept") then h1 else Insert(h1, "accept", "application/json")
  }

  /** The fallbacks insert valid names with acceptable values, so a well-formed map stays
      well formed. */
  lemma FallbacksWellFormed(h: HeaderMap)
    requires WellFormed(h)
    ensures WellFormed(Fallbacks(h))
  {
    LogNames();
    CommonNames();
    FixedValues();
    var h1 := if ContainsKey(h, "x-log-bodyrawsize") then h else Insert(h, "x-log-bodyrawsize", "0");
    if !ContainsKey(h, "x-log-bodyrawsize") { InsertWellFormed(h, "x-log-bodyrawsize", "0"); }
    if !ContainsKey(h1, "accept") { InsertWellFormed(h1, "accept", "application/json"); }
  }

  /** `DEFAULT_HEADER`, inserted over whatever is there. Only the agent string can fail
      to parse. */
  function Defaults(h: HeaderMap, agent: string): (r: Result<HeaderMap>)
    ensures r.Ok? <==> IsValue(agent)
    ensures !r.Ok? ==> r == Err(InvalidHeader)
    ensures r.Ok? ==> Values(r.value, "x-log-apiversion") == ["0.6.0"] && Values(r.value, "x-log-signaturemethod") == ["hmac-sha1"]
    ensures r.Ok? ==> Values(r.value, "user-agent") == [agent] && Values(r.value, "x-sdk-client") == [agent]
    ensures r.Ok? ==> forall n :: (n != "x-log-apiversion" && n != "x-log-signaturemethod" && n != "user-agent"
                                   && n != "x-sdk-client") ==> Values(r.value, n) == Values(h, n)
    ensures r.Ok? && WellFormed(h) ==> WellFormed(r.value)
  {
    match ParseValue(agent)
    case Ok(v) =>
      DefaultsWellFormed(h, v);
      var fixed := Insert(Insert(h, "x-log-apiversion", "0.6.0"), "x-log-signaturemethod", "hmac-sha1");
      FirstOfTwo(h, "x-log-apiversion", "0.6.0", "x-log-signaturemethod", "hmac-sha1");
      TwoInsertsKeep(fixed, "user-agent", v, "x-sdk-client", v, "x-log-apiversion");
      TwoInsertsKeep(fixed, "user-agent", v, "x-sdk-client", v, "x-log-signaturemethod");
      FirstOfTwo(fixed, "user-agent", v, "x-sdk-client", v);
      Ok(Insert(Insert(fixed, "user-agent", v), "x-sdk-client", v))
    case Err(e) => Err(e)
    case Panic => Panic
  }

  lemma DefaultsWellFormed(h: HeaderMap, agent: string)
    requires IsValue(agent)
    ensures WellFormed(h) ==>
              var fixed := Insert(Insert(h, "x-log-apiversion", "0.6.0"), "x-log-signaturemethod", "hmac-sha1");
              WellFormed(Insert(Insert(fixed, "user-agent", agent), "x-sdk-client", agent))
  {
    if WellFormed(h) {
      LogNames();
      CommonNames();
      FixedValues();
      var fixed := Insert(Insert(h, "x-log-apiversion", "0.6.0"), "x-log-signaturemethod", "hmac-sha1");
      InsertsWellFormed(h, "x-log-apiversion", "0.6.0", "x-log-signaturemethod", "hmac-sha1");
      InsertsWellFormed(fixed, "user-agent", agent, "x-sdk-client", agent);
    }
  }

  /** The `x-log-` names `send` inserts. */
  lemma LogNames()
    ensures IsName("x-log-bodyrawsize") && IsName("x-log-apiversion") && IsName("x-log-signaturemethod")
  {
    LowerName("x-log-bodyrawsize");
    LowerName("x-log-apiversion");
    LowerName("x-log-signaturemethod");
  }

  lemma LogKept()
    ensures Keeps("x-log-bodyrawsize", LogPrefixes) && Keeps("x-log-apiversion", LogPrefixes)
    ensures Keeps("x-log-signaturemethod", LogPrefixes)
  {
    KeptAt("x-log-bodyrawsize", LogPrefixes, 1);
    KeptAt("x-log-apiversion", LogPrefixes, 1);
    KeptAt("x-log-signaturemethod", LogPrefixes, 1);
  }

  /** The endpoint without its scheme: a leading `http://`, else a leading `https://`,
      is split off as the URL prefix; any other endpoint has an empty prefix. */
  function SplitScheme(endpoint: string): (r: (string, string))
    ensures r.0 + r.1 == endpoint
    ensures r.0 == "http://" || r.0 == "https://" || r.0 == ""
    ensures r.0 == "" <==> !StartsWith(endpoint, "http://") && !StartsWith(endpoint, "https://")
  {
    if StartsWith(endpoint, "http://") then
      assert endpoint == endpoint[..7] + endpoint[7..];
      ("http://", endpoint[7..])
    else if StartsWith(endpoint, "https://") then
      assert endpoint == endpoint[..8] + endpoint[8..];
      ("https://", endpoint[8..])
    else ("", endpoint)
  }

  /** The `host` header: the endpoint without its scheme, behind `<project>.` when a
      project is set. */
  function Host(endpoint: string, project: Option<string>): (r: string)
    ensures project.None? ==> SplitScheme(endpoint).0 + r == endpoint
    ensures project.Some? ==> StartsWith(r, project.value + ".")
                              && SplitScheme(endpoint).0 + r[|project.value| + 1..] == endpoint
  {
    match project
    case None => SplitScheme(endpoint).1
    case Some(name) =>
      var r := name + "." + SplitScheme(endpoint).1;
      assert r[..|name| + 1] == name + "." && r[|name| + 1..] == SplitScheme(endpoint).1;
      r
  }

  /** The map `send` signs: the fallbacks, the defaults, then `host` and `date`, each
      parsed. */
  function SignedHeaders(c: Client, agent: string, date: string): (r: Result<HeaderMap>)
    ensures r.Ok? <==> IsValue(agent) && IsValue(Host(c.endpoint, c.request.project)) && IsValue(date)
    ensures !r.Ok? ==> r == Err(InvalidHeader)
    ensures r.Ok? ==> r.value == Stamp(Defaults(Fallbacks(c.request.headers), agent).value, Host(c.endpoint, c.request.project), date)
    ensures r.Ok? && WellFormed(c.request.headers) ==> WellFormed(r.value)
  {
    assert WellFormed(c.request.headers) ==> WellFormed(Fallbacks(c.request.headers)) by {
      if WellFormed(c.request.headers) { FallbacksWellFormed(c.request.headers); }
    }
    match Defaults(Fallbacks(c.request.headers), agent)
    case Err(e) => Err(e)
    case Panic => Panic
    case Ok(h) =>
      var host := Host(c.endpoint, c.request.project);
      if !IsValue(host) || !IsValue(date) then Err(InvalidHeader)
      else Ok(Stamp(h, host, date))
  }

  /** `host` and `date`, inserted over the defaults. */
  function Stamp(h: HeaderMap, host: string, date: string): (r: HeaderMap)
    ensures Values(r, "host") == [host] && Values(r, "date") == [date]
    ensures forall n :: n != "host" && n != "date" ==> Values(r, n) == Values(h, n)
    ensures WellFormed(h) && IsValue(host) && IsValue(date) ==> WellFormed(r)
  {
    var r := Insert(Insert(h, "host", host), "date", date);
    assert WellFormed(h) && IsValue(host) && IsValue(date) ==> WellFormed(r) by {
      if WellFormed(h) && IsValue(host) && IsValue(date) {
        CommonNames();
        InsertsWellFormed(h, "host", host, "date", date);
      }
    }
    r
  }

  // ---- signature -------------------------------------------------------------------

  /** The fields of the string-to-sign: the upper-cased method, `content-md5` or `""`,
      `content-type` or `""`, `date`, the canonicalized `x-acs-`/`x-log-` headers and the
      canonicalized resource. There is no `accept` line. A lookup or header value that
      fails is a panic. */
  function Fields(h: HeaderMap, verb: string, uri: string, query: seq<Pair>): (r: Result<seq<string>>)
    ensures !r.Err?
    ensures r.Ok? <==> Optional(h, "content-md5").Ok? && Optional(h, "content-type").Ok?
                       && Required(h, "date").Ok? && CanonicalHeaders(h, LogPrefixes).Ok?
    ensures r.Ok? ==> r.value == [AsciiUpper(verb),
                                  if Headers.Get(h, "content-md5").None? then "" else Headers.Get(h, "content-md5").value,
                                  if Headers.Get(h, "content-type").None? then "" else Headers.Get(h, "content-type").value,
                                  Headers.Get(h, "date").value, CanonicalHeaders(h, LogPrefixes).value,
                                  CanonicalResource(uri, query)]
  {
    var md5 := Optional(h, "content-md5");
    var contentType := Optional(h, "content-type");
    var date := Required(h, "date");
    var headers := CanonicalHeaders(h, LogPrefixes);
    if md5.Ok? && contentType.Ok? && date.Ok? && headers.Ok? then
      Ok([AsciiUpper(verb), md5.value, contentType.value, date.value, headers.value, CanonicalResource(uri, query)])
    else Panic
  }

  /** `format!("{}\n{}\n{}\n{}\n{}\n{}", ...)` */
  function StringToSign(h: HeaderMap, verb: string, uri: string, query: seq<Pair>): (r: Result<string>)
    ensures !r.Err?
    ensures r.Ok? <==> Fields(h, verb, uri, query).Ok?
    ensures r.Ok? ==> r.value == Join(Fields(h, verb, uri, query).value, "\n")
  {
    match Fields(h, verb, uri, query)
    case Ok(f) => Ok(Join(f, "\n"))
    case Err(e) => Err(e)
    case Panic => Panic
  }

  /** A server splitting the string-to-sign at newlines finds the four leading fields,
      then the canonicalized header lines, then the resource. */
  lemma StringToSignSplits(h: HeaderMap, verb: string, uri: string, query: seq<Pair>)
    requires IsToken(verb)
    requires StringToSign(h, verb, uri, query).Ok?
    ensures var f := Fields(h, verb, uri, query).value;
            Split(StringToSign(h, verb, uri, query).value, '\n')
            == f[..4] + Split(CanonicalHeaders(h, LogPrefixes).value, '\n') + Split(CanonicalResource(uri, query), '\n')
  {
    var f := Fields(h, verb, uri, query).value;
    TokenHasNoNewline(verb);
    VisibleIsValue(Optional(h, "content-md5").value);
    VisibleIsValue(Optional(h, "content-type").value);
    VisibleIsValue(Required(h, "date").value);
    FirstFour(f);
    SplitFields(f, 4);
  }

  /** Spreads the four per-field facts into the quantified form `SplitFields` needs, apart
      from the lemma above, where the same step is costly. */
  lemma FirstFour(f: seq<string>)
    requires |f| == 6
    requires '\n' !in f[0] && '\n' !in f[1] && '\n' !in f[2] && '\n' !in f[3]
    ensures forall i :: 0 <= i < 4 ==> '\n' !in f[i]
  {
  }

  /** `signature()`: base64 of HMAC-SHA1 over the string-to-sign, keyed by the bare
      secret. Creating the MAC cannot fail (HMAC takes keys of any length), so only the
      lookups can, by panicking. */
  function Signature(p: Primitives, secret: string, h: HeaderMap, verb: string, uri: string, query: seq<Pair>): (r: Result<string>)
    requires Valid(p)
    ensures !r.Err?
    ensures r.Ok? <==> StringToSign(h, verb, uri, query).Ok?
    ensures r.Ok? ==> Base64Decode(r.value)
                      == Some(p.hmacSha1(Utf8.Encode(secret), Utf8.Encode(StringToSign(h, verb, uri, query).value)))
    ensures r.Ok? ==> |r.value| == 28 && ':' !in r.value && IsVisible(r.value)
  {
    match StringToSign(h, verb, uri, query)
    case Ok(body) => Ok(Sign(p, secret, body))
    case Err(e) => Err(e)
    case Panic => Panic
  }

  // ---- send ------------------------------------------------------------------------

  /** Everything `send` does before the exchange: the signed map, the signature,
      `Authorization: SLS <id>:<signature>`, the method, and the URL
      `prefix + host + uri`; the query and the body travel separately. */
  function Prepare(c: Client, p: Primitives, agent: string, date: string): (r: Result<Outgoing>)
    requires Valid(p)
    ensures SignedHeaders(c, agent, date).Err? ==> r == Err(SignedHeaders(c, agent, date).error)
    ensures r.Panic? <==> SignedHeaders(c, agent, date).Ok?
                          && !Signature(p, c.accessKeySecret, SignedHeaders(c, agent, date).value,
                                        c.request.verb, c.request.uri, c.request.query).Ok?
    ensures r.Ok? <==> SignedHeaders(c, agent, date).Ok?
                       && Signature(p, c.accessKeySecret, SignedHeaders(c, agent, date).value,
                                    c.request.verb, c.request.uri, c.request.query).Ok?
                       && IsValue(c.accessKeyId) && IsToken(c.request.verb)
    ensures r.Ok? ==> r.value.verb == c.request.verb
                      && r.value.url == SplitScheme(c.endpoint).0 + Host(c.endpoint, c.request.project) + c.request.uri
                      && r.value.query == c.request.query && r.value.body == c.request.body
    ensures r.Ok? ==>
      var h := SignedHeaders(c, agent, date).value;
      var sig := Signature(p, c.accessKeySecret, h, c.request.verb, c.request.uri, c.request.query).value;
      Values(r.value.headers, "authorization") == [Authorization.Header("SLS", c.accessKeyId, sig)]
      && forall n :: n != "authorization" ==> Values(r.value.headers, n) == Values(h, n)
  {
    match SignedHeaders(c, agent, date)
    case Err(e) => Err(e)
    case Panic => Panic
    case Ok(h) =>
      match Signature(p, c.accessKeySecret, h, c.request.verb, c.request.uri, c.request.query)
      case Err(e) => Err(e)
      case Panic => Panic
      case Ok(sig) => Authorize(c, h, sig)
  }

  /** The `Authorization` header, then the method. */
  function Authorize(c: Client, h: HeaderMap, sig: string): (r: Result<Outgoing>)
    requires IsVisible(sig)
    ensures !r.Panic?
    ensures r.Ok? <==> IsValue(c.accessKeyId) && IsToken(c.request.verb)
    ensures !IsValue(c.accessKeyId) ==> r == Err(InvalidHeader)
    ensures IsValue(c.accessKeyId) && !IsToken(c.request.verb) ==> r == Err(InvalidRequest(BadMethod))
    ensures r.Ok? ==> r.value.verb == c.request.verb
                      && r.value.url == SplitScheme(c.endpoint).0 + Host(c.endpoint, c.request.project) + c.request.uri
                      && r.value.query == c.request.query && r.value.body == c.request.body
    ensures r.Ok? ==> Values(r.value.headers, "authorization") == [Authorization.Header("SLS", c.accessKeyId, sig)]
    ensures r.Ok? ==> forall n :: n != "authorization" ==> Values(r.value.headers, n) == Values(h, n)
  {
    Authorization.SchemesVisible();
    match Authorization.Attach(h, "SLS", c.accessKeyId, sig)
    case Err(e) => Err(e)
    case Panic => Panic
    case Ok(signed) =>
      if !IsToken(c.request.verb) then Err(InvalidRequest(BadMethod))
      else
        var url := SplitScheme(c.endpoint).0 + Host(c.endpoint, c.request.project) + c.request.uri;
        Ok(Outgoing(c.request.verb, url, signed, c.request.query, c.request.body))
  }

  /** `send`: a failure before the exchange is returned as it is; a success status is
      returned; otherwise the error code and message of the body become
      `InvalidResponse` with an empty request id, and an undecodable body is a transport
      error. */
  function Send(c: Client, p: Primitives, agent: string, date: string, transport: Transport): (r: Result<Reply>)
    requires Valid(p)
    ensures Prepare(c, p, agent, date).Err? ==> r == Err(Prepare(c, p, agent, date).error)
    ensures Prepare(c, p, agent, date).Panic? ==> r.Panic?
    ensures Prepare(c, p, agent, date).Ok? ==>
              var reply := transport(Prepare(c, p, agent, date).value);
              (r.Ok? <==> reply.Reply? && IsSuccess(reply.status))
              && (r.Ok? ==> r.value == reply)
              && (r.Err? && r.error.InvalidResponse? <==> reply.Reply? && !IsSuccess(reply.status) && reply.envelope.Some?)
              && (r.Err? && r.error.InvalidResponse? ==>
                    r.error == InvalidResponse("", reply.envelope.value.code, reply.envelope.value.message))
              && (!r.Ok? && !(r.Err? && r.error.InvalidResponse?) ==> r == Err(Transport))
  {
    match Prepare(c, p, agent, date)
    case Err(e) => Err(e)
    case Panic => Panic
    case Ok(o) =>
      match Classify(transport(o))
      case Err(InvalidResponse(_, code, message)) => Err(InvalidResponse("", code, message))
      case other => other
  }

  // ---- properties of the prepared request ------------------------------------------

  /** The names `send` sets. */
  predicate IsSetBySend(n: string) {
    n == "x-log-bodyrawsize" || n == "accept" || n == "x-log-apiversion" || n == "x-log-signaturemethod"
    || n == "user-agent" || n == "x-sdk-client" || n == "host" || n == "date"
  }

  /** The signed map keeps the caller's `x-log-bodyrawsize` and `accept` when they are
      set, and holds `0` and `application/json` otherwise. */
  lemma SignedKeepsCallerFallbacks(c: Client, agent: string, date: string)
    requires SignedHeaders(c, agent, date).Ok?
    ensures var h := SignedHeaders(c, agent, date).value;
            var caller := c.request.headers;
            Values(h, "x-log-bodyrawsize")
              == (if ContainsKey(caller, "x-log-bodyrawsize") then Values(caller, "x-log-bodyrawsize") else ["0"])
            && Values(h, "accept") == (if ContainsKey(caller, "accept") then Values(caller, "accept") else ["application/json"])
  {
    var f := Fallbacks(c.request.headers);
    var d := Defaults(f, agent).value;
    var host := Host(c.endpoint, c.request.project);
    assert SignedHeaders(c, agent, date).value == Stamp(d, host, date);
    StampKeeps(d, host, date, "x-log-bodyrawsize");
    StampKeeps(d, host, date, "accept");
    DefaultsKeep(f, agent, "x-log-bodyrawsize");
    DefaultsKeep(f, agent, "accept");
  }

  /** The fixed API version and signature method, the agent, the host and the date. */
  lemma SignedSetsDefaults(c: Client, agent: string, date: string)
    requires SignedHeaders(c, agent, date).Ok?
    ensures var h := SignedHeaders(c, agent, date).value;
            Values(h, "x-log-apiversion") == ["0.6.0"] && Values(h, "x-log-signaturemethod") == ["hmac-sha1"]
            && Values(h, "user-agent") == [agent] && Values(h, "x-sdk-client") == [agent]
            && Values(h, "host") == [Host(c.endpoint, c.request.project)] && Values(h, "date") == [date]
  {
    var d := Defaults(Fallbacks(c.request.headers), agent).value;
    var host := Host(c.endpoint, c.request.project);
    assert SignedHeaders(c, agent, date).value == Stamp(d, host, date);
    StampKeeps(d, host, date, "x-log-apiversion");
    StampKeeps(d, host, date, "x-log-signaturemethod");
    StampKeeps(d, host, date, "user-agent");
    StampKeeps(d, host, date, "x-sdk-client");
  }

  lemma DefaultsKeep(h: HeaderMap, agent: string, n: string)
    requires IsValue(agent)
    requires n != "x-log-apiversion" && n != "x-log-signaturemethod" && n != "user-agent" && n != "x-sdk-client"
    ensures Values(Defaults(h, agent).value, n) == Values(h, n)
  {
  }

  lemma StampKeeps(d: HeaderMap, host: string, date: string, n: string)
    requires n != "host" && n != "date"
    ensures Values(Stamp(d, host, date), n) == Values(d, n)
  {
  }

  /** Every other name keeps the caller's values. */
  lemma SignedKeepsOthers(c: Client, agent: string, date: string, n: string)
    requires SignedHeaders(c, agent, date).Ok?
    requires !IsSetBySend(n)
    ensures Values(SignedHeaders(c, agent, date).value, n) == Values(c.request.headers, n)
  {
  }

  /** Without a project the request goes to `endpoint + uri`, as the other dialects'. */
  lemma UrlWithoutProject(c: Client, p: Primitives, agent: string, date: string)
    requires Valid(p)
    requires c.request.project.None?
    requires Prepare(c, p, agent, date).Ok?
    ensures Prepare(c, p, agent, date).value.url == c.endpoint + c.request.uri
  {
    assert SplitScheme(c.endpoint).0 + Host(c.endpoint, None) == c.endpoint;
  }

  /** With a project the host gains the project as its first label and the scheme stays
      in front: `http://h` becomes `http://<project>.h`. */
  lemma UrlWithProject(c: Client, p: Primitives, agent: string, date: string)
    requires Valid(p)
    requires c.request.project.Some?
    requires Prepare(c, p, agent, date).Ok?
    ensures var url := Prepare(c, p, agent, date).value.url;
            var parts := SplitScheme(c.endpoint);
            parts.0 + parts.1 == c.endpoint
            && url == parts.0 + c.request.project.value + "." + parts.1 + c.request.uri
  {
    var parts := SplitScheme(c.endpoint);
    var host := Host(c.endpoint, c.request.project);
    assert host == c.request.project.value + "." + parts.1;
    Regroup(parts.0, c.request.project.value, ".", parts.1, c.request.uri);
  }

  /** Re-brackets the URL so the host's parts line up with the endpoint's; proved apart
      from the lemma above, whose context makes the same step too costly. */
  lemma Regroup(a: string, b: string, c: string, d: string, e: string)
    ensures a + (b + c + d) + e == a + b + c + d + e
  {
  }

  /** A server reading the `Authorization` header recovers the key id and a signature
      that decodes to the HMAC-SHA1 tag of the string-to-sign, keyed by the bare secret. */
  lemma AuthorizationReadsBack(c: Client, p: Primitives, agent: string, date: string)
    requires Valid(p)
    requires Prepare(c, p, agent, date).Ok?
    ensures var o := Prepare(c, p, agent, date).value;
            var sts := StringToSign(SignedHeaders(c, agent, date).value, c.request.verb, c.request.uri, c.request.query);
            Headers.Get(o.headers, "authorization").Some?
            && match Authorization.Parse("SLS", Headers.Get(o.headers, "authorization").value)
               case None => false
               case Some(read) =>
                 read.0 == c.accessKeyId && sts.Ok?
                 && Base64Decode(read.1) == Some(p.hmacSha1(Utf8.Encode(c.accessKeySecret), Utf8.Encode(sts.value)))
  {
    var h := SignedHeaders(c, agent, date).value;
    var sig := Signature(p, c.accessKeySecret, h, c.request.verb, c.request.uri, c.request.query).value;
    Authorization.ParseHeader("SLS", c.accessKeyId, sig);
  }

  /** The `x-acs-`/`x-log-` pairs the signed map contributes for `k`: the caller's
      `x-log-bodyrawsize` or the fallback `0`, the fixed API version and signature method,
      and otherwise the caller's own values. No other name `send` sets is kept. */
  function SignedRun(caller: HeaderMap, k: string): seq<Pair> {
    if k == "x-log-bodyrawsize" then Tagged(k, if ContainsKey(caller, k) then Values(caller, k) else ["0"])
    else if k == "x-log-apiversion" then Tagged(k, ["0.6.0"])
    else if k == "x-log-signaturemethod" then Tagged(k, ["hmac-sha1"])
    else KeptRun(caller, LogPrefixes, k)
  }

  lemma SignedRuns(c: Client, agent: string, date: string, k: string)
    requires SignedHeaders(c, agent, date).Ok?
    ensures KeptRun(SignedHeaders(c, agent, date).value, LogPrefixes, k) == SignedRun(c.request.headers, k)
  {
    if k == "x-log-bodyrawsize" {
      SignedKeepsCallerFallbacks(c, agent, date);
      LogKept();
    } else if k == "x-log-apiversion" || k == "x-log-signaturemethod" {
      SignedSetsDefaults(c, agent, date);
      LogKept();
    } else if IsSetBySend(k) {
      SendNamesNotKept(k);
    } else {
      SignedKeepsOthers(c, agent, date, k);
    }
  }

  /** The names `send` sets other than the three `x-log-` ones do not reach the canonical
      headers. */
  lemma SendNamesNotKept(k: string)
    requires IsSetBySend(k) && k != "x-log-bodyrawsize" && k != "x-log-apiversion" && k != "x-log-signaturemethod"
    ensures !Keeps(k, LogPrefixes)
  {
    if k == "accept" { NotKept("accept", LogPrefixes); }
    else if k == "user-agent" { NotKept("user-agent", LogPrefixes); }
    else if k == "x-sdk-client" { NotKept("x-sdk-client", LogPrefixes); }
    else if k == "host" { NotKept("host", LogPrefixes); }
    else { NotKept("date", LogPrefixes); }
  }

  /** The canonical headers of the map `send` signs are the `name:value` lines of any
      key-sorted list holding, for each name, the pairs `SignedRun` gives it: the caller's
      `x-acs-`/`x-log-` headers together with the body size, API version and signature
      method. */
  lemma SignedCanonicalHeaders(c: Client, p: Primitives, agent: string, date: string, s: seq<Pair>)
    requires Valid(p)
    requires WellFormed(c.request.headers)
    requires Prepare(c, p, agent, date).Ok?
    requires SortedByKey(s)
    requires forall k :: KeyRun(s, k) == SignedRun(c.request.headers, k)
    ensures CanonicalHeaders(SignedHeaders(c, agent, date).value, LogPrefixes) == Ok(Join(Lines(s), "\n"))
  {
    var h := SignedHeaders(c, agent, date).value;
    forall k ensures KeyRun(s, k) == KeptRun(h, LogPrefixes, k) {
      SignedRuns(c, agent, date, k);
    }
    assert Fields(h, c.request.verb, c.request.uri, c.request.query).Ok?;
    CanonicalHeadersSpec(h, LogPrefixes, s);
  }

  /** The lines of the string `send` signs: the upper-cased method, the caller's
      `content-md5` and `content-type` (or empty lines), the date, the lines of `s` (the
      kept headers of `SignedRun`, sorted by name), and the resource. */
  lemma SignedLines(c: Client, p: Primitives, agent: string, date: string, s: seq<Pair>)
    requires Valid(p)
    requires WellFormed(c.request.headers)
    requires Prepare(c, p, agent, date).Ok?
    requires SortedByKey(s)
    requires forall k :: KeyRun(s, k) == SignedRun(c.request.headers, k)
    ensures var h := SignedHeaders(c, agent, date).value;
            var sts := StringToSign(h, c.request.verb, c.request.uri, c.request.query);
            var md5 := Headers.Get(c.request.headers, "content-md5");
            var contentType := Headers.Get(c.request.headers, "content-type");
            sts.Ok?
            && Split(sts.value, '\n')
               == [AsciiUpper(c.request.verb), if md5.None? then "" else md5.value,
                   if contentType.None? then "" else contentType.value, date]
                  + Split(Join(Lines(s), "\n"), '\n')
                  + Split(CanonicalResource(c.request.uri, c.request.query), '\n')
  {
    var h := SignedHeaders(c, agent, date).value;
    SignedSetsDefaults(c, agent, date);
    KeepsContentHeader(c, agent, date, "content-md5");
    KeepsContentHeader(c, agent, date, "content-type");
    StringToSignSplits(h, c.request.verb, c.request.uri, c.request.query);
    LeadingFields(h, c.request.verb, c.request.uri, c.request.query, c.request.headers, date);
    SignedCanonicalHeaders(c, p, agent, date, s);
  }

  /** The four leading fields, read from a map that agrees with the caller's on the
      content headers and holds `date`. */
  lemma LeadingFields(h: HeaderMap, verb: string, uri: string, query: seq<Pair>, caller: HeaderMap, date: string)
    requires Fields(h, verb, uri, query).Ok?
    requires Headers.Get(h, "content-md5") == Headers.Get(caller, "content-md5")
    requires Headers.Get(h, "content-type") == Headers.Get(caller, "content-type")
    requires Values(h, "date") == [date]
    ensures var md5 := Headers.Get(caller, "content-md5");
            var contentType := Headers.Get(caller, "content-type");
            Fields(h, verb, uri, query).value[..4]
            == [AsciiUpper(verb), if md5.None? then "" else md5.value, if contentType.None? then "" else contentType.value, date]
  {
    var md5, contentType := Headers.Get(h, "content-md5"), Headers.Get(h, "content-type");
    TakeFour(AsciiUpper(verb), if md5.None? then "" else md5.value, if contentType.None? then "" else contentType.value,
             Headers.Get(h, "date").value, CanonicalHeaders(h, LogPrefixes).value, CanonicalResource(uri, query));
  }

  /** A `content-*` header of the caller reaches the signer as it was. */
  lemma KeepsContentHeader(c: Client, agent: string, date: string, n: string)
    requires SignedHeaders(c, agent, date).Ok?
    requires |n| > 0 && n[0] == 'c'
    ensures Headers.Get(SignedHeaders(c, agent, date).value, n) == Headers.Get(c.request.headers, n)
  {
    SignedKeepsOthers(c, agent, date, n);
  }
}

=== FILE: outcomes.dfy ===
/** Outcomes of the client's operations: the crate's `Error` enum, a `Result` that can
    also record a Rust panic, and `Option`. */
module Outcomes {

  datatype Option<+T> = None | Some(value: T)

  /** Why a request could not be built (the text of `Error::InvalidRequest`). */
  datatype Fault =
    | BadHeader     // "Cannot parse header": a caller header map that `HeaderMap` rejects
    | BadEndpoint   // "Invalid endpoint": the endpoint does not parse as a URL with a host
    | BadMethod     // "Invalid HTTP method": the method string is not an HTTP token

  /** The error enum of `src/client/error.rs`; the legacy modules reuse it for the
      corresponding `anyhow` errors. */
  datatype Error =
    | Transport                // `Reqwest`: connection, timeout or body-decoding failure
    | InvalidHeader            // `InvalidHeader`: a header value that `HeaderValue` rejects
    | InvalidRequest(fault: Fault)
    | InvalidResponse(requestId: string, errorCode: string, errorMessage: string)

  /** `Panic` stands for a Rust panic (an `unwrap()` or an index into a missing header):
      the thread aborts instead of returning an `Error`. */
  datatype Result<+T> = Ok(value: T) | Err(error: Error) | Panic
}

=== FILE: payload.dfy ===
/** The two headers a `body()` call derives from the body: its length and its MD5
    digest, as base64 for the ROA dialect and as upper-case hex for the log service.
    Each is a value every header map accepts, and each reads back as what it encodes. */
module Payload {
  import opened Strings
  import opened Utf8
  import opened Codecs
  import opened Crypto
  import opened Headers
  import opened Outcomes

  /** `body.len().to_string()`: the length in UTF-8 bytes, in decimal. */
  function ContentLength(body: string): (r: string)
    ensures IsVisible(r) && IsValue(r)
    ensures IsDigits(r) && ParseDecimal(r) == |Utf8.Encode(body)|
  {
    var r := Decimal(|Utf8.Encode(body)|);
    DecimalRoundTrip(|Utf8.Encode(body)|);
    VisibleIsValue(r);
    r
  }

  /** `base64::encode(md5)`: 24 characters that decode to the digest. */
  function Base64Md5(p: Primitives, body: string): (r: string)
    requires Valid(p)
    ensures |r| == 24 && IsVisible(r) && IsValue(r)
    ensures Base64Decode(r) == Some(Digest(p, body))
  {
    var d := Digest(p, body);
    var r := Base64Encode(d);
    assert |r| == 4 * 6;
    Base64RoundTrip(d);
    VisibleIsValue(r);
    r
  }

  /** `base16ct::upper::encode_string(md5)`: 32 upper-case hex digits that decode to the
      digest. */
  function HexMd5(p: Primitives, body: string): (r: string)
    requires Valid(p)
    ensures |r| == 32 && IsVisible(r) && IsValue(r)
    ensures forall i :: 0 <= i < |r| ==> IsHexDigit(r[i])
    ensures HexDecode(r) == Some(Digest(p, body))
  {
    var d := Digest(p, body);
    var r := HexUpper(d);
    HexRoundTrip(d);
    VisibleIsValue(r);
    r
  }

  /** `body()` inserts two acceptable values under two valid names, so a well-formed map
      stays well formed. */
  lemma ContentWellFormed(h: HeaderMap, length: string, md5: string)
    requires WellFormed(h) && IsValue(length) && IsValue(md5)
    ensures WellFormed(Insert(Insert(h, "content-length", length), "content-md5", md5))
  {
    CommonNames();
    InsertsWellFormed(h, "content-length", length, "content-md5", md5);
  }
}

=== FILE: roa_client.dfy ===
/** The async ROA client of `src/client/roa.rs`: the builder setters, the header map that
    `send` assembles and signs, and the request it hands to the HTTP client. */
module RoaClient {
  import opened Outcomes
  import opened Strings
  import opened Sorting
  import opened Headers
  import opened Canonical
  import opened Crypto
  import opened Codecs
  import opened Utf8
  import opened Payload
  import opened RoaSigning
  import opened Wire
  import Authorization

  datatype Request = Request(verb: string, uri: string, body: Option<string>, query: seq<Pair>, headers: HeaderMap,
                             project: Option<string>, version: string)

  datatype Client = Client(accessKeyId: string, accessKeySecret: string, endpoint: string, request: Request)

  /** `ROAClient::new`: the credentials and endpoint, and the `Default` request. */
  function New(accessKeyId: string, accessKeySecret: string, endpoint: string): (r: Client)
    ensures r.accessKeyId == accessKeyId && r.accessKeySecret == accessKeySecret && r.endpoint == endpoint
    ensures r.request.verb == "" && r.request.uri == "" && r.request.body == None && r.request.project == None
    ensures |r.request.query| == 0 && |r.request.headers| == 0 && r.request.version == ""
    ensures WellFormed(r.request.headers)
  {
    Client(accessKeyId, accessKeySecret, endpoint, Request("", "", None, [], Empty, None, ""))
  }

  /** `request(method, uri)`: sets the method and the uri, nothing else. */
  function WithRequest(c: Client, verb: string, uri: string): (r: Client)
    ensures r.request.verb == verb && r.request.uri == uri
    ensures r.(request := c.request) == c
    ensures r.request.(verb := c.request.verb, uri := c.request.uri) == c.request
  {
    c.(request := c.request.(verb := verb, uri := uri))
  }

  /** `get(uri)` */
  function Get(c: Client, uri: string): (r: Client)
    ensures r.request.verb == "GET" && r.request.uri == uri
    ensures r.(request := c.request) == c
    ensures r.request.(verb := c.request.verb, uri := c.request.uri) == c.request
  {
    WithRequest(c, "GET", uri)
  }

  /** `post(uri)` */
  function Post(c: Client, uri: string): (r: Client)
    ensures r.request.verb == "POST" && r.request.uri == uri
    ensures r.(request := c.request) == c
    ensures r.request.(verb := c.request.verb, uri := c.request.uri) == c.request
  {
    WithRequest(c, "POST", uri)
  }

  /** `query(queries)`: the new pairs replace the whole list. */
  function Query(c: Client, queries: seq<Pair>): (r: Client)
    ensures r.request.query == queries
    ensures r.(request := c.request) == c
    ensures r.request.(query := c.request.query) == c.request
  {
    c.(request := c.request.(query := queries))
  }

  /** `version(version)`: stored, and never read again. */
  function Version(c: Client, version: string): (r: Client)
    ensures r.request.version == version
    ensures r.(request := c.request) == c
    ensures r.request.(version := c.request.version) == c.request
  {
    c.(request := c.request.(version := version))
  }

  /** `project(project)`: stored, and never read again. */
  function Project(c: Client, project: string): (r: Client)
    ensures r.request.project == Some(project)
    ensures r.(request := c.request) == c
    ensures r.request.(project := c.request.project) == c.request
  {
    c.(request := c.request.(project := Some(project)))
  }

  /** `body(body)`: stores the body and sets `content-length` to its UTF-8 length and
      `content-md5` to the base64 MD5 digest. Both values are digits or base64, so the
      two `parse()?` calls cannot fail. */
  function Body(c: Client, p: Primitives, body: string): (r: Result<Client>)
    requires Valid(p)
    ensures r.Ok?
    ensures r.value.request.body == Some(body)
    ensures Values(r.value.request.headers, "content-length") == [ContentLength(body)]
    ensures Values(r.value.request.headers, "content-md5") == [Base64Md5(p, body)]
    ensures forall n :: n != "content-length" && n != "content-md5" ==>
              Values(r.value.request.headers, n) == Values(c.request.headers, n)
    ensures WellFormed(c.request.headers) ==> WellFormed(r.value.request.headers)
    ensures r.value.(request := c.request) == c
    ensures r.value.request.(headers := c.request.headers, body := c.request.body) == c.request
  {
    var h := Insert(Insert(c.request.headers, "content-length", ContentLength(body)), "content-md5", Base64Md5(p, body));
    InsertBoth(c.request.headers, "content-length", ContentLength(body), "content-md5", Base64Md5(p, body));
    assert WellFormed(c.request.headers) ==> WellFormed(h) by {
      if WellFormed(c.request.headers) { ContentWellFormed(c.request.headers, ContentLength(body), Base64Md5(p, body)); }
    }
    Ok(c.(request := c.request.(headers := h, body := Some(body))))
  }

  /** `header(headers)`: the caller's hash map, in its iteration order, converted into a
      header map that replaces the previous one, `content-length` and `content-md5`
      included; any unparsable pair fails the call. */
  function Header(c: Client, pairs: seq<Pair>): (r: Result<Client>)
    ensures r.Ok? <==> forall i :: 0 <= i < |pairs| ==> ValidPair(pairs[i])
    ensures !r.Ok? ==> r == Err(InvalidRequest(BadHeader))
    ensures r.Ok? ==> WellFormed(r.value.request.headers)
    ensures r.Ok? ==> forall n :: Values(r.value.request.headers, n) == ValuesFor(pairs, n)
    ensures r.Ok? ==> r.value.(request := c.request) == c
    ensures r.Ok? ==> r.value.request.(headers := c.request.headers) == c.request
  {
    match FromPairs(pairs)
    case Ok(h) => Ok(c.(request := c.request.(headers := h)))
    case Err(e) => Err(e)
    case Panic => Panic
  }

  /** The names `send` sets before signing. */
  predicate IsSendName(n: string) {
    n == "accept" || n == "x-acs-signature-method" || n == "user-agent" || n == "x-sdk-client"
    || n == "host" || n == "date" || n == "x-acs-signature-nonce"
  }

  /** None of them starts with `c`, so `send` keeps the caller's `content-*` headers. */
  lemma ContentIsNotSendName(n: string)
    requires |n| > 0 && n[0] == 'c'
    ensures !IsSendName(n)
  {
  }

  /** `DEFAULT_HEADER`, inserted over the caller's values. Only the agent string can fail
      to parse; `application/json` and `HMAC-SHA1` always do. */
  function Defaults(h: HeaderMap, agent: string): (r: Result<HeaderMap>)
    ensures r.Ok? <==> IsValue(agent)
    ensures !r.Ok? ==> r == Err(InvalidHeader)
    ensures r.Ok? ==> Values(r.value, "accept") == ["application/json"]
                      && Values(r.value, "x-acs-signature-method") == ["HMAC-SHA1"]
                      && Values(r.value, "user-agent") == [agent] && Values(r.value, "x-sdk-client") == [agent]
    ensures r.Ok? ==> forall n :: n != "accept" && n != "x-acs-signature-method" && n != "user-agent" && n != "x-sdk-client"
                                  ==> Values(r.value, n) == Values(h, n)
    ensures r.Ok? && WellFormed(h) ==> WellFormed(r.value)
  {
    match ParseValue(agent)
    case Ok(v) =>
      var fixed := Insert(Insert(h, "accept", "application/json"), "x-acs-signature-method", "HMAC-SHA1");
      DefaultsWellFormed(h, v);
      FirstOfTwo(h, "accept", "application/json", "x-acs-signature-method", "HMAC-SHA1");
      TwoInsertsKeep(fixed, "user-agent", v, "x-sdk-client", v, "accept");
      TwoInsertsKeep(fixed, "user-agent", v, "x-sdk-client", v, "x-acs-signature-method");
      FirstOfTwo(fixed, "user-agent", v, "x-sdk-client", v);
      Ok(Insert(Insert(fixed, "user-agent", v), "x-sdk-client", v))
    case Err(e) => Err(e)
    case Panic => Panic
  }

  lemma DefaultsWellFormed(h: HeaderMap, agent: string)
    requires IsValue(agent)
    ensures WellFormed(h) ==>
              var fixed := Insert(Insert(h, "accept", "application/json"), "x-acs-signature-method", "HMAC-SHA1");
              WellFormed(Insert(Insert(fixed, "user-agent", agent), "x-sdk-client", agent))
  {
    if WellFormed(h) {
      CommonNames();
      AcsNames();
      FixedValues();
      var fixed := Insert(Insert(h, "accept", "application/json"), "x-acs-signature-method", "HMAC-SHA1");
      InsertsWellFormed(h, "accept", "application/json", "x-acs-signature-method", "HMAC-SHA1");
      InsertsWellFormed(fixed, "user-agent", agent, "x-sdk-client", agent);
    }
  }

  /** The header map `send` signs: the defaults, then `host` (the endpoint's host, `None`
      when the endpoint has none), `date` and `x-acs-signature-nonce`, each parsed. */
  function SignedHeaders(c: Client, agent: string, host: Option<string>, date: string, nonce: string): (r: Result<HeaderMap>)
    ensures r.Ok? <==> IsValue(agent) && host.Some? && IsValue(host.value) && IsValue(date) && IsValue(nonce)
    ensures !IsValue(agent) ==> r == Err(InvalidHeader)
    ensures IsValue(agent) && host.None? ==> r == Err(InvalidRequest(BadEndpoint))
    ensures IsValue(agent) && host.Some? && !r.Ok? ==> r == Err(InvalidHeader)
    ensures r.Ok? ==> r.value == Stamp(Defaults(c.request.headers, agent).value, host.value, date, nonce)
    ensures r.Ok? ==> forall n :: !IsSendName(n) ==> Values(r.value, n) == Values(c.request.headers, n)
    ensures r.Ok? && WellFormed(c.request.headers) ==> WellFormed(r.value)
  {
    match Defaults(c.request.headers, agent)
    case Err(e) => Err(e)
    case Panic => Panic
    case Ok(h0) =>
      match host
      case None => Err(InvalidRequest(BadEndpoint))
      case Some(hostName) =>
        if !IsValue(hostName) || !IsValue(date) || !IsValue(nonce) then Err(InvalidHeader)
        else Ok(Stamp(h0, hostName, date, nonce))
  }

  /** What the signed map holds under each name `send` sets. */
  lemma SignedHeadersValues(c: Client, agent: string, host: Option<string>, date: string, nonce: string)
    requires SignedHeaders(c, agent, host, date, nonce).Ok?
    ensures var h := SignedHeaders(c, agent, host, date, nonce).value;
            Values(h, "accept") == ["application/json"] && Values(h, "x-acs-signature-method") == ["HMAC-SHA1"]
            && Values(h, "user-agent") == [agent] && Values(h, "x-sdk-client") == [agent]
            && Values(h, "host") == [host.value] && Values(h, "date") == [date]
            && Values(h, "x-acs-signature-nonce") == [nonce]
  {
    var d := Defaults(c.request.headers, agent).value;
    StampKeeps(d, host.value, date, nonce, "accept");
    StampKeeps(d, host.value, date, nonce, "x-acs-signature-method");
    StampKeeps(d, host.value, date, nonce, "user-agent");
    StampKeeps(d, host.value, date, nonce, "x-sdk-client");
  }

  /** A name other than the three stamped ones keeps its values through `Stamp`. */
  lemma StampKeeps(d: HeaderMap, host: string, date: string, nonce: string, n: string)
    requires n != "host" && n != "date" && n != "x-acs-signature-nonce"
    ensures Values(Stamp(d, host, date, nonce), n) == Values(d, n)
  {
  }

  /** The per-request headers, inserted over the defaults. */
  function Stamp(h: HeaderMap, host: string, date: string, nonce: string): (r: HeaderMap)
    ensures Values(r, "host") == [host] && Values(r, "date") == [date]
            && Values(r, "x-acs-signature-nonce") == [nonce]
    ensures forall n :: n != "host" && n != "date" && n != "x-acs-signature-nonce" ==> Values(r, n) == Values(h, n)
    ensures WellFormed(h) && IsValue(host) && IsValue(date) && IsValue(nonce) ==> WellFormed(r)
  {
    var r := Insert(Insert(Insert(h, "host", host), "date", date), "x-acs-signature-nonce", nonce);
    assert WellFormed(h) && IsValue(host) && IsValue(date) && IsValue(nonce) ==> WellFormed(r) by {
      if WellFormed(h) && IsValue(host) && IsValue(date) && IsValue(nonce) {
        CommonNames();
        AcsNames();
        InsertsWellFormed(h, "host", host, "date", date);
        InsertWellFormed(Insert(Insert(h, "host", host), "date", date), "x-acs-signature-nonce", nonce);
      }
    }
    r
  }

  /** Everything `send` does before the exchange: the signed header map, the signature,
      `Authorization: acs <id>:<signature>`, the method, and the URL `endpoint + uri`; the
      query and the body travel separately. */
  function Prepare(c: Client, p: Primitives, agent: string, host: Option<string>, date: string, nonce: string): (r: Result<Outgoing>)
    requires Valid(p)
    ensures SignedHeaders(c, agent, host, date, nonce).Err? ==> r == Err(SignedHeaders(c, agent, host, date, nonce).error)
    ensures r.Panic? <==> SignedHeaders(c, agent, host, date, nonce).Ok?
                          && !Signature(p, c.accessKeySecret, SignedHeaders(c, agent, host, date, nonce).value,
                                        c.request.verb, c.request.uri, c.request.query).Ok?
    ensures r.Ok? <==> SignedHeaders(c, agent, host, date, nonce).Ok?
                       && Signature(p, c.accessKeySecret, SignedHeaders(c, agent, host, date, nonce).value,
                                    c.request.verb, c.request.uri, c.request.query).Ok?
                       && IsValue(c.accessKeyId) && IsToken(c.request.verb)
    ensures r.Ok? ==> r.value.verb == c.request.verb && r.value.url == c.endpoint + c.request.uri
                      && r.value.query == c.request.query && r.value.body == c.request.body
    ensures r.Ok? ==>
      var h := SignedHeaders(c, agent, host, date, nonce).value;
      var sig := Signature(p, c.accessKeySecret, h, c.request.verb, c.request.uri, c.request.query).value;
      Values(r.value.headers, "authorization") == [Authorization.Header("acs", c.accessKeyId, sig)]
      && forall n :: n != "authorization" ==> Values(r.value.headers, n) == Values(h, n)
  {
    match SignedHeaders(c, agent, host, date, nonce)
    case Err(e) => Err(e)
    case Panic => Panic
    case Ok(h) =>
      match Signature(p, c.accessKeySecret, h, c.request.verb, c.request.uri, c.request.query)
      case Err(e) => Err(e)
      case Panic => Panic
      case Ok(sig) => Authorize(c, h, sig)
  }

  /** The last steps of `send`: the `Authorization` header over the signed map, then the
      method; the URL is `endpoint + uri`. */
  function Authorize(c: Client, h: HeaderMap, sig: string): (r: Result<Outgoing>)
    requires IsVisible(sig)
    ensures !r.Panic?
    ensures r.Ok? <==> IsValue(c.accessKeyId) && IsToken(c.request.verb)
    ensures !IsValue(c.accessKeyId) ==> r == Err(InvalidHeader)
    ensures IsValue(c.accessKeyId) && !IsToken(c.request.verb) ==> r == Err(InvalidRequest(BadMethod))
    ensures r.Ok? ==> r.value.verb == c.request.verb && r.value.url == c.endpoint + c.request.uri
                      && r.value.query == c.request.query && r.value.body == c.request.body
    ensures r.Ok? ==> Values(r.value.headers, "authorization") == [Authorization.Header("acs", c.accessKeyId, sig)]
    ensures r.Ok? ==> forall n :: n != "authorization" ==> Values(r.value.headers, n) == Values(h, n)
  {
    Authorization.SchemesVisible();
    match Authorization.Attach(h, "acs", c.accessKeyId, sig)
    case Err(e) => Err(e)
    case Panic => Panic
    case Ok(signed) =>
      if !IsToken(c.request.verb) then Err(InvalidRequest(BadMethod))
      else Ok(Outgoing(c.request.verb, c.endpoint + c.request.uri, signed, c.request.query, c.request.body))
  }

  /** `send`: a failure before the exchange is returned as it is; otherwise the reply is
      classified. */
  function Send(c: Client, p: Primitives, agent: string, host: Option<string>, date: string, nonce: string, transport: Transport): (r: Result<Reply>)
    requires Valid(p)
    ensures Prepare(c, p, agent, host, date, nonce).Err? ==> r == Err(Prepare(c, p, agent, host, date, nonce).error)
    ensures Prepare(c, p, agent, host, date, nonce).Panic? ==> r.Panic?
    ensures Prepare(c, p, agent, host, date, nonce).Ok? ==> r == Classify(transport(Prepare(c, p, agent, host, date, nonce).value))
  {
    match Prepare(c, p, agent, host, date, nonce)
    case Ok(o) => Classify(transport(o))
    case Err(e) => Err(e)
    case Panic => Panic
  }

  // ---- properties of the prepared request ----------------------------------------

  /** The two headers the signer indexes unconditionally are always there: `accept` is a
      default, and `date` is set just before signing, so only an unprintable date can make
      its lookup panic. */
  lemma RequiredHeadersPresent(c: Client, agent: string, host: Option<string>, date: string, nonce: string)
    requires SignedHeaders(c, agent, host, date, nonce).Ok?
    ensures var h := SignedHeaders(c, agent, host, date, nonce).value;
            Required(h, "accept") == Ok("application/json")
            && (Required(h, "date").Ok? <==> IsVisible(date))
            && (Required(h, "date").Ok? ==> Required(h, "date").value == date)
  {
    var h := SignedHeaders(c, agent, host, date, nonce).value;
    SignedHeadersValues(c, agent, host, date, nonce);
    JsonVisible();
    assert Headers.Get(h, "accept") == Some("application/json");
    assert Headers.Get(h, "date") == Some(date);
  }

  /** The `accept` default is visible ASCII. */
  lemma JsonVisible()
    ensures IsVisible("application/json")
  {
    var json := "application/json";
    forall i | 0 <= i < |json| ensures ' ' <= json[i] <= '~' {
      assert json[i] in "abcdeghijlnopst/";
    }
  }

  /** `send` reads the credentials, the endpoint, and the request's method, uri, query,
      headers and body; nothing else. */
  predicate SameSendInputs(c1: Client, c2: Client) {
    c1.accessKeyId == c2.accessKeyId && c1.accessKeySecret == c2.accessKeySecret && c1.endpoint == c2.endpoint
    && c1.request.verb == c2.request.verb && c1.request.uri == c2.request.uri && c1.request.query == c2.request.query
    && c1.request.headers == c2.request.headers && c1.request.body == c2.request.body
  }

  lemma PrepareReadsSendInputs(c1: Client, c2: Client, p: Primitives, agent: string, host: Option<string>, date: string, nonce: string)
    requires Valid(p)
    requires SameSendInputs(c1, c2)
    ensures Prepare(c1, p, agent, host, date, nonce) == Prepare(c2, p, agent, host, date, nonce)
  {
    var s1 := SignedHeaders(c1, agent, host, date, nonce);
    assert s1 == SignedHeaders(c2, agent, host, date, nonce);
    if s1.Ok? {
      var sig := Signature(p, c1.accessKeySecret, s1.value, c1.request.verb, c1.request.uri, c1.request.query);
      if sig.Ok? {
        AuthorizeReadsSendInputs(c1, c2, s1.value, sig.value);
      }
    }
  }

  lemma AuthorizeReadsSendInputs(c1: Client, c2: Client, h: HeaderMap, sig: string)
    requires IsVisible(sig)
    requires SameSendInputs(c1, c2)
    ensures Authorize(c1, h, sig) == Authorize(c2, h, sig)
  {
  }

  /** `version` and `project` are stored and never read: they leave the request `send`
      builds unchanged. */
  lemma VersionAndProjectIgnored(c: Client, v: string, project: string, p: Primitives, agent: string,
                                 host: Option<string>, date: string, nonce: string)
    requires Valid(p)
    ensures Prepare(Version(c, v), p, agent, host, date, nonce) == Prepare(c, p, agent, host, date, nonce)
    ensures Prepare(Project(c, project), p, agent, host, date, nonce) == Prepare(c, p, agent, host, date, nonce)
  {
    PrepareReadsSendInputs(Version(c, v), c, p, agent, host, date, nonce);
    PrepareReadsSendInputs(Project(c, project), c, p, agent, host, date, nonce);
  }

  /** A server reading the `Authorization` header of a prepared request recovers the key
      id and a signature that decodes to the HMAC-SHA1 tag of the string-to-sign, keyed by
      the raw secret. */
  lemma AuthorizationReadsBack(c: Client, p: Primitives, agent: string, host: Option<string>, date: string, nonce: string)
    requires Valid(p)
    requires Prepare(c, p, agent, host, date, nonce).Ok?
    ensures var o := Prepare(c, p, agent, host, date, nonce).value;
            var h := SignedHeaders(c, agent, host, date, nonce).value;
            var sts := StringToSign(h, c.request.verb, c.request.uri, c.request.query);
            Headers.Get(o.headers, "authorization").Some?
            && match Authorization.Parse("acs", Headers.Get(o.headers, "authorization").value)
               case None => false
               case Some(read) =>
                 read.0 == c.accessKeyId && sts.Ok?
                 && Base64Decode(read.1) == Some(p.hmacSha1(Utf8.Encode(c.accessKeySecret), Utf8.Encode(sts.value)))
  {
    var h := SignedHeaders(c, agent, host, date, nonce).value;
    var sig := Signature(p, c.accessKeySecret, h, c.request.verb, c.request.uri, c.request.query).value;
    Authorization.ParseHeader("acs", c.accessKeyId, sig);
  }

  /** The `x-acs-` pairs the signed map contributes for `k`: the fixed signature method,
      the nonce, and otherwise the caller's own `x-acs-` values. No other name `send` sets
      starts with `x-acs-`. */
  function SignedRun(caller: HeaderMap, nonce: string, k: string): seq<Pair> {
    if k == "x-acs-signature-method" then Tagged(k, ["HMAC-SHA1"])
    else if k == "x-acs-signature-nonce" then Tagged(k, [nonce])
    else KeptRun(caller, AcsPrefixes, k)
  }

  lemma SignedRuns(c: Client, agent: string, host: Option<string>, date: string, nonce: string, k: string)
    requires SignedHeaders(c, agent, host, date, nonce).Ok?
    ensures KeptRun(SignedHeaders(c, agent, host, date, nonce).value, AcsPrefixes, k) == SignedRun(c.request.headers, nonce, k)
  {
    var h := SignedHeaders(c, agent, host, date, nonce).value;
    if k == "x-acs-signature-method" || k == "x-acs-signature-nonce" {
      SignedHeadersValues(c, agent, host, date, nonce);
      AcsKept();
    } else if IsSendName(k) {
      SendNamesNotKept(k);
    } else {
      assert Values(h, k) == Values(c.request.headers, k);
    }
  }

  /** The names `send` sets other than the two `x-acs-` ones do not reach the canonical
      headers. */
  lemma SendNamesNotKept(k: string)
    requires IsSendName(k) && k != "x-acs-signature-method" && k != "x-acs-signature-nonce"
    ensures !Keeps(k, AcsPrefixes)
  {
    if k == "accept" { NotKept("accept", AcsPrefixes); }
    else if k == "user-agent" { NotKept("user-agent", AcsPrefixes); }
    else if k == "x-sdk-client" { NotKept("x-sdk-client", AcsPrefixes); }
    else if k == "host" { NotKept("host", AcsPrefixes); }
    else { NotKept("date", AcsPrefixes); }
  }

  /** The canonical headers of the map `send` signs are the `name:value` lines of any
      key-sorted list holding, for each name, the pairs `SignedRun` gives it: the caller's
      `x-acs-` headers together with the signature method and the nonce. */
  lemma SignedCanonicalHeaders(c: Client, p: Primitives, agent: string, host: Option<string>, date: string, nonce: string,
                               s: seq<Pair>)
    requires Valid(p)
    requires WellFormed(c.request.headers)
    requires Prepare(c, p, agent, host, date, nonce).Ok?
    requires SortedByKey(s)
    requires forall k :: KeyRun(s, k) == SignedRun(c.request.headers, nonce, k)
    ensures CanonicalHeaders(SignedHeaders(c, agent, host, date, nonce).value, AcsPrefixes) == Ok(Join(Lines(s), "\n"))
  {
    var h := SignedHeaders(c, agent, host, date, nonce).value;
    forall k ensures KeyRun(s, k) == KeptRun(h, AcsPrefixes, k) {
      SignedRuns(c, agent, host, date, nonce, k);
    }
    assert Fields(h, c.request.verb, c.request.uri, c.request.query).Ok?;
    CanonicalHeadersSpec(h, AcsPrefixes, s);
  }

  /** The lines of the string `send` signs: the upper-cased method, the JSON `accept`, the
      caller's `content-md5` and `content-type` (or empty lines), the date, the `x-acs-`
      lines of `s` (the caller's, the signature method and the nonce, sorted by name), and
      the resource. */
  lemma SignedLines(c: Client, p: Primitives, agent: string, host: Option<string>, date: string, nonce: string,
                    s: seq<Pair>)
    requires Valid(p)
    requires WellFormed(c.request.headers)
    requires Prepare(c, p, agent, host, date, nonce).Ok?
    requires SortedByKey(s)
    requires forall k :: KeyRun(s, k) == SignedRun(c.request.headers, nonce, k)
    ensures var h := SignedHeaders(c, agent, host, date, nonce).value;
            var sts := StringToSign(h, c.request.verb, c.request.uri, c.request.query);
            var md5 := Headers.Get(c.request.headers, "content-md5");
            var contentType := Headers.Get(c.request.headers, "content-type");
            sts.Ok?
            && Split(sts.value, '\n')
               == [AsciiUpper(c.request.verb), "application/json",
                   if md5.None? then "" else md5.value,
                   if contentType.None? then "" else contentType.value, date]
                  + Split(Join(Lines(s), "\n"), '\n')
                  + Split(CanonicalResource(c.request.uri, c.request.query), '\n')
  {
    var h := SignedHeaders(c, agent, host, date, nonce).value;
    SignedHeadersValues(c, agent, host, date, nonce);
    KeepsContentHeader(c, agent, host, date, nonce, "content-md5");
    KeepsContentHeader(c, agent, host, date, nonce, "content-type");
    StringToSignSplits(h, c.request.verb, c.request.uri, c.request.query);
    LeadingFields(h, c.request.verb, c.request.uri, c.request.query, c.request.headers, date);
    SignedCanonicalHeaders(c, p, agent, host, date, nonce, s);
  }

  /** The five leading fields, read from a map that holds the JSON `accept` and `date`
      and agrees with the caller's on the content headers. */
  lemma LeadingFields(h: HeaderMap, verb: string, uri: string, query: seq<Pair>, caller: HeaderMap, date: string)
    requires Fields(h, verb, uri, query).Ok?
    requires Values(h, "accept") == ["application/json"] && Values(h, "date") == [date]
    requires Headers.Get(h, "content-md5") == Headers.Get(caller, "content-md5")
    requires Headers.Get(h, "content-type") == Headers.Get(caller, "content-type")
    ensures var md5 := Headers.Get(caller, "content-md5");
            var contentType := Headers.Get(caller, "content-type");
            Fields(h, verb, uri, query).value[..5]
            == [AsciiUpper(verb), "application/json", if md5.None? then "" else md5.value,
                if contentType.None? then "" else contentType.value, date]
  {
    var md5, contentType := Headers.Get(h, "content-md5"), Headers.Get(h, "content-type");
    TakeFive(AsciiUpper(verb), Headers.Get(h, "accept").value, if md5.None? then "" else md5.value,
             if contentType.None? then "" else contentType.value, Headers.Get(h, "date").value,
             CanonicalHeaders(h, AcsPrefixes).value, CanonicalResource(uri, query));
  }

  /** A `content-*` header of the caller reaches the signer as it was. */
  lemma KeepsContentHeader(c: Client, agent: string, host: Option<string>, date: string, nonce: string, n: string)
    requires SignedHeaders(c, agent, host, date, nonce).Ok?
    requires |n| > 0 && n[0] == 'c'
    ensures Headers.Get(SignedHeaders(c, agent, host, date, nonce).value, n) == Headers.Get(c.request.headers, n)
  {
    ContentIsNotSendName(n);
    assert Values(SignedHeaders(c, agent, host, date, nonce).value, n) == Values(c.request.headers, n);
  }

  /** `body` then `header`: the header map replaces the one `body` filled, so its digest
      and length survive only if the caller passes them again: every name, the two
      `body` set included, has exactly the values the caller's pairs give it. */
  lemma HeaderAfterBody(c: Client, p: Primitives, body: string, pairs: seq<Pair>)
    requires Valid(p)
    ensures var r := Header(Body(c, p, body).value, pairs);
            (r.Ok? <==> Header(c, pairs).Ok?)
            && (r.Ok? ==> r.value.request.headers == Header(c, pairs).value.request.headers
                          && (forall n :: Values(r.value.request.headers, n) == ValuesFor(pairs, n))
                          && r.value.request.body == Some(body))
  {
  }
}

=== FILE: roa_legacy.dfy ===
/** The blocking ROA client of `src/roa.rs`: a `Client` holding the API version, and the
    `RequestBuilder` it hands out, whose header map starts from six seeded headers. Its
    errors are `anyhow` errors, mapped onto the crate's error enum: an unparsable header
    value is `InvalidHeader`, an endpoint without a host `InvalidRequest(BadEndpoint)`, a
    method that does not parse `InvalidRequest(BadMethod)`, a failed exchange `Transport`. */
module RoaLegacy {
  import opened Outcomes
  import opened Strings
  import opened Sorting
  import opened Headers
  import opened Canonical
  import opened Crypto
  import opened Codecs
  import opened Utf8
  import opened Payload
  import opened RoaSigning
  import opened Wire
  import Authorization

  datatype Client = Client(accessKeyId: string, accessKeySecret: string, endpoint: string, version: string)

  datatype Request = Request(verb: string, uri: string, body: Option<string>, query: seq<Pair>, headers: HeaderMap)

  /** `RequestBuilder`: the client's credentials and endpoint, and one request. */
  datatype Builder = Builder(accessKeyId: string, accessKeySecret: string, endpoint: string, request: Request)

  /** The seeded header map: `DEFAULT_HEADER`, the crate's agent string as `user-agent`
      and `x-sdk-client`, and the API version as `x-acs-version`. The constants always
      parse; the agent and the version are unwrapped, so either one failing to parse is
      a panic. */
  function Seed(agent: string, version: string): (r: Result<HeaderMap>)
    ensures r.Ok? <==> IsValue(agent) && IsValue(version)
    ensures !r.Ok? ==> r.Panic?
    ensures r.Ok? ==> WellFormed(r.value)
  {
    if !IsValue(agent) || !IsValue(version) then Panic
    else
      var defaults := Insert(Insert(Insert(Empty, "accept", "application/json"), "x-acs-signature-method", "HMAC-SHA1"),
                             "x-acs-signature-version", "1.0");
      SeedWellFormed(agent, version);
      Ok(Insert(Insert(Insert(defaults, "user-agent", agent), "x-sdk-client", agent), "x-acs-version", version))
  }

  /** The six seeded names are valid and their values acceptable, so the seed is well
      formed. */
  lemma SeedWellFormed(agent: string, version: string)
    requires IsValue(agent) && IsValue(version)
    ensures var defaults := Insert(Insert(Insert(Empty, "accept", "application/json"), "x-acs-signature-method", "HMAC-SHA1"),
                                   "x-acs-signature-version", "1.0");
            WellFormed(Insert(Insert(Insert(defaults, "user-agent", agent), "x-sdk-client", agent), "x-acs-version", version))
  {
    CommonNames();
    AcsNames();
    FixedValues();
    var fixed := Insert(Insert(Empty, "accept", "application/json"), "x-acs-signature-method", "HMAC-SHA1");
    InsertsWellFormed(Empty, "accept", "application/json", "x-acs-signature-method", "HMAC-SHA1");
    InsertWellFormed(fixed, "x-acs-signature-version", "1.0");
    var defaults := Insert(fixed, "x-acs-signature-version", "1.0");
    InsertsWellFormed(defaults, "user-agent", agent, "x-sdk-client", agent);
    InsertWellFormed(Insert(Insert(defaults, "user-agent", agent), "x-sdk-client", agent), "x-acs-version", version);
  }

  /** What each seeded name holds. */
  lemma SeedValues(agent: string, version: string)
    requires Seed(agent, version).Ok?
    ensures var h := Seed(agent, version).value;
            Values(h, "accept") == ["application/json"] && Values(h, "x-acs-signature-method") == ["HMAC-SHA1"]
            && Values(h, "x-acs-signature-version") == ["1.0"]
            && Values(h, "user-agent") == [agent] && Values(h, "x-sdk-client") == [agent]
            && Values(h, "x-acs-version") == [version]
  {
    var defaults := Insert(Insert(Insert(Empty, "accept", "application/json"), "x-acs-signature-method", "HMAC-SHA1"),
                           "x-acs-signature-version", "1.0");
    InsertThree(Empty, "accept", "application/json", "x-acs-signature-method", "HMAC-SHA1",
                "x-acs-signature-version", "1.0");
    InsertThree(defaults, "user-agent", agent, "x-sdk-client", agent, "x-acs-version", version);
  }

  /** The seed holds nothing under any other name. */
  lemma SeedOnlySix(agent: string, version: string, k: string)
    requires Seed(agent, version).Ok?
    requires k != "accept" && k != "x-acs-signature-method" && k != "x-acs-signature-version"
    requires k != "user-agent" && k != "x-sdk-client" && k != "x-acs-version"
    ensures Values(Seed(agent, version).value, k) == []
  {
    var defaults := Insert(Insert(Insert(Empty, "accept", "application/json"), "x-acs-signature-method", "HMAC-SHA1"),
                           "x-acs-signature-version", "1.0");
    InsertThree(Empty, "accept", "application/json", "x-acs-signature-method", "HMAC-SHA1",
                "x-acs-signature-version", "1.0");
    InsertThree(defaults, "user-agent", agent, "x-sdk-client", agent, "x-acs-version", version);
  }

  /** `RequestBuilder::new`: a request with the seeded headers, no body and no query. */
  function NewBuilder(accessKeyId: string, accessKeySecret: string, endpoint: string, version: string,
                      verb: string, uri: string, agent: string): (r: Result<Builder>)
    ensures r.Ok? <==> Seed(agent, version).Ok?
    ensures !r.Ok? ==> r.Panic?
    ensures r.Ok? ==> r.value.accessKeyId == accessKeyId && r.value.accessKeySecret == accessKeySecret
                      && r.value.endpoint == endpoint
    ensures r.Ok? ==> r.value.request == Request(verb, uri, None, [], Seed(agent, version).value)
    ensures r.Ok? ==> WellFormed(r.value.request.headers)
  {
    match Seed(agent, version)
    case Ok(h) => Ok(Builder(accessKeyId, accessKeySecret, endpoint, Request(verb, uri, None, [], h)))
    case Err(e) => Err(e)
    case Panic => Panic
  }

  /** `Client::new` */
  function New(accessKeyId: string, accessKeySecret: string, endpoint: string, version: string): (r: Client)
    ensures r.accessKeyId == accessKeyId && r.accessKeySecret == accessKeySecret
    ensures r.endpoint == endpoint && r.version == version
  {
    Client(accessKeyId, accessKeySecret, endpoint, version)
  }

  /** `Client::execute`: a builder carrying the client's fields. */
  function Execute(c: Client, verb: string, uri: string, agent: string): (r: Result<Builder>)
    ensures r == NewBuilder(c.accessKeyId, c.accessKeySecret, c.endpoint, c.version, verb, uri, agent)
    ensures r.Ok? ==> r.value.request.verb == verb && r.value.request.uri == uri
  {
    NewBuilder(c.accessKeyId, c.accessKeySecret, c.endpoint, c.version, verb, uri, agent)
  }

  /** `Client::get` */
  function Get(c: Client, uri: string, agent: string): (r: Result<Builder>)
    ensures r == Execute(c, "GET", uri, agent)
    ensures r.Ok? ==> r.value.request.verb == "GET"
  {
    Execute(c, "GET", uri, agent)
  }

  /** `Client::post` */
  function Post(c: Client, uri: string, agent: string): (r: Result<Builder>)
    ensures r == Execute(c, "POST", uri, agent)
    ensures r.Ok? ==> r.value.request.verb == "POST"
  {
    Execute(c, "POST", uri, agent)
  }

  /** `Client::put` */
  function Put(c: Client, uri: string, agent: string): (r: Result<Builder>)
    ensures r == Execute(c, "PUT", uri, agent)
    ensures r.Ok? ==> r.value.request.verb == "PUT"
  {
    Execute(c, "PUT", uri, agent)
  }

  /** `body(body)`: `content-length` and `content-md5` are inserted when their values
      parse, which they always do; the body is stored. */
  function Body(b: Builder, p: Primitives, body: string): (r: Builder)
    requires Valid(p)
    ensures r.request.body == Some(body)
    ensures Values(r.request.headers, "content-length") == [ContentLength(body)]
    ensures Values(r.request.headers, "content-md5") == [Base64Md5(p, body)]
    ensures forall n :: n != "content-length" && n != "content-md5" ==>
              Values(r.request.headers, n) == Values(b.request.headers, n)
    ensures WellFormed(b.request.headers) ==> WellFormed(r.request.headers)
    ensures r.(request := b.request) == b
    ensures r.request.(headers := b.request.headers, body := b.request.body) == b.request
  {
    var length := ContentLength(body);
    var md5 := Base64Md5(p, body);
    var h1 := if IsValue(length) then Insert(b.request.headers, "content-length", length) else b.request.headers;
    var h2 := if IsValue(md5) then Insert(h1, "content-md5", md5) else h1;
    InsertBoth(b.request.headers, "content-length", length, "content-md5", md5);
    assert WellFormed(b.request.headers) ==> WellFormed(h2) by {
      if WellFormed(b.request.headers) { ContentWellFormed(b.request.headers, length, md5); }
    }
    b.(request := b.request.(headers := h2, body := Some(body)))
  }

  /** The value the pairs leave for `name` under `header`: the last valid pair whose key
      lower-cases to `name`. */
  function LastValid(pairs: seq<Pair>, name: string): Option<string>
    decreases |pairs|
  {
    if |pairs| == 0 then None
    else
      var last := pairs[|pairs| - 1];
      if ValidPair(last) && AsciiLower(last.0) == name then Some(last.1)
      else LastValid(pairs[..|pairs| - 1], name)
  }

  /** `header(iter)`: each pair whose name and value parse is inserted, replacing the
      name's values; the others are skipped. */
  function Header(b: Builder, pairs: seq<Pair>): (r: Builder)
    ensures forall n :: Values(r.request.headers, n)
                        == match LastValid(pairs, n) case Some(v) => [v] case None => Values(b.request.headers, n)
    ensures r.(request := b.request) == b
    ensures r.request.(headers := b.request.headers) == b.request
    ensures WellFormed(b.request.headers) ==> WellFormed(r.request.headers)
    decreases |pairs|
  {
    if |pairs| == 0 then b
    else
      var prev := Header(b, pairs[..|pairs| - 1]);
      var last := pairs[|pairs| - 1];
      match (ParseName(last.0), ParseValue(last.1))
      case (Some(name), Ok(value)) =>
        assert WellFormed(b.request.headers) ==> WellFormed(Insert(prev.request.headers, name, value)) by {
          if WellFormed(b.request.headers) { InsertWellFormed(prev.request.headers, name, value); }
        }
        prev.(request := prev.request.(headers := Insert(prev.request.headers, name, value)))
      case _ => prev
  }

  /** `query(iter)`: the pairs are pushed after those already present. */
  function Query(b: Builder, queries: seq<Pair>): (r: Builder)
    ensures |r.request.query| == |b.request.query| + |queries|
    ensures r.request.query[..|b.request.query|] == b.request.query
    ensures r.request.query[|b.request.query|..] == queries
    ensures r.(request := b.request) == b
    ensures r.request.(query := b.request.query) == b.request
  {
    var r := b.(request := b.request.(query := b.request.query + queries));
    assert r.request.query[..|b.request.query|] == b.request.query;
    r
  }

  /** The first steps of `send`: `date`, `x-acs-signature-nonce`, and the endpoint's host
      (`None` when the endpoint does not parse or has no host), in that order. */
  function Stamped(b: Builder, host: Option<string>, date: string, nonce: string): (r: Result<HeaderMap>)
    ensures r.Ok? <==> IsValue(date) && IsValue(nonce) && host.Some? && IsValue(host.value)
    ensures (!IsValue(date) || !IsValue(nonce)) ==> r == Err(InvalidHeader)
    ensures IsValue(date) && IsValue(nonce) && host.None? ==> r == Err(InvalidRequest(BadEndpoint))
    ensures host.Some? && !r.Ok? ==> r == Err(InvalidHeader)
    ensures r.Ok? ==> Values(r.value, "date") == [date] && Values(r.value, "x-acs-signature-nonce") == [nonce]
                      && Values(r.value, "host") == [host.value]
    ensures r.Ok? ==> forall n :: n != "date" && n != "x-acs-signature-nonce" && n != "host" ==>
                                  Values(r.value, n) == Values(b.request.headers, n)
    ensures r.Ok? && WellFormed(b.request.headers) ==> WellFormed(r.value)
  {
    if !IsValue(date) || !IsValue(nonce) then Err(InvalidHeader)
    else
      var h := Insert(Insert(b.request.headers, "date", date), "x-acs-signature-nonce", nonce);
      match host
      case None => Err(InvalidRequest(BadEndpoint))
      case Some(hostName) =>
        if IsValue(hostName) then
          InsertThree(b.request.headers, "date", date, "x-acs-signature-nonce", nonce, "host", hostName);
          assert WellFormed(b.request.headers) ==> WellFormed(Insert(h, "host", hostName)) by {
            if WellFormed(b.request.headers) { StampedWellFormed(b.request.headers, date, nonce, hostName); }
          }
          Ok(Insert(h, "host", hostName))
        else Err(InvalidHeader)
  }

  lemma StampedWellFormed(h: HeaderMap, date: string, nonce: string, host: string)
    requires WellFormed(h) && IsValue(date) && IsValue(nonce) && IsValue(host)
    ensures WellFormed(Insert(Insert(Insert(h, "date", date), "x-acs-signature-nonce", nonce), "host", host))
  {
    CommonNames();
    AcsNames();
    InsertsWellFormed(h, "date", date, "x-acs-signature-nonce", nonce);
    InsertWellFormed(Insert(Insert(h, "date", date), "x-acs-signature-nonce", nonce), "host", host);
  }

  /** Everything `send` does before the exchange: the stamped headers, the signature over
      them, `Authorization: acs <id>:<signature>`, the method, and the URL
      `endpoint + uri`; the query and the body travel separately. */
  function Prepare(b: Builder, p: Primitives, host: Option<string>, date: string, nonce: string): (r: Result<Outgoing>)
    requires Valid(p)
    ensures Stamped(b, host, date, nonce).Err? ==> r == Err(Stamped(b, host, date, nonce).error)
    ensures r.Panic? <==> Stamped(b, host, date, nonce).Ok?
                          && !Signature(p, b.accessKeySecret, Stamped(b, host, date, nonce).value,
                                        b.request.verb, b.request.uri, b.request.query).Ok?
    ensures r.Ok? <==> Stamped(b, host, date, nonce).Ok?
                       && Signature(p, b.accessKeySecret, Stamped(b, host, date, nonce).value,
                                    b.request.verb, b.request.uri, b.request.query).Ok?
                       && IsValue(b.accessKeyId) && IsToken(b.request.verb)
    ensures r.Ok? ==> r.value.verb == b.request.verb && r.value.url == b.endpoint + b.request.uri
                      && r.value.query == b.request.query && r.value.body == b.request.body
    ensures r.Ok? ==>
      var h := Stamped(b, host, date, nonce).value;
      var sig := Signature(p, b.accessKeySecret, h, b.request.verb, b.request.uri, b.request.query).value;
      Values(r.value.headers, "authorization") == [Authorization.Header("acs", b.accessKeyId, sig)]
      && forall n :: n != "authorization" ==> Values(r.value.headers, n) == Values(h, n)
  {
    match Stamped(b, host, date, nonce)
    case Err(e) => Err(e)
    case Panic => Panic
    case Ok(h) =>
      match Signature(p, b.accessKeySecret, h, b.request.verb, b.request.uri, b.request.query)
      case Err(e) => Err(e)
      case Panic => Panic
      case Ok(sig) => Authorize(b, h, sig)
  }

  /** The `Authorization` header, then the method. */
  function Authorize(b: Builder, h: HeaderMap, sig: string): (r: Result<Outgoing>)
    requires IsVisible(sig)
    ensures !r.Panic?
    ensures r.Ok? <==> IsValue(b.accessKeyId) && IsToken(b.request.verb)
    ensures !IsValue(b.accessKeyId) ==> r == Err(InvalidHeader)
    ensures IsValue(b.accessKeyId) && !IsToken(b.request.verb) ==> r == Err(InvalidRequest(BadMethod))
    ensures r.Ok? ==> r.value.verb == b.request.verb && r.value.url == b.endpoint + b.request.uri
                      && r.value.query == b.request.query && r.value.body == b.request.body
    ensures r.Ok? ==> Values(r.value.headers, "authorization") == [Authorization.Header("acs", b.accessKeyId, sig)]
    ensures r.Ok? ==> forall n :: n != "authorization" ==> Values(r.value.headers, n) == Values(h, n)
  {
    Authorization.SchemesVisible();
    match Authorization.Attach(h, "acs", b.accessKeyId, sig)
    case Err(e) => Err(e)
    case Panic => Panic
    case Ok(signed) =>
      if !IsToken(b.request.verb) then Err(InvalidRequest(BadMethod))
      else Ok(Outgoing(b.request.verb, b.endpoint + b.request.uri, signed, b.request.query, b.request.body))
  }

  /** `send`: the response text, whatever the status; a failure before the exchange is
      returned as it is, and a failed exchange is a transport error. */
  function Send(b: Builder, p: Primitives, host: Option<string>, date: string, nonce: string, transport: Transport): (r: Result<string>)
    requires Valid(p)
    ensures Prepare(b, p, host, date, nonce).Err? ==> r == Err(Prepare(b, p, host, date, nonce).error)
    ensures Prepare(b, p, host, date, nonce).Panic? ==> r.Panic?
    ensures Prepare(b, p, host, date, nonce).Ok? ==>
              var reply := transport(Prepare(b, p, host, date, nonce).value);
              (r.Ok? <==> reply.Reply?) && (r.Ok? ==> r.value == reply.text) && (!r.Ok? ==> r == Err(Transport))
  {
    match Prepare(b, p, host, date, nonce)
    case Ok(o) =>
      (match transport(o)
       case Reply(_, text, _) => Ok(text)
       case Unreachable => Err(Transport))
    case Err(e) => Err(e)
    case Panic => Panic
  }

  // ---- properties ------------------------------------------------------------------

  /** The string-to-sign indexes `accept` without a fallback; the seed puts it there. */
  predicate HasAccept(b: Builder) {
    |Values(b.request.headers, "accept")| > 0
  }

  /** Every builder starts with `accept`, and no setter removes it: `body` touches only
      the content headers, `header` replaces values but never drops a name, and `query`
      leaves the map alone. */
  lemma AcceptStaysSet(b: Builder, p: Primitives, body: string, pairs: seq<Pair>, queries: seq<Pair>)
    requires Valid(p)
    requires HasAccept(b)
    ensures HasAccept(Body(b, p, body)) && HasAccept(Header(b, pairs)) && HasAccept(Query(b, queries))
  {
    BodyKeepsAccept(b, p, body);
    HeaderKeepsAccept(b, pairs);
    assert Query(b, queries).request.headers == b.request.headers;
  }

  lemma BodyKeepsAccept(b: Builder, p: Primitives, body: string)
    requires Valid(p)
    requires HasAccept(b)
    ensures HasAccept(Body(b, p, body))
  {
    var h := Body(b, p, body).request.headers;
    assert |"content-length"| == 14 && |"content-md5"| == 11 && |"accept"| == 6;
    assert Values(h, "accept") == Values(b.request.headers, "accept");
  }

  lemma HeaderKeepsAccept(b: Builder, pairs: seq<Pair>)
    requires HasAccept(b)
    ensures HasAccept(Header(b, pairs))
  {
    var h := Header(b, pairs).request.headers;
    match LastValid(pairs, "accept")
    case Some(v) => assert Values(h, "accept") == [v];
    case None => assert Values(h, "accept") == Values(b.request.headers, "accept");
  }

  lemma NewBuilderHasAccept(accessKeyId: string, accessKeySecret: string, endpoint: string, version: string,
                            verb: string, uri: string, agent: string)
    requires NewBuilder(accessKeyId, accessKeySecret, endpoint, version, verb, uri, agent).Ok?
    ensures HasAccept(NewBuilder(accessKeyId, accessKeySecret, endpoint, version, verb, uri, agent).value)
  {
    SeedValues(agent, version);
  }

  /** So by the time `send` signs, the `accept` lookup finds a value and the `date` lookup
      finds the date just inserted: the signature can panic only on a value that is not
      visible ASCII. */
  lemma SignedLookupsFind(b: Builder, host: Option<string>, date: string, nonce: string)
    requires HasAccept(b)
    requires Stamped(b, host, date, nonce).Ok?
    ensures var h := Stamped(b, host, date, nonce).value;
            Headers.Get(h, "accept") == Headers.Get(b.request.headers, "accept") && Headers.Get(h, "accept").Some?
            && Headers.Get(h, "date") == Some(date)
  {
    assert |"accept"| == 6 && |"date"| == 4 && |"host"| == 4 && |"x-acs-signature-nonce"| == 21;
  }

  /** Pairs that do not parse are skipped one by one: a `header` call made only of them
      leaves the builder as it was. */
  lemma {:induction false} HeaderSkipsInvalid(b: Builder, pairs: seq<Pair>)
    requires forall i :: 0 <= i < |pairs| ==> !ValidPair(pairs[i])
    ensures Header(b, pairs) == b
    decreases |pairs|
  {
    if |pairs| > 0 {
      var init := pairs[..|pairs| - 1];
      assert forall i :: 0 <= i < |init| ==> init[i] == pairs[i];
      HeaderSkipsInvalid(b, init);
      assert !ValidPair(pairs[|pairs| - 1]);
    }
  }

  /** Two `header` calls act like one over both lists: later pairs win. */
  lemma {:induction false} HeaderConcatenates(b: Builder, first: seq<Pair>, second: seq<Pair>)
    ensures Header(Header(b, first), second) == Header(b, first + second)
    decreases |second|
  {
    if |second| == 0 {
      assert first + second == first;
    } else {
      var init := second[..|second| - 1];
      assert (first + second)[..|first + second| - 1] == first + init;
      assert (first + second)[|first + second| - 1] == second[|second| - 1];
      HeaderConcatenates(b, first, init);
    }
  }

  /** Two `query` calls push the pairs of both, in call order. */
  lemma QueryAccumulates(b: Builder, first: seq<Pair>, second: seq<Pair>)
    ensures Query(Query(b, first), second) == Query(b, first + second)
  {
    assert b.request.query + first + second == b.request.query + (first + second);
  }

  /** A server parsing the `authorization` header `send` attaches recovers the key id and a
      signature that decodes to the HMAC-SHA1 tag of the string-to-sign of the stamped map. */
  lemma AuthorizationReadsBack(b: Builder, p: Primitives, host: Option<string>, date: string, nonce: string)
    requires Valid(p)
    requires Prepare(b, p, host, date, nonce).Ok?
    ensures var o := Prepare(b, p, host, date, nonce).value;
            var h := Stamped(b, host, date, nonce).value;
            var sts := StringToSign(h, b.request.verb, b.request.uri, b.request.query);
            Headers.Get(o.headers, "authorization").Some?
            && match Authorization.Parse("acs", Headers.Get(o.headers, "authorization").value)
               case None => false
               case Some(read) =>
                 read.0 == b.accessKeyId && sts.Ok?
                 && Base64Decode(read.1) == Some(p.hmacSha1(Utf8.Encode(b.accessKeySecret), Utf8.Encode(sts.value)))
  {
    var h := Stamped(b, host, date, nonce).value;
    var sig := Signature(p, b.accessKeySecret, h, b.request.verb, b.request.uri, b.request.query).value;
    Authorization.ParseHeader("acs", b.accessKeyId, sig);
  }

  /** The `x-acs-` pairs the stamped map contributes for `k`: the nonce, and otherwise the
      builder's own `x-acs-` values, which start as the seeded signature method, signature
      version and API version. */
  function StampedRun(headers: HeaderMap, nonce: string, k: string): seq<Pair> {
    if k == "x-acs-signature-nonce" then Tagged(k, [nonce]) else KeptRun(headers, AcsPrefixes, k)
  }

  lemma StampedRuns(b: Builder, host: Option<string>, date: string, nonce: string, k: string)
    requires Stamped(b, host, date, nonce).Ok?
    ensures KeptRun(Stamped(b, host, date, nonce).value, AcsPrefixes, k) == StampedRun(b.request.headers, nonce, k)
  {
    if k == "x-acs-signature-nonce" {
      KeptAt("x-acs-signature-nonce", AcsPrefixes, 0);
    } else if k == "date" {
      NotKept("date", AcsPrefixes);
    } else if k == "host" {
      NotKept("host", AcsPrefixes);
    }
  }

  /** The canonical headers of the stamped map are the `name:value` lines of any key-sorted
      list holding, for each name, the pairs `StampedRun` gives it. */
  lemma StampedCanonicalHeaders(b: Builder, p: Primitives, host: Option<string>, date: string, nonce: string, s: seq<Pair>)
    requires Valid(p)
    requires WellFormed(b.request.headers)
    requires Prepare(b, p, host, date, nonce).Ok?
    requires SortedByKey(s)
    requires forall k :: KeyRun(s, k) == StampedRun(b.request.headers, nonce, k)
    ensures CanonicalHeaders(Stamped(b, host, date, nonce).value, AcsPrefixes) == Ok(Join(Lines(s), "\n"))
  {
    var h := Stamped(b, host, date, nonce).value;
    forall k ensures KeyRun(s, k) == KeptRun(h, AcsPrefixes, k) {
      StampedRuns(b, host, date, nonce, k);
    }
    assert Fields(h, b.request.verb, b.request.uri, b.request.query).Ok?;
    CanonicalHeadersSpec(h, AcsPrefixes, s);
  }

  /** A fresh builder's `x-acs-` runs are the seeded signature method, signature version and
      API version; no other seeded name is kept. */
  lemma SeededRuns(agent: string, version: string, k: string)
    requires Seed(agent, version).Ok?
    ensures KeptRun(Seed(agent, version).value, AcsPrefixes, k)
            == if k == "x-acs-signature-method" then Tagged(k, ["HMAC-SHA1"])
               else if k == "x-acs-signature-version" then Tagged(k, ["1.0"])
               else if k == "x-acs-version" then Tagged(k, [version])
               else []
  {
    if k == "x-acs-signature-method" || k == "x-acs-signature-version" || k == "x-acs-version" {
      SeedValues(agent, version);
      SeededKept();
    } else {
      SeededOthers(agent, version, k);
    }
  }

  lemma SeededOthers(agent: string, version: string, k: string)
    requires Seed(agent, version).Ok?
    requires k != "x-acs-signature-method" && k != "x-acs-signature-version" && k != "x-acs-version"
    ensures KeptRun(Seed(agent, version).value, AcsPrefixes, k) == []
  {
    if k == "accept" || k == "user-agent" || k == "x-sdk-client" {
      SeededNamesNotKept(k);
    } else {
      SeedOnlySix(agent, version, k);
    }
  }

  lemma SeededNamesNotKept(k: string)
    requires k == "accept" || k == "user-agent" || k == "x-sdk-client"
    ensures !Keeps(k, AcsPrefixes)
  {
    if k == "accept" {
      NotKept("accept", AcsPrefixes);
    } else if k == "user-agent" {
      NotKept("user-agent", AcsPrefixes);
    } else {
      NotKept("x-sdk-client", AcsPrefixes);
    }
  }

  lemma SeededKept()
    ensures Keeps("x-acs-signature-method", AcsPrefixes) && Keeps("x-acs-signature-version", AcsPrefixes)
    ensures Keeps("x-acs-version", AcsPrefixes)
  {
    KeptAt("x-acs-signature-method", AcsPrefixes, 0);
    KeptAt("x-acs-signature-version", AcsPrefixes, 0);
    KeptAt("x-acs-version", AcsPrefixes, 0);
  }
}

=== FILE: roa_signing.dfy ===
/** The ROA signature, shared by `src/client/roa.rs` and `src/roa.rs`: seven fields
    joined by newlines, signed with HMAC-SHA1 under the bare access key secret. */
module RoaSigning {
  import opened Strings
  import opened Sorting
  import opened Headers
  import opened Canonical
  import opened Crypto
  import opened Codecs
  import opened Utf8
  import opened Outcomes

  /** The fields of the string-to-sign, in order: the upper-cased method, `accept`,
      `content-md5` or `""`, `content-type` or `""`, `date`, the canonicalized headers
      and the canonicalized resource. Any lookup or header value that fails is a panic. */
  function Fields(h: HeaderMap, verb: string, uri: string, query: seq<Pair>): (r: Result<seq<string>>)
    ensures !r.Err?
    ensures r.Ok? <==> Required(h, "accept").Ok? && Optional(h, "content-md5").Ok? && Optional(h, "content-type").Ok?
                       && Required(h, "date").Ok? && CanonicalHeaders(h, AcsPrefixes).Ok?
    ensures r.Ok? ==> r.value == [AsciiUpper(verb), Get(h, "accept").value,
                                  if Get(h, "content-md5").None? then "" else Get(h, "content-md5").value,
                                  if Get(h, "content-type").None? then "" else Get(h, "content-type").value,
                                  Get(h, "date").value, CanonicalHeaders(h, AcsPrefixes).value,
                                  CanonicalResource(uri, query)]
  {
    var accept := Required(h, "accept");
    var md5 := Optional(h, "content-md5");
    var contentType := Optional(h, "content-type");
    var date := Required(h, "date");
    var headers := CanonicalHeaders(h, AcsPrefixes);
    if accept.Ok? && md5.Ok? && contentType.Ok? && date.Ok? && headers.Ok? then
      Ok([AsciiUpper(verb), accept.value, md5.value, contentType.value, date.value, headers.value,
          CanonicalResource(uri, query)])
    else Panic
  }

  /** `format!("{}\n{}\n{}\n{}\n{}\n{}\n{}", ...)` */
  function StringToSign(h: HeaderMap, verb: string, uri: string, query: seq<Pair>): (r: Result<string>)
    ensures !r.Err?
    ensures r.Ok? <==> Fields(h, verb, uri, query).Ok?
    ensures r.Ok? ==> r.value == Join(Fields(h, verb, uri, query).value, "\n")
  {
    match Fields(h, verb, uri, query)
    case Ok(f) => Ok(Join(f, "\n"))
    case Err(e) => Err(e)
    case Panic => Panic
  }

  /** A server splitting the string-to-sign at newlines finds the five header fields,
      then the canonicalized header lines, then the resource. */
  lemma StringToSignSplits(h: HeaderMap, verb: string, uri: string, query: seq<Pair>)
    requires IsToken(verb)
    requires StringToSign(h, verb, uri, query).Ok?
    ensures var f := Fields(h, verb, uri, query).value;
            Split(StringToSign(h, verb, uri, query).value, '\n')
            == f[..5] + Split(CanonicalHeaders(h, AcsPrefixes).value, '\n') + Split(CanonicalResource(uri, query), '\n')
  {
    var f := Fields(h, verb, uri, query).value;
    LeadingFieldsHaveNoNewline(h, verb, uri, query);
    SplitFields(f, 5);
  }

  /** The method and the four header values hold no newline: the method is a token and
      the values are visible ASCII. */
  lemma LeadingFieldsHaveNoNewline(h: HeaderMap, verb: string, uri: string, query: seq<Pair>)
    requires IsToken(verb)
    requires Fields(h, verb, uri, query).Ok?
    ensures var f := Fields(h, verb, uri, query).value;
            |f| == 7 && forall i :: 0 <= i < 5 ==> '\n' !in f[i]
  {
    var f := Fields(h, verb, uri, query).value;
    TokenHasNoNewline(verb);
    VisibleIsValue(Required(h, "accept").value);
    VisibleIsValue(Optional(h, "content-md5").value);
    VisibleIsValue(Optional(h, "content-type").value);
    VisibleIsValue(Required(h, "date").value);
    assert forall i :: 0 <= i < 5 ==> '\n' !in f[i];
  }

  /** The `x-acs-` names the ROA dialects insert. */
  lemma AcsNames()
    ensures IsName("x-acs-signature-method") && IsName("x-acs-signature-nonce")
    ensures IsName("x-acs-signature-version") && IsName("x-acs-version")
  {
    LowerName("x-acs-signature-method");
    LowerName("x-acs-signature-nonce");
    LowerName("x-acs-signature-version");
    LowerName("x-acs-version");
  }

  lemma AcsKept()
    ensures Keeps("x-acs-signature-method", AcsPrefixes) && Keeps("x-acs-signature-nonce", AcsPrefixes)
  {
    KeptAt("x-acs-signature-method", AcsPrefixes, 0);
    KeptAt("x-acs-signature-nonce", AcsPrefixes, 0);
  }

  /** `signature()`: base64 of HMAC-SHA1 over the string-to-sign, keyed by the access key
      secret itself (no `&` is appended, unlike the RPC key). */
  function Signature(p: Primitives, secret: string, h: HeaderMap, verb: string, uri: string, query: seq<Pair>): (r: Result<string>)
    requires Valid(p)
    ensures !r.Err?
    ensures r.Ok? <==> StringToSign(h, verb, uri, query).Ok?
    ensures r.Ok? ==> Base64Decode(r.value)
                      == Some(p.hmacSha1(Utf8.Encode(secret), Utf8.Encode(StringToSign(h, verb, uri, query).value)))
    ensures r.Ok? ==> |r.value| == 28 && ':' !in r.value && IsVisible(r.value)
  {
    match StringToSign(h, verb, uri, query)
    case Ok(body) =>
      Ok(Sign(p, secret, body))
    case Err(e) => Err(e)
    case Panic => Panic
  }
}

=== FILE: rpc_client.dfy ===
/** The async RPC client of `src/client/rpc.rs`: the builder setters, the assembly of the
    signed request in `send`, and the classification of the reply. */
module RpcClient {
  import opened Outcomes
  import opened Sorting
  import opened Headers
  import opened Crypto
  import opened RpcSigning
  import opened Wire
  import opened Strings

  datatype Request = Request(action: string, verb: string, query: seq<Pair>, headers: HeaderMap, version: string)

  datatype Client = Client(accessKeyId: string, accessKeySecret: string, endpoint: string, request: Request)

  /** `RPClient::new`: the credentials and endpoint, and the `Default` request. */
  function New(accessKeyId: string, accessKeySecret: string, endpoint: string): (r: Client)
    ensures r.accessKeyId == accessKeyId && r.accessKeySecret == accessKeySecret && r.endpoint == endpoint
    ensures r.request.action == "" && r.request.verb == "" && r.request.version == ""
    ensures |r.request.query| == 0 && |r.request.headers| == 0
  {
    Client(accessKeyId, accessKeySecret, endpoint, Request("", "", [], Empty, ""))
  }

  /** `request(method, action)`: sets the method and the action, nothing else. */
  function WithRequest(c: Client, verb: string, action: string): (r: Client)
    ensures r.request.verb == verb && r.request.action == action
    ensures r.(request := c.request) == c
    ensures r.request.(verb := c.request.verb, action := c.request.action) == c.request
  {
    c.(request := c.request.(verb := verb, action := action))
  }

  /** `get(action)` */
  function Get(c: Client, action: string): (r: Client)
    ensures r.request.verb == "GET" && r.request.action == action
    ensures r.(request := c.request) == c
    ensures r.request.(verb := c.request.verb, action := c.request.action) == c.request
  {
    WithRequest(c, "GET", action)
  }

  /** `post(action)` */
  function Post(c: Client, action: string): (r: Client)
    ensures r.request.verb == "POST" && r.request.action == action
    ensures r.(request := c.request) == c
    ensures r.request.(verb := c.request.verb, action := c.request.action) == c.request
  {
    WithRequest(c, "POST", action)
  }

  /** `query(queries)`: the new pairs replace the whole list. */
  function Query(c: Client, queries: seq<Pair>): (r: Client)
    ensures r.request.query == queries
    ensures r.(request := c.request) == c
    ensures r.request.(query := c.request.query) == c.request
  {
    c.(request := c.request.(query := queries))
  }

  /** `version(version)` */
  function Version(c: Client, version: string): (r: Client)
    ensures r.request.version == version
    ensures r.(request := c.request) == c
    ensures r.request.(version := c.request.version) == c.request
  {
    c.(request := c.request.(version := version))
  }

  /** `header(headers)`: the caller's hash map, in its iteration order, converted into a
      header map that replaces the previous one; any unparsable pair fails the call. */
  function Header(c: Client, pairs: seq<Pair>): (r: Result<Client>)
    ensures r.Ok? <==> forall i :: 0 <= i < |pairs| ==> ValidPair(pairs[i])
    ensures !r.Ok? ==> r == Err(InvalidRequest(BadHeader))
    ensures r.Ok? ==> WellFormed(r.value.request.headers)
    ensures r.Ok? ==> forall n :: Values(r.value.request.headers, n) == ValuesFor(pairs, n)
    ensures r.Ok? ==> r.value.(request := c.request) == c
    ensures r.Ok? ==> r.value.request.(headers := c.request.headers) == c.request
  {
    match FromPairs(pairs)
    case Ok(h) => Ok(c.(request := c.request.(headers := h)))
    case Err(e) => Err(e)
    case Panic => Panic
  }

  /** `DEFAULT_HEADER`: `user-agent` and `x-sdk-client`, both the crate's agent string,
      inserted over whatever the caller set. */
  function WithAgent(h: HeaderMap, agent: string): (r: Result<HeaderMap>)
    ensures r.Ok? <==> IsValue(agent)
    ensures !r.Ok? ==> r == Err(InvalidHeader)
    ensures r.Ok? ==> Values(r.value, "user-agent") == [agent] && Values(r.value, "x-sdk-client") == [agent]
    ensures r.Ok? ==> forall n :: n != "user-agent" && n != "x-sdk-client" ==> Values(r.value, n) == Values(h, n)
  {
    match ParseValue(agent)
    case Ok(v) => Ok(Insert(Insert(h, "user-agent", v), "x-sdk-client", v))
    case Err(e) => Err(e)
    case Panic => Panic
  }

  /** The default headers keep a well-formed map well formed. */
  lemma WithAgentWellFormed(h: HeaderMap, agent: string)
    requires WellFormed(h) && IsValue(agent)
    ensures WellFormed(WithAgent(h, agent).value)
  {
    CommonNames();
    InsertWellFormed(h, "user-agent", agent);
    InsertWellFormed(Insert(h, "user-agent", agent), "x-sdk-client", agent);
  }

  /** Everything `send` does before the exchange: the default headers, the signed
      parameter list, the signature, the final URL and the method. The time-derived
      `nonce` and `timestamp` are inputs. */
  function Prepare(c: Client, nonce: string, timestamp: string, p: Primitives, agent: string): (r: Result<Outgoing>)
    requires Valid(p)
    ensures r.Ok? <==> IsValue(agent) && IsToken(c.request.verb)
    ensures !r.Panic?
    ensures !IsValue(agent) ==> r == Err(InvalidHeader)
    ensures IsValue(agent) && !IsToken(c.request.verb) ==> r == Err(InvalidRequest(BadMethod))
    ensures r.Ok? ==> r.value.verb == c.request.verb && |r.value.query| == 0 && r.value.body == None
    ensures r.Ok? ==> r.value.headers == WithAgent(c.request.headers, agent).value
    ensures r.Ok? ==> r.value.url == Signed(c, nonce, timestamp, p).url
  {
    match WithAgent(c.request.headers, agent)
    case Err(e) => Err(e)
    case Panic => Panic
    case Ok(headers) =>
      var signed := Signed(c, nonce, timestamp, p);
      match ParseMethod(c.request.verb)
      case Err(e) => Err(e)
      case Panic => Panic
      case Ok(verb) => Ok(Outgoing(verb, signed.url, headers, [], None))
  }

  /** The signature computation of `send`, from the client's fields. */
  function Signed(c: Client, nonce: string, timestamp: string, p: Primitives): (r: RpcSigning.Signed)
    requires Valid(p)
    ensures r.params == Params(c.request.action, c.accessKeyId, nonce, timestamp, c.request.version, c.request.query)
    ensures r.stringToSign == StringToSign(r.sortedQuery)
    ensures r.url == FinalUrl(c.endpoint, Signature(p, c.accessKeySecret, r.sortedQuery), SortedQueryString(r.params))
  {
    SignRequest(p, c.accessKeySecret, c.endpoint, c.request.action, c.accessKeyId, nonce, timestamp,
                c.request.version, c.request.query)
  }

  /** `send`: a failure before the exchange is returned as it is; otherwise the reply is
      classified. */
  function Send(c: Client, nonce: string, timestamp: string, p: Primitives, agent: string, transport: Transport): (r: Result<Reply>)
    requires Valid(p)
    ensures Prepare(c, nonce, timestamp, p, agent).Err? ==> r == Err(Prepare(c, nonce, timestamp, p, agent).error)
    ensures Prepare(c, nonce, timestamp, p, agent).Ok? ==> r == Classify(transport(Prepare(c, nonce, timestamp, p, agent).value))
  {
    match Prepare(c, nonce, timestamp, p, agent)
    case Ok(o) => Classify(transport(o))
    case Err(e) => Err(e)
    case Panic => Panic
  }

  /** The method never enters the signature: requests that differ only in their method
      are sent to the same signed URL, whose string-to-sign starts with `GET`. */
  lemma SignatureIgnoresMethod(c: Client, verb1: string, verb2: string, nonce: string, timestamp: string, p: Primitives, agent: string)
    requires Valid(p)
    requires Prepare(c.(request := c.request.(verb := verb1)), nonce, timestamp, p, agent).Ok?
    requires Prepare(c.(request := c.request.(verb := verb2)), nonce, timestamp, p, agent).Ok?
    ensures Prepare(c.(request := c.request.(verb := verb1)), nonce, timestamp, p, agent).value.url
         == Prepare(c.(request := c.request.(verb := verb2)), nonce, timestamp, p, agent).value.url
    ensures StartsWith(Signed(c.(request := c.request.(verb := verb1)), nonce, timestamp, p).stringToSign, "GET&")
  {
    StringToSignStartsWithGet(Signed(c.(request := c.request.(verb := verb1)), nonce, timestamp, p).sortedQuery);
  }

  /** What the server reads from the URL `send` requests: after the endpoint and `?`, the
      `Signature` parameter followed by exactly the signed parameters, in key order. */
  lemma PreparedUrlReadsBack(c: Client, nonce: string, timestamp: string, p: Primitives, agent: string)
    requires Valid(p)
    requires Prepare(c, nonce, timestamp, p, agent).Ok?
    ensures var url := Prepare(c, nonce, timestamp, p, agent).value.url;
            var s := Signed(c, nonce, timestamp, p);
            StartsWith(url, c.endpoint + "?")
            && ParseQuery(url[|c.endpoint| + 1..])
               == Some([PairBytes(("Signature", Signature(p, c.accessKeySecret, s.sortedQuery)))] + AllPairBytes(s.params))
  {
    var s := Signed(c, nonce, timestamp, p);
    FinalUrlQuery(c.endpoint, Signature(p, c.accessKeySecret, s.sortedQuery), s.params);
  }

  /** A non-success reply whose body is the RPC error envelope becomes `InvalidResponse`
      with the envelope's request id, code and message. */
  lemma ErrorReplyIsInvalidResponse(c: Client, nonce: string, timestamp: string, p: Primitives, agent: string, transport: Transport)
    requires Valid(p)
    requires Prepare(c, nonce, timestamp, p, agent).Ok?
    requires transport(Prepare(c, nonce, timestamp, p, agent).value).Reply?
    requires !IsSuccess(transport(Prepare(c, nonce, timestamp, p, agent).value).status)
    ensures var reply := transport(Prepare(c, nonce, timestamp, p, agent).value);
            reply.envelope.Some? ==>
              Send(c, nonce, timestamp, p, agent, transport)
              == Err(InvalidResponse(reply.envelope.value.requestId, reply.envelope.value.code, reply.envelope.value.message))
    ensures var reply := transport(Prepare(c, nonce, timestamp, p, agent).value);
            reply.envelope.None? ==> Send(c, nonce, timestamp, p, agent, transport) == Err(Transport)
  {
  }
}

=== FILE: rpc_legacy.dfy ===
/** The blocking RPC client of `src/rpc.rs`: a `Client` that holds the API version, the
    `RequestBuilder` it hands out, and the deprecated one-shot `request`. Its errors are
    `anyhow` errors; they are mapped onto the crate's error enum (a method that does not
    parse is `InvalidRequest(BadMethod)`, a failed exchange is `Transport`). */
module RpcLegacy {
  import opened Outcomes
  import opened Strings
  import opened Sorting
  import opened Headers
  import opened Crypto
  import opened RpcSigning
  import opened Wire

  datatype Client = Client(accessKeyId: string, accessKeySecret: string, endpoint: string, version: string)

  datatype Request = Request(action: string, verb: string, query: seq<Pair>)

  /** `RequestBuilder`: the client's credentials, endpoint and version, and one request. */
  datatype Builder = Builder(accessKeyId: string, accessKeySecret: string, endpoint: string, version: string, request: Request)

  /** `RequestBuilder::new`: a request with no query. */
  function NewBuilder(accessKeyId: string, accessKeySecret: string, endpoint: string, version: string, verb: string, action: string): (r: Builder)
    ensures r.accessKeyId == accessKeyId && r.accessKeySecret == accessKeySecret
    ensures r.endpoint == endpoint && r.version == version
    ensures r.request.verb == verb && r.request.action == action && |r.request.query| == 0
  {
    Builder(accessKeyId, accessKeySecret, endpoint, version, Request(action, verb, []))
  }

  /** `Client::execute`: a builder that carries the client's fields. */
  function Execute(c: Client, verb: string, action: string): (r: Builder)
    ensures r.accessKeyId == c.accessKeyId && r.accessKeySecret == c.accessKeySecret
    ensures r.endpoint == c.endpoint && r.version == c.version
    ensures r.request.verb == verb && r.request.action == action && |r.request.query| == 0
  {
    NewBuilder(c.accessKeyId, c.accessKeySecret, c.endpoint, c.version, verb, action)
  }

  /** `Client::get` */
  function Get(c: Client, action: string): (r: Builder)
    ensures r.request.verb == "GET" && r == Execute(c, "GET", action)
  {
    Execute(c, "GET", action)
  }

  /** `Client::post` */
  function Post(c: Client, action: string): (r: Builder)
    ensures r.request.verb == "POST" && r == Execute(c, "POST", action)
  {
    Execute(c, "POST", action)
  }

  /** `RequestBuilder::query`: the pairs are pushed after those already present. */
  function Query(b: Builder, queries: seq<Pair>): (r: Builder)
    ensures |r.request.query| == |b.request.query| + |queries|
    ensures r.request.query[..|b.request.query|] == b.request.query
    ensures r.request.query[|b.request.query|..] == queries
    ensures r.(request := b.request) == b
    ensures r.request.(query := b.request.query) == b.request
  {
    var r := b.(request := b.request.(query := b.request.query + queries));
    assert r.request.query[..|b.request.query|] == b.request.query;
    r
  }

  /** The signature computation of `send`: the version is the client's. */
  function Signed(b: Builder, nonce: string, timestamp: string, p: Primitives): (r: RpcSigning.Signed)
    requires Valid(p)
    ensures r.params == Params(b.request.action, b.accessKeyId, nonce, timestamp, b.version, b.request.query)
    ensures r.stringToSign == StringToSign(r.sortedQuery)
    ensures r.url == FinalUrl(b.endpoint, Signature(p, b.accessKeySecret, r.sortedQuery), SortedQueryString(r.params))
  {
    SignRequest(p, b.accessKeySecret, b.endpoint, b.request.action, b.accessKeyId, nonce, timestamp,
                b.version, b.request.query)
  }

  /** What `send` hands to the HTTP client: the builder's method, the signed URL, no
      headers. */
  function Prepare(b: Builder, nonce: string, timestamp: string, p: Primitives): (r: Result<Outgoing>)
    requires Valid(p)
    ensures r.Ok? <==> IsToken(b.request.verb)
    ensures !r.Ok? ==> r == Err(InvalidRequest(BadMethod))
    ensures r.Ok? ==> r.value == Outgoing(b.request.verb, Signed(b, nonce, timestamp, p).url, Empty, [], None)
  {
    match ParseMethod(b.request.verb)
    case Ok(verb) => Ok(Outgoing(verb, Signed(b, nonce, timestamp, p).url, Empty, [], None))
    case Err(e) => Err(e)
    case Panic => Panic
  }

  /** `send`: the response text, whatever the status; only a failed exchange is an
      error. */
  function Send(b: Builder, nonce: string, timestamp: string, p: Primitives, transport: Transport): (r: Result<string>)
    requires Valid(p)
    ensures r.Ok? <==> Prepare(b, nonce, timestamp, p).Ok? && transport(Prepare(b, nonce, timestamp, p).value).Reply?
    ensures r.Ok? ==> r.value == transport(Prepare(b, nonce, timestamp, p).value).text
    ensures Prepare(b, nonce, timestamp, p).Ok? && !r.Ok? ==> r == Err(Transport)
    ensures !Prepare(b, nonce, timestamp, p).Ok? ==> r == Err(InvalidRequest(BadMethod))
  {
    match Prepare(b, nonce, timestamp, p)
    case Ok(o) =>
      (match transport(o)
       case Reply(_, text, _) => Ok(text)
       case Unreachable => Err(Transport))
    case Err(e) => Err(e)
    case Panic => Panic
  }

  /** The deprecated `Client::request`: a `GET` of the signed URL built from the
      action and the given pairs. */
  function DeprecatedPrepare(c: Client, action: string, queries: seq<Pair>, nonce: string, timestamp: string, p: Primitives): (r: Outgoing)
    requires Valid(p)
    ensures r.verb == "GET" && |r.headers| == 0 && |r.query| == 0 && r.body == None
    ensures r.url == SignRequest(p, c.accessKeySecret, c.endpoint, action, c.accessKeyId, nonce, timestamp, c.version, queries).url
  {
    Outgoing("GET", SignRequest(p, c.accessKeySecret, c.endpoint, action, c.accessKeyId, nonce, timestamp, c.version, queries).url,
             Empty, [], None)
  }

  function DeprecatedRequest(c: Client, action: string, queries: seq<Pair>, nonce: string, timestamp: string, p: Primitives, transport: Transport): (r: Result<string>)
    requires Valid(p)
    ensures r.Ok? <==> transport(DeprecatedPrepare(c, action, queries, nonce, timestamp, p)).Reply?
    ensures r.Ok? ==> r.value == transport(DeprecatedPrepare(c, action, queries, nonce, timestamp, p)).text
    ensures !r.Ok? ==> r == Err(Transport)
  {
    match transport(DeprecatedPrepare(c, action, queries, nonce, timestamp, p))
    case Reply(_, text, _) => Ok(text)
    case Unreachable => Err(Transport)
  }

  /** The deprecated one-shot call and `get(action).query(queries).send()` send the same
      request: the same parameter list, string-to-sign and URL. */
  lemma DeprecatedMatchesBuilder(c: Client, action: string, queries: seq<Pair>, nonce: string, timestamp: string, p: Primitives)
    requires Valid(p)
    ensures var b := Query(Get(c, action), queries);
            Prepare(b, nonce, timestamp, p) == Ok(DeprecatedPrepare(c, action, queries, nonce, timestamp, p))
            && Signed(b, nonce, timestamp, p)
               == SignRequest(p, c.accessKeySecret, c.endpoint, action, c.accessKeyId, nonce, timestamp, c.version, queries)
  {
    var b := Query(Get(c, action), queries);
    assert b.request.query == queries;
    GetIsToken();
  }

  lemma GetIsToken()
    ensures IsToken("GET") && IsToken("POST")
  {
    var g, q := "GET", "POST";
    assert forall i :: 0 <= i < |g| ==> 'A' <= g[i] <= 'Z';
    assert forall i :: 0 <= i < |q| ==> 'A' <= q[i] <= 'Z';
  }

  /** A builder made by `post` signs exactly what the `get` builder signs, string-to-sign
      starting with `GET` included; only the method of the HTTP request differs. */
  lemma PostSignsAsGet(c: Client, action: string, queries: seq<Pair>, nonce: string, timestamp: string, p: Primitives)
    requires Valid(p)
    ensures var post := Prepare(Query(Post(c, action), queries), nonce, timestamp, p);
            var get := Prepare(Query(Get(c, action), queries), nonce, timestamp, p);
            post.Ok? && get.Ok? && post.value.verb == "POST" && post.value == get.value.(verb := "POST")
    ensures StartsWith(Signed(Query(Post(c, action), queries), nonce, timestamp, p).stringToSign, "GET&")
  {
    GetIsToken();
    StringToSignStartsWithGet(Signed(Query(Post(c, action), queries), nonce, timestamp, p).sortedQuery);
  }

  /** Two `query` calls push the pairs of both, in call order. */
  lemma QueryAccumulates(b: Builder, first: seq<Pair>, second: seq<Pair>)
    ensures Query(Query(b, first), second) == Query(b, first + second)
  {
    assert b.request.query + first + second == b.request.query + (first + second);
  }
}

=== FILE: rpc_signing.dfy ===
/** The RPC signature, shared by `src/client/rpc.rs` and `src/rpc.rs`: the signed
    parameter list, the sorted query string, the string-to-sign, the signing key and the
    final URL. Each part comes with the parser a server would apply, and the proofs show
    that the server reads back exactly the parameters the client signed. */
module RpcSigning {
  import opened Strings
  import opened Utf8
  import opened Sorting
  import opened UrlEncoding
  import opened Crypto
  import opened Outcomes
  import opened Codecs

  /** `DEFAULT_PARAM` */
  const DefaultParams: seq<Pair> := [("Format", "JSON"), ("SignatureMethod", "HMAC-SHA1"), ("SignatureVersion", "1.0")]

  /** The parameters in the order they are pushed: the defaults, the five per-request
      parameters, then the caller's query. */
  function Unsorted(action: string, keyId: string, nonce: string, timestamp: string, version: string, query: seq<Pair>): seq<Pair> {
    DefaultParams
    + [("Action", action), ("AccessKeyId", keyId), ("SignatureNonce", nonce), ("Timestamp", timestamp), ("Version", version)]
    + query
  }

  /** `params.sort_by_key(|item| item.0)`: ordered by key, and for every key exactly the
      pairs pushed with that key, in the order they were pushed. */
  function Params(action: string, keyId: string, nonce: string, timestamp: string, version: string, query: seq<Pair>): (r: seq<Pair>)
    ensures SortedByKey(r)
    ensures |r| == 8 + |query|
    ensures multiset(r) == multiset(Unsorted(action, keyId, nonce, timestamp, version, query))
    ensures forall k :: KeyRun(r, k) == KeyRun(Unsorted(action, keyId, nonce, timestamp, version, query), k)
  {
    SortByKey(Unsorted(action, keyId, nonce, timestamp, version, query))
  }

  // ---- the sorted query string ------------------------------------------------

  /** `format!("{}={}", url_encode(k), url_encode(v))` */
  function EncodedPair(p: Pair): string {
    UrlEncode(p.0) + "=" + UrlEncode(p.1)
  }

  function EncodedPairs(ps: seq<Pair>): (r: seq<string>)
    ensures |r| == |ps|
    ensures forall i :: 0 <= i < |ps| ==> r[i] == EncodedPair(ps[i])
  {
    seq(|ps|, i requires 0 <= i < |ps| => EncodedPair(ps[i]))
  }

  /** `params.join("&")` over the encoded pairs. */
  function SortedQueryString(params: seq<Pair>): string {
    Join(EncodedPairs(params), "&")
  }

  /** A parameter as the server sees it: the UTF-8 bytes of its name and value. */
  type BytePair = (seq<byte>, seq<byte>)

  function PairBytes(p: Pair): BytePair {
    (Utf8.Encode(p.0), Utf8.Encode(p.1))
  }

  function AllPairBytes(ps: seq<Pair>): (r: seq<BytePair>)
    ensures |r| == |ps|
    ensures forall i :: 0 <= i < |ps| ==> r[i] == PairBytes(ps[i])
  {
    seq(|ps|, i requires 0 <= i < |ps| => PairBytes(ps[i]))
  }

  /** A server's reading of one `name=value` piece. */
  function DecodePair(piece: string): Option<BytePair> {
    var parts := Split(piece, '=');
    if |parts| != 2 then None
    else match (PercentDecode(parts[0]), PercentDecode(parts[1]))
      case (Some(k), Some(v)) => Some((k, v))
      case _ => None
  }

  function DecodePieces(pieces: seq<string>): Option<seq<BytePair>>
    decreases |pieces|
  {
    if |pieces| == 0 then Some([])
    else match (DecodePair(pieces[0]), DecodePieces(pieces[1..]))
      case (Some(p), Some(rest)) => Some([p] + rest)
      case _ => None
  }

  /** A server's reading of a query string. */
  function ParseQuery(q: string): Option<seq<BytePair>> {
    DecodePieces(Split(q, '&'))
  }

  lemma NotInConcat(a: string, b: string, c: char)
    requires c !in a && c !in b
    ensures c !in a + b
  {
    forall i | 0 <= i < |a + b| ensures (a + b)[i] != c {
      if i >= |a| { assert (a + b)[i] == b[i - |a|]; }
    }
  }

  lemma EncodedPairAvoids(p: Pair, c: char)
    requires c == '&' || c == '='
    ensures c != '=' ==> c !in EncodedPair(p)
    ensures Split(EncodedPair(p), '=') == [UrlEncode(p.0), UrlEncode(p.1)]
  {
    WellEncodedAvoids(UrlEncode(p.0), c);
    WellEncodedAvoids(UrlEncode(p.1), c);
    WellEncodedAvoids(UrlEncode(p.0), '=');
    WellEncodedAvoids(UrlEncode(p.1), '=');
    if c != '=' {
      NotInConcat(UrlEncode(p.0), "=", c);
      NotInConcat(UrlEncode(p.0) + "=", UrlEncode(p.1), c);
    }
    SplitAtSeparator(UrlEncode(p.0), UrlEncode(p.1), '=');
    SplitNoSeparator(UrlEncode(p.0), '=');
    SplitNoSeparator(UrlEncode(p.1), '=');
  }

  lemma DecodeEncodedPair(p: Pair)
    ensures DecodePair(EncodedPair(p)) == Some(PairBytes(p))
  {
    EncodedPairAvoids(p, '=');
    UrlEncodeDecodes(p.0);
    UrlEncodeDecodes(p.1);
  }

  lemma {:induction false} DecodeEncodedPieces(ps: seq<Pair>)
    ensures DecodePieces(EncodedPairs(ps)) == Some(AllPairBytes(ps))
    decreases |ps|
  {
    if |ps| > 0 {
      DecodeEncodedPair(ps[0]);
      PairListsCons(ps);
      DecodeEncodedPieces(ps[1..]);
    }
  }

  /** The encoded pieces and the byte pairs of a non-empty list, head and tail. */
  lemma PairListsCons(ps: seq<Pair>)
    requires |ps| > 0
    ensures EncodedPairs(ps)[0] == EncodedPair(ps[0]) && EncodedPairs(ps)[1..] == EncodedPairs(ps[1..])
    ensures AllPairBytes(ps) == [PairBytes(ps[0])] + AllPairBytes(ps[1..])
  {
    EncodedPairsTail(ps);
    AllPairBytesTail(ps);
  }

  lemma EncodedPairsTail(ps: seq<Pair>)
    requires |ps| > 0
    ensures EncodedPairs(ps)[1..] == EncodedPairs(ps[1..])
  {
    var whole, tail := EncodedPairs(ps), EncodedPairs(ps[1..]);
    forall i | 0 <= i < |tail| ensures whole[1..][i] == tail[i] {
      assert whole[1..][i] == whole[i + 1];
    }
  }

  lemma AllPairBytesTail(ps: seq<Pair>)
    requires |ps| > 0
    ensures AllPairBytes(ps) == [PairBytes(ps[0])] + AllPairBytes(ps[1..])
  {
    var whole, tail := AllPairBytes(ps), AllPairBytes(ps[1..]);
    forall i | 0 <= i < |tail| ensures whole[1..][i] == tail[i] {
      assert whole[1..][i] == whole[i + 1];
    }
    assert whole[1..] == tail;
    assert whole == [whole[0]] + whole[1..];
  }

  /** The server reads back from the sorted query string exactly the signed parameters,
      in order, as UTF-8 bytes: nothing is lost or merged by the encoding. */
  lemma QueryRoundTrip(params: seq<Pair>)
    requires |params| > 0
    ensures ParseQuery(SortedQueryString(params)) == Some(AllPairBytes(params))
  {
    var pieces := EncodedPairs(params);
    forall i | 0 <= i < |pieces| ensures '&' !in pieces[i] {
      EncodedPairAvoids(params[i], '&');
    }
    SplitJoin(pieces, '&');
    DecodeEncodedPieces(params);
  }

  /** With distinct keys the order of the caller's query does not change the sorted
      query string. */
  lemma QueryIgnoresOrder(action: string, keyId: string, nonce: string, timestamp: string, version: string, a: seq<Pair>, b: seq<Pair>)
    requires DistinctKeys(Unsorted(action, keyId, nonce, timestamp, version, a))
    requires multiset(a) == multiset(b)
    ensures DistinctKeys(Unsorted(action, keyId, nonce, timestamp, version, b))
    ensures SortedQueryString(Params(action, keyId, nonce, timestamp, version, a))
         == SortedQueryString(Params(action, keyId, nonce, timestamp, version, b))
  {
    var ua := Unsorted(action, keyId, nonce, timestamp, version, a);
    var ub := Unsorted(action, keyId, nonce, timestamp, version, b);
    var fixed := Unsorted(action, keyId, nonce, timestamp, version, []);
    assert ua == fixed + a && ub == fixed + b;
    assert multiset(ua) == multiset(ub);
    DistinctKeysByMultiset(ua, ub);
    SortIgnoresOrder(ua, ub);
  }

  // ---- string-to-sign, key, final URL ------------------------------------------

  /** `format!("GET&{}&{}", url_encode("/"), url_encode(&sorted_query_string))`: the
      method part is always the literal `GET`. */
  function StringToSign(sortedQuery: string): string {
    "GET&" + UrlEncode("/") + "&" + UrlEncode(sortedQuery)
  }

  /** The server splits the string-to-sign into its three fields and decodes the third
      back to the sorted query string. */
  lemma StringToSignFields(sortedQuery: string)
    ensures Split(StringToSign(sortedQuery), '&') == ["GET", "%2F", UrlEncode(sortedQuery)]
    ensures PercentDecode(Split(StringToSign(sortedQuery), '&')[2]) == Some(Utf8.Encode(sortedQuery))
  {
    var q := UrlEncode(sortedQuery);
    WellEncodedAvoids(q, '&');
    StringToSignJoins(sortedQuery);
    SplitThree("GET", "%2F", q, '&');
    UrlEncodeDecodes(sortedQuery);
  }

  lemma SplitThree(a: string, b: string, q: string, c: char)
    requires c !in a && c !in b && c !in q
    ensures Split(Join([a, b, q], [c]), c) == [a, b, q]
  {
    SplitJoin([a, b, q], c);
  }

  /** The string-to-sign is its three fields joined by `&`. */
  lemma StringToSignJoins(sortedQuery: string)
    ensures Join(["GET", "%2F", UrlEncode(sortedQuery)], "&") == StringToSign(sortedQuery)
  {
    var q := UrlEncode(sortedQuery);
    JoinThree("GET", "%2F", q, "&");
    UrlEncodeSlash();
    PrefixRegroup("GET&", UrlEncode("/"), "&", q);
    assert "GET" + "&" == "GET&";
  }

  /** The method field of the string-to-sign is `GET` whatever the request's method. */
  lemma StringToSignStartsWithGet(sortedQuery: string)
    ensures StartsWith(StringToSign(sortedQuery), "GET&")
  {
    var rest := UrlEncode("/") + "&" + UrlEncode(sortedQuery);
    PrefixRegroup("GET&", UrlEncode("/"), "&", UrlEncode(sortedQuery));
    assert StringToSign(sortedQuery) == "GET&" + rest;
    assert ("GET&" + rest)[..4] == "GET&";
  }

  lemma PrefixRegroup(a: string, b: string, c: string, d: string)
    ensures a + b + c + d == a + (b + c + d)
  {
  }

  /** `format!("{}&", access_key_secret)` */
  function SigningKey(secret: string): (r: string)
    ensures |r| == |secret| + 1 && StartsWith(r, secret) && r[|secret|] == '&'
  {
    var r := secret + "&";
    assert r[..|secret|] == secret;
    r
  }

  /** `sign(key, string_to_sign)` with the RPC key: base64 of the HMAC-SHA1 tag. */
  function Signature(p: Primitives, secret: string, sortedQuery: string): (r: string)
    requires Valid(p)
    ensures Base64Decode(r) == Some(p.hmacSha1(Utf8.Encode(secret) + [0x26], Utf8.Encode(StringToSign(sortedQuery))))
  {
    EncodeAppend(secret, "&");
    assert Utf8.Encode("&") == [0x26];
    Sign(p, SigningKey(secret), StringToSign(sortedQuery))
  }

  /** `format!("{}?Signature={}&{}", endpoint, signature, sorted_query_string)` */
  function FinalUrl(endpoint: string, signature: string, sortedQuery: string): string {
    endpoint + "?Signature=" + UrlEncode(signature) + "&" + sortedQuery
  }

  /** After the endpoint and `?`, the server reads `Signature` first and then exactly the
      signed parameters. */
  lemma FinalUrlQuery(endpoint: string, signature: string, params: seq<Pair>)
    requires |params| > 0
    ensures var url := FinalUrl(endpoint, signature, SortedQueryString(params));
            StartsWith(url, endpoint + "?")
            && ParseQuery(url[|endpoint| + 1..]) == Some([PairBytes(("Signature", signature))] + AllPairBytes(params))
  {
    var sq := SortedQueryString(params);
    var url := FinalUrl(endpoint, signature, sq);
    var query := EncodedPair(("Signature", signature)) + "&" + sq;
    FinalUrlShape(endpoint, signature, sq);
    assert url[|endpoint| + 1..] == query;
    assert url[..|endpoint| + 1] == endpoint + "?";
    SignatureFirst(signature, params);
  }

  /** The final URL is the endpoint, `?`, the encoded `Signature` pair, `&` and the sorted
      query string. */
  lemma FinalUrlShape(endpoint: string, signature: string, sq: string)
    ensures FinalUrl(endpoint, signature, sq) == (endpoint + "?") + (EncodedPair(("Signature", signature)) + "&" + sq)
  {
    SignatureNameUnreserved();
    var e := UrlEncode(signature);
    SignatureLiteral();
    assert EncodedPair(("Signature", signature)) == "Signature" + "=" + e;
    Regroup(endpoint, "?", "Signature", "=", e, "&", sq);
  }

  /** A query string that puts one more encoded pair in front of the sorted ones. */
  lemma SignatureFirst(signature: string, params: seq<Pair>)
    requires |params| > 0
    ensures ParseQuery(EncodedPair(("Signature", signature)) + "&" + SortedQueryString(params))
         == Some([PairBytes(("Signature", signature))] + AllPairBytes(params))
  {
    var first := EncodedPair(("Signature", signature));
    EncodedPairAvoids(("Signature", signature), '&');
    SplitBehindFirst(first, params);
    DecodeBehindFirst(("Signature", signature), params);
  }

  /** The pieces of `first & <sorted query>`: `first`, then the encoded pairs. */
  lemma SplitBehindFirst(first: string, params: seq<Pair>)
    requires |params| > 0 && '&' !in first
    ensures Split(first + "&" + SortedQueryString(params), '&') == [first] + EncodedPairs(params)
  {
    var pieces := EncodedPairs(params);
    SplitAtSeparator(first, SortedQueryString(params), '&');
    SplitNoSeparator(first, '&');
    forall i | 0 <= i < |pieces| ensures '&' !in pieces[i] {
      EncodedPairAvoids(params[i], '&');
    }
    SplitJoin(pieces, '&');
  }

  /** One more encoded pair in front decodes to one more byte pair in front. */
  lemma DecodeBehindFirst(p: Pair, params: seq<Pair>)
    ensures DecodePieces([EncodedPair(p)] + EncodedPairs(params)) == Some([PairBytes(p)] + AllPairBytes(params))
  {
    DecodeEncodedPair(p);
    DecodeEncodedPieces(params);
    assert ([EncodedPair(p)] + EncodedPairs(params))[1..] == EncodedPairs(params);
  }

  lemma SignatureNameUnreserved()
    ensures UrlEncode("Signature") == "Signature"
  {
    var s := "Signature";
    assert forall i :: 0 <= i < |s| ==> 'a' <= s[i] <= 'z' || s[i] == 'S';
    UrlEncodeUnreserved(s);
  }

  lemma SignatureLiteral()
    ensures "?Signature=" == "?" + "Signature" + "="
  {
  }

  lemma Regroup(a: string, q: string, n: string, eq: string, e: string, amp: string, rest: string)
    ensures a + (q + n + eq) + e + amp + rest == (a + q) + ((n + eq + e) + amp + rest)
  {
  }

  /** Everything the RPC dialect computes before sending. */
  datatype Signed = Signed(params: seq<Pair>, sortedQuery: string, stringToSign: string, signature: string, url: string)

  /** The steps of `send` from the parameter list to the final URL. What a server reads
      back at each step is stated alongside: the parameters from the query string, the
      query string from the string-to-sign, the MAC from the signature, and `Signature`
      followed by the parameters from the URL. */
  function SignRequest(p: Primitives, secret: string, endpoint: string, action: string, keyId: string, nonce: string,
                       timestamp: string, version: string, query: seq<Pair>): (r: Signed)
    requires Valid(p)
    ensures r.params == Params(action, keyId, nonce, timestamp, version, query)
    ensures r.sortedQuery == SortedQueryString(r.params)
    ensures r.stringToSign == StringToSign(r.sortedQuery)
    ensures r.signature == Signature(p, secret, r.sortedQuery)
    ensures r.url == FinalUrl(endpoint, r.signature, r.sortedQuery)
    ensures ParseQuery(r.sortedQuery) == Some(AllPairBytes(r.params))
    ensures Split(r.stringToSign, '&') == ["GET", "%2F", UrlEncode(r.sortedQuery)]
    ensures Base64Decode(r.signature) == Some(p.hmacSha1(Utf8.Encode(secret) + [0x26], Utf8.Encode(r.stringToSign)))
    ensures StartsWith(r.url, endpoint + "?")
    ensures ParseQuery(r.url[|endpoint| + 1..]) == Some([PairBytes(("Signature", r.signature))] + AllPairBytes(r.params))
  {
    var params := Params(action, keyId, nonce, timestamp, version, query);
    var sq := SortedQueryString(params);
    var sig := Signature(p, secret, sq);
    QueryRoundTrip(params);
    StringToSignFields(sq);
    FinalUrlQuery(endpoint, sig, params);
    Signed(params, sq, StringToSign(sq), sig, FinalUrl(endpoint, sig, sq))
  }
}

=== FILE: sorting.dfy ===
/** The stable sort by key that every dialect applies to its `(key, value)` pairs
    (`sort_by_key(|item| item.0)` and `sort_by(|a, b| a.0.cmp(&b.0))`, both stable in
    Rust), as an insertion sort over sequences, with its characterisation: the result is
    ordered by key and, for every key, holds exactly the input's pairs with that key in
    their input order. */
module Sorting {
  import opened Strings

  type Pair = (string, string)

  predicate SortedByKey(s: seq<Pair>) {
    forall i, j :: 0 <= i < j < |s| ==> LexLe(s[i].0, s[j].0)
  }

  predicate DistinctKeys(s: seq<Pair>) {
    forall i, j :: 0 <= i < j < |s| ==> s[i].0 != s[j].0
  }

  /** The pairs of `s` whose key is `k`, in their order in `s`. */
  function KeyRun(s: seq<Pair>, k: string): seq<Pair>
    decreases |s|
  {
    if |s| == 0 then [] else (if s[0].0 == k then [s[0]] else []) + KeyRun(s[1..], k)
  }

  lemma {:induction false} KeyRunAppend(a: seq<Pair>, b: seq<Pair>, k: string)
    ensures KeyRun(a + b, k) == KeyRun(a, k) + KeyRun(b, k)
    decreases |a|
  {
    if |a| == 0 {
      assert a + b == b;
    } else {
      var head := if a[0].0 == k then [a[0]] else [];
      assert (a + b)[0] == a[0];
      assert (a + b)[1..] == a[1..] + b;
      KeyRunAppend(a[1..], b, k);
      assert KeyRun(a + b, k) == head + (KeyRun(a[1..], k) + KeyRun(b, k));
      assert KeyRun(a, k) == head + KeyRun(a[1..], k);
    }
  }

  /** A run is empty exactly when no pair carries the key. */
  lemma {:induction false} KeyRunEmpty(s: seq<Pair>, k: string)
    ensures KeyRun(s, k) == [] <==> forall i :: 0 <= i < |s| ==> s[i].0 != k
    decreases |s|
  {
    if |s| > 0 {
      KeyRunEmpty(s[1..], k);
      assert forall i :: 1 <= i < |s| ==> s[i] == s[1..][i - 1];
    }
  }

  /** With distinct keys, the run of a key that occurs is that single pair. */
  lemma {:induction false} KeyRunSingle(s: seq<Pair>, i: nat)
    requires DistinctKeys(s) && i < |s|
    ensures KeyRun(s, s[i].0) == [s[i]]
    decreases |s|
  {
    var k := s[i].0;
    if i == 0 {
      assert forall j :: 0 <= j < |s[1..]| ==> s[1..][j].0 != k by {
        forall j | 0 <= j < |s[1..]| ensures s[1..][j].0 != k { assert s[1..][j] == s[j + 1]; }
      }
      KeyRunEmpty(s[1..], k);
    } else {
      assert DistinctKeys(s[1..]) by {
        forall a, b | 0 <= a < b < |s[1..]| ensures s[1..][a].0 != s[1..][b].0 {
          assert s[1..][a] == s[a + 1] && s[1..][b] == s[b + 1];
        }
      }
      assert s[1..][i - 1] == s[i];
      KeyRunSingle(s[1..], i - 1);
    }
  }

  /** Inserts `x` in front of the first pair whose key is not smaller, so that it
      follows every pair with a smaller key. */
  function InsertByKey(x: Pair, s: seq<Pair>): (r: seq<Pair>)
    requires SortedByKey(s)
    ensures SortedByKey(r)
    ensures |r| == |s| + 1
    ensures forall y :: y in r <==> y == x || y in s
    ensures multiset(r) == multiset(s) + multiset{x}
    ensures forall k :: KeyRun(r, k) == (if x.0 == k then [x] else []) + KeyRun(s, k)
    decreases |s|
  {
    if |s| == 0 then [x]
    else if LexLe(x.0, s[0].0) then
      InsertFrontLemma(x, s);
      [x] + s
    else
      var t := InsertByKey(x, s[1..]);
      InsertLaterLemma(x, s, t);
      assert s == [s[0]] + s[1..];
      [s[0]] + t
  }

  lemma InsertFrontLemma(x: Pair, s: seq<Pair>)
    requires SortedByKey(s) && |s| > 0 && LexLe(x.0, s[0].0)
    ensures SortedByKey([x] + s)
    ensures forall k :: KeyRun([x] + s, k) == (if x.0 == k then [x] else []) + KeyRun(s, k)
  {
    var r := [x] + s;
    assert r[1..] == s;
    forall i, j | 0 <= i < j < |r| ensures LexLe(r[i].0, r[j].0) {
      if i == 0 {
        if j > 1 { LexLeTransitive(x.0, s[0].0, s[j - 1].0); }
      } else {
        assert r[i] == s[i - 1] && r[j] == s[j - 1];
      }
    }
  }

  lemma InsertLaterLemma(x: Pair, s: seq<Pair>, t: seq<Pair>)
    requires SortedByKey(s) && |s| > 0 && !LexLe(x.0, s[0].0)
    requires SortedByKey(t)
    requires forall y :: y in t <==> y == x || y in s[1..]
    requires forall k :: KeyRun(t, k) == (if x.0 == k then [x] else []) + KeyRun(s[1..], k)
    ensures SortedByKey([s[0]] + t)
    ensures forall k :: KeyRun([s[0]] + t, k) == (if x.0 == k then [x] else []) + KeyRun(s, k)
  {
    var r := [s[0]] + t;
    assert r[1..] == t;
    LexLeTotal(x.0, s[0].0);
    LexLeReflexive(x.0);
    assert x.0 != s[0].0;
    forall i, j | 0 <= i < j < |r| ensures LexLe(r[i].0, r[j].0) {
      if i == 0 {
        var y := r[j];
        assert y == t[j - 1] && y in t;
        if y != x {
          var m :| 0 <= m < |s[1..]| && s[1..][m] == y;
          assert s[m + 1] == y;
        }
      } else {
        assert r[i] == t[i - 1] && r[j] == t[j - 1];
      }
    }
  }

  /** `sort_by_key(|item| item.0)`: a stable insertion sort. */
  function SortByKey(s: seq<Pair>): (r: seq<Pair>)
    ensures SortedByKey(r)
    ensures |r| == |s|
    ensures multiset(r) == multiset(s)
    ensures forall k :: KeyRun(r, k) == KeyRun(s, k)
    decreases |s|
  {
    if |s| == 0 then []
    else
      var r := InsertByKey(s[0], SortByKey(s[1..]));
      assert s == [s[0]] + s[1..];
      r
  }

  /** The smallest key of a sorted sequence is its first. */
  lemma SortedHeadSmallest(s: seq<Pair>, i: nat)
    requires SortedByKey(s) && i < |s|
    ensures LexLe(s[0].0, s[i].0)
  {
    if i == 0 { LexLeReflexive(s[0].0); }
  }

  /** Two key-sorted sequences with the same run for every key are equal: the runs
      determine the sorted order. */
  lemma {:induction false} SortedUnique(a: seq<Pair>, b: seq<Pair>)
    requires SortedByKey(a) && SortedByKey(b)
    requires forall k :: KeyRun(a, k) == KeyRun(b, k)
    ensures a == b
    decreases |a| + |b|
  {
    if |a| == 0 {
      return;
    }
    var k0 := a[0].0;
    assert KeyRun(a, k0) != [];
    KeyRunEmpty(b, k0);
    var j :| 0 <= j < |b| && b[j].0 == k0;
    var k1 := b[0].0;
    assert KeyRun(b, k1) != [];
    KeyRunEmpty(a, k1);
    var i :| 0 <= i < |a| && a[i].0 == k1;
    SortedHeadSmallest(a, i);
    SortedHeadSmallest(b, j);
    LexLeAntisymmetric(k0, k1);
    assert a[0] == b[0] by {
      assert KeyRun(a, k0) == [a[0]] + KeyRun(a[1..], k0);
      assert KeyRun(b, k0) == [b[0]] + KeyRun(b[1..], k0);
    }
    forall k ensures KeyRun(a[1..], k) == KeyRun(b[1..], k) {
      var head := if k0 == k then [a[0]] else [];
      assert KeyRun(a, k) == head + KeyRun(a[1..], k);
      assert KeyRun(b, k) == head + KeyRun(b[1..], k);
      assert KeyRun(a[1..], k) == KeyRun(a, k)[|head|..];
      assert KeyRun(b[1..], k) == KeyRun(b, k)[|head|..];
    }
    assert SortedByKey(a[1..]) by {
      forall p, q | 0 <= p < q < |a[1..]| ensures LexLe(a[1..][p].0, a[1..][q].0) {
        assert a[1..][p] == a[p + 1] && a[1..][q] == a[q + 1];
      }
    }
    assert SortedByKey(b[1..]) by {
      forall p, q | 0 <= p < q < |b[1..]| ensures LexLe(b[1..][p].0, b[1..][q].0) {
        assert b[1..][p] == b[p + 1] && b[1..][q] == b[q + 1];
      }
    }
    SortedUnique(a[1..], b[1..]);
    assert a == [a[0]] + a[1..] && b == [b[0]] + b[1..];
  }

  /** The sorted result depends only on the per-key runs of the input: reordering
      pairs with different keys does not change it. */
  lemma SortDependsOnlyOnRuns(a: seq<Pair>, b: seq<Pair>)
    requires forall k :: KeyRun(a, k) == KeyRun(b, k)
    ensures SortByKey(a) == SortByKey(b)
  {
    SortedUnique(SortByKey(a), SortByKey(b));
  }

  /** With distinct keys, any two orderings of the same pairs sort to the same
      sequence. */
  lemma SortIgnoresOrder(a: seq<Pair>, b: seq<Pair>)
    requires DistinctKeys(a) && DistinctKeys(b)
    requires multiset(a) == multiset(b)
    ensures SortByKey(a) == SortByKey(b)
  {
    forall k ensures KeyRun(a, k) == KeyRun(b, k) {
      DistinctRunsAgree(a, b, k);
    }
    SortDependsOnlyOnRuns(a, b);
  }

  lemma DistinctRunsAgree(a: seq<Pair>, b: seq<Pair>, k: string)
    requires DistinctKeys(a) && DistinctKeys(b)
    requires multiset(a) == multiset(b)
    ensures KeyRun(a, k) == KeyRun(b, k)
  {
    KeyRunEmpty(a, k);
    KeyRunEmpty(b, k);
    if i :| 0 <= i < |a| && a[i].0 == k {
      assert a[i] in multiset(b);
      var j :| 0 <= j < |b| && b[j] == a[i];
      KeyRunSingle(a, i);
      KeyRunSingle(b, j);
    } else {
      forall j | 0 <= j < |b| ensures b[j].0 != k {
        assert b[j] in multiset(a);
      }
    }
  }

  /** Keys that strictly ascend from each pair to the next are sorted and distinct. */
  lemma {:induction false} StrictlyAscending(s: seq<Pair>)
    requires forall i :: 0 <= i < |s| - 1 ==> LexLe(s[i].0, s[i + 1].0) && s[i].0 != s[i + 1].0
    ensures SortedByKey(s) && DistinctKeys(s)
    decreases |s|
  {
    if |s| > 1 {
      var t := s[1..];
      forall i | 0 <= i < |t| ensures t[i] == s[i + 1] { }
      StrictlyAscending(t);
      LexLeIsTotalOrder();
      forall j | 1 <= j < |s| ensures LexLe(s[0].0, s[j].0) && s[0].0 != s[j].0 {
        assert s[j] == t[j - 1] && s[1] == t[0];
        if j > 1 {
          assert LexLe(s[1].0, s[j].0) && s[1].0 != s[j].0;
        }
      }
      forall i, j | 0 <= i < j < |s| ensures LexLe(s[i].0, s[j].0) && s[i].0 != s[j].0 {
        if i > 0 {
          assert s[i] == t[i - 1] && s[j] == t[j - 1];
        }
      }
    }
  }

  /** Having distinct keys is a property of the multiset of pairs. */
  lemma DistinctKeysByMultiset(a: seq<Pair>, b: seq<Pair>)
    requires DistinctKeys(a) && multiset(a) == multiset(b)
    ensures DistinctKeys(b)
  {
    forall i, j | 0 <= i < j < |b| ensures b[i].0 != b[j].0 {
      assert b[i] in multiset(a) && b[j] in multiset(a);
      var x :| 0 <= x < |a| && a[x] == b[i];
      var y :| 0 <= y < |a| && a[y] == b[j];
      if x == y {
        OneOccurrence(a, x);
        AtLeastTwo(b, i, j);
      }
    }
  }

  /** Two equal pairs at different positions. */
  lemma AtLeastTwo(s: seq<Pair>, i: nat, j: nat)
    requires i < j < |s|
    ensures s[i] == s[j] ==> multiset(s)[s[i]] >= 2
  {
    assert s == s[..i] + [s[i]] + s[i + 1..j] + [s[j]] + s[j + 1..];
  }

  /** With distinct keys every pair occurs once. */
  lemma OneOccurrence(s: seq<Pair>, x: nat)
    requires DistinctKeys(s) && x < |s|
    ensures multiset(s)[s[x]] == 1
  {
    var before, after := s[..x], s[x + 1..];
    assert s == before + [s[x]] + after;
    assert s[x] !in multiset(before) by {
      forall i | 0 <= i < |before| ensures before[i] != s[x] { assert before[i] == s[i]; }
    }
    assert s[x] !in multiset(after) by {
      forall i | 0 <= i < |after| ensures after[i] != s[x] { assert after[i] == s[x + 1 + i]; }
    }
  }
}

=== FILE: strings.dfy ===
/** String operations the signing engine builds on: prefix tests, `join`/`split` on a
    separator, `str::replace`, the byte-wise order of `Ord for str`, ASCII case mapping
    and the decimal rendering of `usize::to_string`. Strings are `seq<char>`; since
    UTF-8 preserves code-point order, comparing chars is comparing the UTF-8 bytes. */
module Strings {

  predicate StartsWith(s: string, prefix: string) {
    |prefix| <= |s| && s[..|prefix|] == prefix
  }

  /** `parts.join(sep)` */
  function Join(parts: seq<string>, sep: string): string
    decreases |parts|
  {
    if |parts| == 0 then ""
    else if |parts| == 1 then parts[0]
    else parts[0] + sep + Join(parts[1..], sep)
  }

  /** Two parts joined: the first, the separator, the second. */
  lemma JoinPair(a: string, b: string, sep: string)
    ensures Join([a, b], sep) == a + sep + b
  {
    assert [a, b][1..] == [b];
  }

  /** Three parts joined: each separated from the next by the separator. */
  lemma JoinThree(a: string, b: string, c: string, sep: string)
    ensures Join([a, b, c], sep) == a + sep + (b + sep + c)
  {
    assert [a, b, c][1..] == [b, c];
    JoinPair(b, c, sep);
  }

  /** The first five of seven fields. */
  lemma TakeFive(a: string, b: string, c: string, d: string, e: string, x: string, y: string)
    ensures [a, b, c, d, e, x, y][..5] == [a, b, c, d, e]
  {
  }

  /** The first four of six fields. */
  lemma TakeFour(a: string, b: string, c: string, d: string, x: string, y: string)
    ensures [a, b, c, d, x, y][..4] == [a, b, c, d]
  {
  }

  /** `s.split(c)`: the pieces between occurrences of `c`; never empty. */
  function Split(s: string, c: char): (r: seq<string>)
    ensures |r| > 0
    decreases |s|
  {
    if |s| == 0 then [""]
    else
      var rest := Split(s[1..], c);
      if s[0] == c then [""] + rest
      else [[s[0]] + rest[0]] + rest[1..]
  }

  /** A string without the separator is a single piece. */
  lemma {:induction false} SplitNoSeparator(s: string, c: char)
    requires c !in s
    ensures Split(s, c) == [s]
    decreases |s|
  {
    if |s| > 0 {
      assert c !in s[1..] by {
        forall i | 0 <= i < |s[1..]| ensures s[1..][i] != c { assert s[1..][i] == s[i + 1]; }
      }
      SplitNoSeparator(s[1..], c);
      assert [s[0]] + s[1..] == s;
    }
  }

  /** Splitting distributes over a separator: the pieces of `a c b` are those of `a`
      followed by those of `b`. */
  lemma {:induction false} SplitAtSeparator(a: string, b: string, c: char)
    ensures Split(a + [c] + b, c) == Split(a, c) + Split(b, c)
    decreases |a|
  {
    var s := a + [c] + b;
    if |a| == 0 {
      assert s == [c] + b;
      assert s[1..] == b;
    } else {
      assert s[1..] == a[1..] + [c] + b;
      SplitAtSeparator(a[1..], b, c);
    }
  }

  /** `split` undoes `join` when no piece contains the separator. */
  lemma {:induction false} SplitJoin(parts: seq<string>, c: char)
    requires |parts| > 0
    requires forall i :: 0 <= i < |parts| ==> c !in parts[i]
    ensures Split(Join(parts, [c]), c) == parts
    decreases |parts|
  {
    if |parts| == 1 {
      SplitNoSeparator(parts[0], c);
    } else {
      SplitAtSeparator(parts[0], Join(parts[1..], [c]), c);
      SplitNoSeparator(parts[0], c);
      SplitJoin(parts[1..], c);
      assert [parts[0]] + parts[1..] == parts;
    }
  }

  /** The pieces of a join are the pieces of its first part followed by those of the
      rest. */
  lemma SplitJoinHead(parts: seq<string>, c: char)
    requires |parts| > 1
    ensures Split(Join(parts, [c]), c) == Split(parts[0], c) + Split(Join(parts[1..], [c]), c)
  {
    SplitAtSeparator(parts[0], Join(parts[1..], [c]), c);
  }

  /** The first `n` parts of a join come back as they are when none of them holds the
      separator; the rest is the split of the remaining join. */
  lemma {:induction false} SplitJoinPrefix(parts: seq<string>, c: char, n: nat)
    requires n < |parts|
    requires forall i :: 0 <= i < n ==> c !in parts[i]
    ensures Split(Join(parts, [c]), c) == parts[..n] + Split(Join(parts[n..], [c]), c)
    decreases n
  {
    if n > 0 {
      var rest := parts[1..];
      assert forall i :: 0 <= i < n - 1 ==> rest[i] == parts[i + 1];
      assert rest[n - 1..] == parts[n..];
      SplitJoinPrefix(rest, c, n - 1);
      assert c !in parts[0];
      SplitNoSeparator(parts[0], c);
      SplitJoinHead(parts, c);
      assert parts[..n] == [parts[0]] + rest[..n - 1];
      ConsPrefix(Split(Join(parts, [c]), c), parts[0], Split(Join(rest, [c]), c), rest[..n - 1],
                 Split(Join(parts[n..], [c]), c));
    }
  }

  lemma ConsPrefix(whole: seq<string>, first: string, rest: seq<string>, prefix: seq<string>, tail: seq<string>)
    requires whole == [first] + rest
    requires rest == prefix + tail
    ensures whole == ([first] + prefix) + tail
  {
  }

  /** `join` undoes `split`. */
  lemma {:induction false} JoinSplit(s: string, c: char)
    ensures Join(Split(s, c), [c]) == s
    decreases |s|
  {
    if |s| > 0 {
      var rest := Split(s[1..], c);
      JoinSplit(s[1..], c);
      if s[0] == c {
        assert Split(s, c) == [""] + rest;
        assert ([""] + rest)[1..] == rest;
        assert s == [c] + s[1..];
      } else {
        var parts := Split(s, c);
        assert parts == [[s[0]] + rest[0]] + rest[1..];
        if |rest| == 1 {
          assert s == [s[0]] + s[1..];
        } else {
          assert parts[1..] == rest[1..];
          assert Join(rest, [c]) == rest[0] + [c] + Join(rest[1..], [c]);
          assert s == [s[0]] + s[1..];
        }
      }
    }
  }

  /** A character occurs in a join only if it is the separator or occurs in a piece. */
  lemma {:induction false} JoinChars(parts: seq<string>, sep: char, x: char)
    requires x != sep
    requires forall i :: 0 <= i < |parts| ==> x !in parts[i]
    ensures x !in Join(parts, [sep])
    decreases |parts|
  {
    if |parts| > 1 {
      JoinChars(parts[1..], sep, x);
    }
  }

  /** `s.replace(pat, rep)`: every non-overlapping occurrence of `pat`, scanning left to
      right, is replaced by `rep`. */
  function Replace(s: string, pat: string, rep: string): string
    requires |pat| > 0
    decreases |s|
  {
    if |s| < |pat| then s
    else if s[..|pat|] == pat then rep + Replace(s[|pat|..], pat, rep)
    else [s[0]] + Replace(s[1..], pat, rep)
  }

  /** A leading character that cannot start the pattern is copied unchanged. */
  lemma ReplaceSkip(c: char, rest: string, pat: string, rep: string)
    requires |pat| > 0 && c != pat[0]
    ensures Replace([c] + rest, pat, rep) == [c] + Replace(rest, pat, rep)
  {
    var s := [c] + rest;
    assert s[1..] == rest;
    if |s| < |pat| {
      assert |rest| < |pat|;
    } else {
      assert s[..|pat|][0] == c;
    }
  }

  /** A leading occurrence of the pattern is replaced. */
  lemma ReplaceHit(pat: string, rest: string, rep: string)
    requires |pat| > 0
    ensures Replace(pat + rest, pat, rep) == rep + Replace(rest, pat, rep)
  {
    var s := pat + rest;
    assert s[..|pat|] == pat;
    assert s[|pat|..] == rest;
  }

  /** The order `Ord for str` uses: lexicographic, a proper prefix first. */
  predicate LexLe(a: string, b: string)
    decreases |a|
  {
    |a| == 0 || (|b| > 0 && (a[0] < b[0] || (a[0] == b[0] && LexLe(a[1..], b[1..]))))
  }

  lemma {:induction false} LexLeReflexive(a: string)
    ensures LexLe(a, a)
    decreases |a|
  {
    if |a| > 0 { LexLeReflexive(a[1..]); }
  }

  lemma {:induction false} LexLeTotal(a: string, b: string)
    ensures LexLe(a, b) || LexLe(b, a)
    decreases |a|
  {
    if |a| > 0 && |b| > 0 && a[0] == b[0] { LexLeTotal(a[1..], b[1..]); }
  }

  lemma {:induction false} LexLeAntisymmetric(a: string, b: string)
    requires LexLe(a, b) && LexLe(b, a)
    ensures a == b
    decreases |a|
  {
    if |a| > 0 {
      LexLeAntisymmetric(a[1..], b[1..]);
      assert a == [a[0]] + a[1..] && b == [b[0]] + b[1..];
    }
  }

  lemma {:induction false} LexLeTransitive(a: string, b: string, c: string)
    requires LexLe(a, b) && LexLe(b, c)
    ensures LexLe(a, c)
    decreases |a|
  {
    if |a| > 0 && a[0] == b[0] && b[0] == c[0] { LexLeTransitive(a[1..], b[1..], c[1..]); }
  }

  /** Strings that agree up to position `n` and differ there are ordered by the
      characters at `n`. */
  lemma {:induction false} LexLeAt(a: string, b: string, n: nat)
    requires n < |a| && n < |b| && a[n] < b[n]
    requires forall i :: 0 <= i < n ==> a[i] == b[i]
    ensures LexLe(a, b) && a != b
    decreases n
  {
    if n > 0 {
      LexLeAt(a[1..], b[1..], n - 1);
    }
  }

  lemma LexLeIsTotalOrder()
    ensures forall a :: LexLe(a, a)
    ensures forall a, b :: LexLe(a, b) || LexLe(b, a)
    ensures forall a, b :: LexLe(a, b) && LexLe(b, a) ==> a == b
    ensures forall a, b, c :: LexLe(a, b) && LexLe(b, c) ==> LexLe(a, c)
  {
    forall a ensures LexLe(a, a) { LexLeReflexive(a); }
    forall a, b ensures LexLe(a, b) || LexLe(b, a) { LexLeTotal(a, b); }
    forall a, b | LexLe(a, b) && LexLe(b, a) ensures a == b { LexLeAntisymmetric(a, b); }
    forall a, b, c | LexLe(a, b) && LexLe(b, c) ensures LexLe(a, c) { LexLeTransitive(a, b, c); }
  }

  /** ASCII case mapping. Header names and HTTP methods that reach the wire are ASCII
      tokens, on which this agrees with Rust's Unicode `to_lowercase`/`to_uppercase`. */
  function LowerChar(c: char): char {
    if 'A' <= c <= 'Z' then (c as int + 32) as char else c
  }

  function UpperChar(c: char): char {
    if 'a' <= c <= 'z' then (c as int - 32) as char else c
  }

  function AsciiLower(s: string): (r: string)
    ensures |r| == |s|
    ensures forall i :: 0 <= i < |s| ==> r[i] == LowerChar(s[i])
  {
    seq(|s|, i requires 0 <= i < |s| => LowerChar(s[i]))
  }

  function AsciiUpper(s: string): (r: string)
    ensures |r| == |s|
    ensures forall i :: 0 <= i < |s| ==> r[i] == UpperChar(s[i])
  {
    seq(|s|, i requires 0 <= i < |s| => UpperChar(s[i]))
  }

  predicate IsLower(s: string) {
    forall i :: 0 <= i < |s| ==> !('A' <= s[i] <= 'Z')
  }

  /** Lower-casing leaves no upper-case letter and is the identity on lower-case text. */
  lemma AsciiLowerProperties(s: string)
    ensures IsLower(AsciiLower(s))
    ensures IsLower(s) ==> AsciiLower(s) == s
  {
  }

  function DigitChar(d: nat): (c: char)
    requires d < 10
    ensures '0' <= c <= '9'
  {
    ('0' as int + d) as char
  }

  predicate IsDigits(s: string) {
    forall i :: 0 <= i < |s| ==> '0' <= s[i] <= '9'
  }

  /** `n.to_string()` for an unsigned integer. */
  function Decimal(n: nat): (r: string)
    ensures |r| > 0 && IsDigits(r)
    ensures r[0] == '0' ==> n == 0
    decreases n
  {
    if n < 10 then [DigitChar(n)] else Decimal(n / 10) + [DigitChar(n % 10)]
  }

  /** The value of a string of decimal digits. */
  function ParseDecimal(s: string): nat
    requires IsDigits(s)
    decreases |s|
  {
    if |s| == 0 then 0
    else ParseDecimal(s[..|s| - 1]) * 10 + (s[|s| - 1] as int - '0' as int)
  }

  /** The decimal rendering reads back as the number it renders. */
  lemma {:induction false} DecimalRoundTrip(n: nat)
    ensures ParseDecimal(Decimal(n)) == n
    decreases n
  {
    if n >= 10 {
      var s := Decimal(n);
      assert s[..|s| - 1] == Decimal(n / 10);
      DecimalRoundTrip(n / 10);
    }
  }
}

=== FILE: url_encoding.dfy ===
/** `url_encode` of the RPC dialect. As written it serialises the UTF-8 bytes with the
    application/x-www-form-urlencoded byte serializer of the WHATWG URL Standard
    (section 5.2), then rewrites `+` to `%20`, `*` to `%2A` and `%7E` to `~`. The module
    proves that this pipeline is exactly RFC 3986 percent-encoding (sections 2.1 and 2.3):
    unreserved characters stay, every other byte becomes `%HH` with upper-case hex. */
module UrlEncoding {
  import opened Utf8
  import opened Strings
  import opened Codecs
  import opened Outcomes

  /** `%HH` for one byte. */
  function Escape(b: byte): (r: string)
    ensures |r| == 3 && r[0] == '%' && IsHexDigit(r[1]) && IsHexDigit(r[2])
  {
    ['%'] + HexPair(b)
  }

  // ---- the code as written -----------------------------------------------------

  /** The bytes the form serializer leaves alone: `*-._`, digits and ASCII letters. */
  predicate FormKeeps(b: byte) {
    b == 0x2A || b == 0x2D || b == 0x2E || b == 0x5F
    || 0x30 <= b <= 0x39 || 0x41 <= b <= 0x5A || 0x61 <= b <= 0x7A
  }

  function FormByte(b: byte): string {
    if FormKeeps(b) then [b as char] else if b == 0x20 then "+" else Escape(b)
  }

  /** `url::form_urlencoded::byte_serialize` */
  function FormSerialize(bs: seq<byte>): string
    decreases |bs|
  {
    if |bs| == 0 then "" else FormByte(bs[0]) + FormSerialize(bs[1..])
  }

  /** `url_encode(s)`; the three rewrites are applied in this order. */
  function UrlEncode(s: string): (r: string)
    ensures r == PercentEncode(Utf8.Encode(s))
    ensures WellEncoded(r)
  {
    var form := FormSerialize(Utf8.Encode(s));
    var r := Replace(Replace(Replace(form, "+", "%20"), "*", "%2A"), "%7E", "~");
    RewritesArePercentEncoding(Utf8.Encode(s));
    PercentEncodeWellEncoded(Utf8.Encode(s));
    r
  }

  // ---- RFC 3986 ----------------------------------------------------------------

  /** `unreserved = ALPHA / DIGIT / "-" / "." / "_" / "~"` (RFC 3986 section 2.3). */
  predicate Unreserved(c: char) {
    'A' <= c <= 'Z' || 'a' <= c <= 'z' || '0' <= c <= '9' || c == '-' || c == '.' || c == '_' || c == '~'
  }

  function PercentEncodeByte(b: byte): string {
    if Unreserved(b as char) then [b as char] else Escape(b)
  }

  /** Percent-encoding of a byte string: unreserved bytes stand for themselves, every
      other byte is written `%HH` (RFC 3986 section 2.1). */
  function PercentEncode(bs: seq<byte>): string
    decreases |bs|
  {
    if |bs| == 0 then "" else PercentEncodeByte(bs[0]) + PercentEncode(bs[1..])
  }

  /** Text made only of unreserved characters and `%HH` escapes. */
  predicate WellEncoded(s: string)
    decreases |s|
  {
    |s| == 0
    || (Unreserved(s[0]) && WellEncoded(s[1..]))
    || (|s| >= 3 && s[0] == '%' && IsHexDigit(s[1]) && IsHexDigit(s[2]) && WellEncoded(s[3..]))
  }

  /** The inverse of percent-encoding; `None` on text that is not well encoded. */
  function PercentDecode(s: string): Option<seq<byte>>
    decreases |s|
  {
    if |s| == 0 then Some([])
    else if s[0] == '%' then
      if |s| < 3 || !IsHexDigit(s[1]) || !IsHexDigit(s[2]) then None
      else match PercentDecode(s[3..])
        case None => None
        case Some(rest) => Some([HexValue(s[1]) * 16 + HexValue(s[2])] + rest)
    else if Unreserved(s[0]) then
      match PercentDecode(s[1..])
        case None => None
        case Some(rest) => Some([s[0] as int] + rest)
    else None
  }

  // ---- the rewrites, token by token --------------------------------------------

  /** The serializer's output is a sequence of tokens: a single character other than
      `%`, or a `%HH` escape. */
  predicate IsToken(t: string) {
    (|t| == 1 && t[0] != '%') || (|t| == 3 && t[0] == '%' && IsHexDigit(t[1]) && IsHexDigit(t[2]))
  }

  /** A pattern that can only match a whole token: a character that is neither `%` nor
      a hex digit, or an escape. */
  predicate TokenPattern(p: string) {
    (|p| == 1 && p[0] != '%' && !IsHexDigit(p[0])) || (|p| == 3 && p[0] == '%' && IsHexDigit(p[1]) && IsHexDigit(p[2]))
  }

  /** Replacing a token pattern in a token followed by more text acts on the token alone. */
  lemma ReplaceToken(t: string, rest: string, pat: string, rep: string)
    requires IsToken(t) && TokenPattern(pat)
    ensures Replace(t + rest, pat, rep) == (if t == pat then rep else t) + Replace(rest, pat, rep)
  {
    if t == pat {
      ReplaceHit(pat, rest, rep);
    } else if |t| == 1 {
      if |pat| == 1 {
        ReplaceSkip(t[0], rest, pat, rep);
      } else {
        ReplaceSkip(t[0], rest, pat, rep);
      }
      assert t + rest == [t[0]] + rest;
    } else {
      ReplaceMissesEscape(t, rest, pat, rep);
    }
  }

  /** An escape that is not the pattern passes through whole: no match can start
      inside it. */
  lemma ReplaceMissesEscape(t: string, rest: string, pat: string, rep: string)
    requires |t| == 3 && t[0] == '%' && IsHexDigit(t[1]) && IsHexDigit(t[2])
    requires TokenPattern(pat) && t != pat
    ensures Replace(t + rest, pat, rep) == t + Replace(rest, pat, rep)
  {
    var r2 := [t[2]] + rest;
    var r1 := [t[1]] + r2;
    assert t + rest == [t[0]] + r1;
    if |pat| == 1 {
      ReplaceSkip(t[0], r1, pat, rep);
    } else {
      var s := t + rest;
      assert s[..3] == t;
      assert s[1..] == r1;
    }
    ReplaceSkip(t[1], r2, pat, rep);
    ReplaceSkip(t[2], rest, pat, rep);
    assert t == [t[0]] + ([t[1]] + [t[2]]);
  }

  /** The token of byte `b` after the first `k` rewrites. */
  function Stage(k: nat, b: byte): (t: string)
    requires k <= 3
    ensures IsToken(t)
  {
    if k == 0 then FormByte(b)
    else if k == 1 then (if b == 0x20 then "%20" else FormByte(b))
    else if k == 2 then (if b == 0x2A then "%2A" else Stage(1, b))
    else (if b == 0x7E then "~" else Stage(2, b))
  }

  function Tokens(k: nat, bs: seq<byte>): string
    requires k <= 3
    decreases |bs|
  {
    if |bs| == 0 then "" else Stage(k, bs[0]) + Tokens(k, bs[1..])
  }

  function Pattern(k: nat): string
    requires k < 3
  {
    if k == 0 then "+" else if k == 1 then "*" else "%7E"
  }

  function Rewrite(k: nat): string
    requires k < 3
  {
    if k == 0 then "%20" else if k == 1 then "%2A" else "~"
  }

  /** Rewrite `k` turns exactly the byte it targets into its next-stage token. */
  lemma StageStep(k: nat, b: byte)
    requires k < 3
    ensures TokenPattern(Pattern(k))
    ensures Stage(k + 1, b) == (if Stage(k, b) == Pattern(k) then Rewrite(k) else Stage(k, b))
  {
    assert Pattern(2) == ['%', HexDigit(7), HexDigit(14)];
    var e := Escape(b);
    if e == Pattern(2) {
      HexDigitInjective(b / 16, 7);
      HexDigitInjective(b % 16, 14);
    }
    assert e == Pattern(2) ==> b == 0x7E;
  }

  lemma {:induction false} StageRewrite(k: nat, bs: seq<byte>)
    requires k < 3
    ensures Replace(Tokens(k, bs), Pattern(k), Rewrite(k)) == Tokens(k + 1, bs)
    decreases |bs|
  {
    if |bs| > 0 {
      StageStep(k, bs[0]);
      ReplaceToken(Stage(k, bs[0]), Tokens(k, bs[1..]), Pattern(k), Rewrite(k));
      StageRewrite(k, bs[1..]);
    }
  }

  lemma {:induction false} FormSerializeIsStageZero(bs: seq<byte>)
    ensures FormSerialize(bs) == Tokens(0, bs)
    decreases |bs|
  {
    if |bs| > 0 { FormSerializeIsStageZero(bs[1..]); }
  }

  /** After the last rewrite every byte has its RFC 3986 token. */
  lemma StageThree(b: byte)
    ensures Stage(3, b) == PercentEncodeByte(b)
  {
    if b == 0x2A {
      assert HexPair(b) == "2A";
    } else if b == 0x20 {
      assert HexPair(b) == "20";
    } else if b == 0x7E {
      assert Stage(3, b) == "~";
    } else {
      assert Stage(3, b) == Stage(2, b) == Stage(1, b) == FormByte(b);
    }
  }

  lemma {:induction false} LastStageIsPercentEncoding(bs: seq<byte>)
    ensures Tokens(3, bs) == PercentEncode(bs)
    decreases |bs|
  {
    if |bs| > 0 {
      StageThree(bs[0]);
      LastStageIsPercentEncoding(bs[1..]);
    }
  }

  /** The form serialization followed by the three rewrites is RFC 3986 encoding. */
  lemma RewritesArePercentEncoding(bs: seq<byte>)
    ensures Replace(Replace(Replace(FormSerialize(bs), "+", "%20"), "*", "%2A"), "%7E", "~")
            == PercentEncode(bs)
  {
    FormSerializeIsStageZero(bs);
    StageRewrite(0, bs);
    StageRewrite(1, bs);
    StageRewrite(2, bs);
    LastStageIsPercentEncoding(bs);
  }

  lemma {:induction false} PercentEncodeWellEncoded(bs: seq<byte>)
    ensures WellEncoded(PercentEncode(bs))
    decreases |bs|
  {
    if |bs| > 0 {
      PercentEncodeWellEncoded(bs[1..]);
      var t := PercentEncodeByte(bs[0]);
      var s := t + PercentEncode(bs[1..]);
      assert s[|t|..] == PercentEncode(bs[1..]);
    }
  }

  /** Percent-decoding recovers the bytes: the encoding is injective. */
  lemma {:induction false} PercentRoundTrip(bs: seq<byte>)
    ensures PercentDecode(PercentEncode(bs)) == Some(bs)
    decreases |bs|
  {
    if |bs| > 0 {
      PercentRoundTrip(bs[1..]);
      PercentDecodeToken(bs[0], PercentEncode(bs[1..]), bs[1..]);
      assert bs == [bs[0]] + bs[1..];
    }
  }

  /** Decoding the token of one byte, followed by text that decodes. */
  lemma PercentDecodeToken(b: byte, rest: string, tail: seq<byte>)
    requires PercentDecode(rest) == Some(tail)
    ensures PercentDecode(PercentEncodeByte(b) + rest) == Some([b] + tail)
  {
    var t := PercentEncodeByte(b);
    var s := t + rest;
    assert s[|t|..] == rest;
    if !Unreserved(b as char) {
      assert s[1] == HexPair(b)[0] && s[2] == HexPair(b)[1];
    }
  }

  /** `url_encode` loses nothing: the server recovers the UTF-8 bytes of the input. */
  lemma UrlEncodeDecodes(s: string)
    ensures PercentDecode(UrlEncode(s)) == Some(Utf8.Encode(s))
  {
    PercentRoundTrip(Utf8.Encode(s));
  }

  /** Well-encoded text never contains the separators the signing strings use. */
  lemma {:induction false} WellEncodedAvoids(s: string, c: char)
    requires WellEncoded(s)
    requires !Unreserved(c) && c != '%'
    ensures c !in s
    decreases |s|
  {
    if |s| > 0 {
      if Unreserved(s[0]) && WellEncoded(s[1..]) {
        WellEncodedAvoids(s[1..], c);
        assert s == [s[0]] + s[1..];
      } else {
        WellEncodedAvoids(s[3..], c);
        assert s == s[..3] + s[3..];
      }
    }
  }

  lemma UrlEncodeSlash()
    ensures UrlEncode("/") == "%2F"
  {
    assert Utf8.Encode("/") == [0x2F];
  }

  /** Text made only of unreserved characters is left as it is. */
  lemma {:induction false} UrlEncodeUnreserved(s: string)
    requires forall i :: 0 <= i < |s| ==> Unreserved(s[i])
    ensures UrlEncode(s) == s
    decreases |s|
  {
    if |s| > 0 {
      var t := s[1..];
      forall i | 0 <= i < |t| ensures Unreserved(t[i]) { assert t[i] == s[i + 1]; }
      UrlEncodeUnreserved(t);
      assert Utf8.Encode(s) == [s[0] as int] + Utf8.Encode(t);
      PercentEncodeCons(s[0] as int, Utf8.Encode(t));
      assert s == [s[0]] + t;
    }
  }

  /** Encoding a byte followed by more bytes. */
  lemma PercentEncodeCons(b: byte, rest: seq<byte>)
    ensures PercentEncode([b] + rest) == PercentEncodeByte(b) + PercentEncode(rest)
  {
    assert ([b] + rest)[1..] == rest;
  }

  /** Encoding distributes over concatenation. */
  lemma {:induction false} PercentEncodeAppend(a: seq<byte>, b: seq<byte>)
    ensures PercentEncode(a + b) == PercentEncode(a) + PercentEncode(b)
    decreases |a|
  {
    if |a| == 0 {
      assert a + b == b;
    } else {
      assert (a + b)[1..] == a[1..] + b;
      PercentEncodeAppend(a[1..], b);
    }
  }

  // The unit test of `src/client/rpc.rs`, proved in three chunks of its bytes.

  lemma ExampleBytes(s: string)
    requires s == "begin_+_*_~_-_._\"_ end"
    ensures Utf8.Encode(s) == ExampleHead() + (ExampleMiddle() + ExampleTail())
  {
    var a, b, c := "begin_+", "_*_~_-_", "._\"_ end";
    assert s == a + (b + c);
    EncodeAppend(a, b + c);
    EncodeAppend(b, c);
    ExampleHeadBytes();
    ExampleMiddleBytes();
    ExampleTailBytes();
  }

  lemma ExampleHeadBytes()
    ensures Utf8.Encode("begin_+") == ExampleHead()
  {
  }

  lemma ExampleMiddleBytes()
    ensures Utf8.Encode("_*_~_-_") == ExampleMiddle()
  {
  }

  lemma ExampleTailBytes()
    ensures Utf8.Encode("._\"_ end") == ExampleTail()
  {
  }

  function ExampleHead(): seq<byte> { [98, 101, 103, 105, 110, 95, 43] }
  function ExampleMiddle(): seq<byte> { [95, 42, 95, 126, 95, 45, 95] }
  function ExampleTail(): seq<byte> { ExampleQuote() + ExampleSpace() }
  function ExampleQuote(): seq<byte> { [46, 95, 34, 95] }
  function ExampleSpace(): seq<byte> { [32, 101, 110, 100] }

  lemma ExampleChunks()
    ensures PercentEncode(ExampleHead()) == "begin_%2B"
    ensures PercentEncode(ExampleMiddle()) == "_%2A_~_-_"
    ensures PercentEncode(ExampleTail()) == "._%22_%20end"
  {
    ExampleHeadEncodes();
    ExampleMiddleEncodes();
    ExampleTailEncodes();
  }

  lemma ExampleHeadEncodes()
    ensures PercentEncode(ExampleHead()) == "begin_%2B"
  {
    assert HexPair(43) == "2B";
  }

  lemma ExampleMiddleEncodes()
    ensures PercentEncode(ExampleMiddle()) == "_%2A_~_-_"
  {
    assert HexPair(42) == "2A";
  }

  lemma ExampleTailEncodes()
    ensures PercentEncode(ExampleTail()) == "._%22_%20end"
  {
    PercentEncodeAppend(ExampleQuote(), ExampleSpace());
    ExampleQuoteEncodes();
    ExampleSpaceEncodes();
    assert "._%22_" + "%20end" == "._%22_%20end";
  }

  lemma ExampleQuoteEncodes()
    ensures PercentEncode(ExampleQuote()) == "._%22_"
  {
    assert HexPair(34) == "22";
  }

  lemma ExampleSpaceEncodes()
    ensures PercentEncode(ExampleSpace()) == "%20end"
  {
    assert HexPair(32) == "20";
  }

  lemma UrlEncodeExample(s: string)
    requires s == "begin_+_*_~_-_._\"_ end"
    ensures UrlEncode(s) == "begin_%2B_%2A_~_-_._%22_%20end"
  {
    ExampleBytes(s);
    var r := UrlEncode(s);
    assert r == PercentEncode(ExampleHead() + (ExampleMiddle() + ExampleTail()));
    ExampleChunks();
    PercentEncodeAppend(ExampleMiddle(), ExampleTail());
    PercentEncodeAppend(ExampleHead(), ExampleMiddle() + ExampleTail());
    ExampleJoin();
  }

  lemma ExampleJoin()
    ensures "begin_%2B" + ("_%2A_~_-_" + "._%22_%20end") == "begin_%2B_%2A_~_-_._%22_%20end"
  {
  }
}

=== FILE: utf8.dfy ===
/** The UTF-8 encoding of Rust strings (RFC 3629): `s.as_bytes()`, which is what
    `url_encode`, `body.len()` and the MAC and digest inputs see. */
module Utf8 {

  type byte = x: int | 0 <= x < 256

  /** The bytes of one Unicode scalar value. */
  function EncodeChar(c: char): (r: seq<byte>)
    ensures 1 <= |r| <= 4
    ensures |r| == 1 <==> c as int < 0x80
    ensures |r| == 1 ==> r[0] == c as int
    ensures |r| > 1 ==> forall i :: 0 <= i < |r| ==> r[i] >= 0x80
  {
    var n := c as int;
    if n < 0x80 then [n]
    else if n < 0x800 then [0xC0 + n / 64, 0x80 + n % 64]
    else if n < 0x10000 then [0xE0 + n / 4096, 0x80 + (n / 64) % 64, 0x80 + n % 64]
    else [0xF0 + n / 262144, 0x80 + (n / 4096) % 64, 0x80 + (n / 64) % 64, 0x80 + n % 64]
  }

  function Encode(s: string): (r: seq<byte>)
    ensures |r| >= |s|
    decreases |s|
  {
    if |s| == 0 then [] else EncodeChar(s[0]) + Encode(s[1..])
  }

  predicate IsAscii(s: string) {
    forall i :: 0 <= i < |s| ==> s[i] as int < 0x80
  }

  /** An ASCII string is its own byte string, one byte per character. */
  lemma {:induction false} EncodeAscii(s: string)
    requires IsAscii(s)
    ensures |Encode(s)| == |s|
    ensures forall i :: 0 <= i < |s| ==> Encode(s)[i] == s[i] as int
    decreases |s|
  {
    if |s| > 0 {
      assert IsAscii(s[1..]) by {
        forall i | 0 <= i < |s[1..]| ensures s[1..][i] as int < 0x80 { assert s[1..][i] == s[i + 1]; }
      }
      EncodeAscii(s[1..]);
    }
  }

  /** Encoding is a homomorphism: the bytes of `a + b` are those of `a` then of `b`. */
  lemma {:induction false} EncodeAppend(a: string, b: string)
    ensures Encode(a + b) == Encode(a) + Encode(b)
    decreases |a|
  {
    if |a| > 0 {
      assert (a + b)[1..] == a[1..] + b;
      EncodeAppend(a[1..], b);
    } else {
      assert a + b == b;
    }
  }
}

=== FILE: wire.dfy ===
/** What a dialect hands to the HTTP client and what comes back. Sending is not
    modelled: a transport is a function from the outgoing request to a reply, and each
    dialect's `send` classifies that reply. */
module Wire {
  import opened Outcomes
  import opened Headers
  import opened Sorting

  /** The request as it leaves the signer: the method (`verb`), URL, header map, the query pairs the
      HTTP client appends to the URL, and the body. */
  datatype Outgoing = Outgoing(verb: string, url: string, headers: HeaderMap, query: seq<Pair>, body: Option<string>)

  /** The error envelope of a non-success response, once decoded from JSON. The
      log-service envelope has no request id; it is decoded as `""`. */
  datatype Envelope = Envelope(requestId: string, code: string, message: string)

  /** `Unreachable`: the connection or the exchange failed. Otherwise the status code,
      the body text, and the body decoded as the dialect's error envelope (`None` when
      it is not one). */
  datatype Reply =
    | Unreachable
    | Reply(status: int, text: string, envelope: Option<Envelope>)

  type Transport = Outgoing -> Reply

  /** `StatusCode::is_success`: 200 to 299. */
  predicate IsSuccess(status: int) {
    200 <= status < 300
  }

  /** The classification the three async clients share: a success status is returned;
      otherwise the decoded envelope becomes `InvalidResponse`, and an undecodable body
      (or a failed exchange) is a transport error. */
  function Classify(reply: Reply): (r: Result<Reply>)
    ensures r.Ok? <==> reply.Reply? && IsSuccess(reply.status)
    ensures r.Ok? ==> r.value == reply
    ensures r.Err? && r.error.InvalidResponse? <==>
            reply.Reply? && !IsSuccess(reply.status) && reply.envelope.Some?
    ensures r.Err? && r.error.InvalidResponse? ==>
            r.error == InvalidResponse(reply.envelope.value.requestId, reply.envelope.value.code, reply.envelope.value.message)
    ensures !r.Ok? && !(r.Err? && r.error.InvalidResponse?) ==> r == Err(Transport)
  {
    match reply
    case Unreachable => Err(Transport)
    case Reply(status, _, envelope) =>
      if IsSuccess(status) then Ok(reply)
      else match envelope
        case Some(e) => Err(InvalidResponse(e.requestId, e.code, e.message))
        case None => Err(Transport)
  }
}
